=== FILE: README.md ===
# Jdbi extension dispatch and persistent configuration, in Dafny

This project models three parts of Jdbi's core configuration machinery:

- **Extension dispatch.** `Extensions` keeps three lists: the extension factories, the handler factories and the handler customizers. Each list is ordered so that the newest registration comes first. `register` wraps each factory in a delegate that belongs to the registering instance. The delegate's `attach` reads and fills that instance's metadata cache, which is keyed by extension type. An extension factory's `attach` builds the extension's `ExtensionMetaData`: every non-static method of the extension type is bound to a handler. It then assembles the proxy's dispatch table, adding the `toString`/`equals`/`hashCode` defaults. `InternalExtensionFactory` is the backstop. It handles bridge methods and default/instance methods.
- **Persistent configuration.** `JdbiConfigList`, `JdbiConfigSet` and `JdbiConfigMap` never change in place: every "modifying" call returns a new value. `ColumnMappers`, `JdbiCollectors`, `Handlers` (of the sqlobject module) and `PojoTypes` keep their factories, and their memos, in these collections. `RowMappers` keeps its factories in a `JdbiConfigList` and copies its memo into a new `CopyOnWriteHashMap`. `ReflectionMappers` copies its list of column-name matchers into a new `ArrayList`. A `createCopy` of any of these six registries is independent of its origin. `CodecFactory` keeps its codecs in a `ConcurrentHashMap` and has no `createCopy`.
- **Caching.** `InternalJdbiCache` is a loading cache with a FIFO size bound. `CachingSqlParser` puts it in front of a parser.

Java objects become immutable Dafny values. A setter returns the updated value, and `createCopy` returns an equal value. Copies are therefore isolated by construction; the lemmas about copies state what the source's tests check. The one exception is the metadata cache of `Extensions`, where Java shares state between a copy and its origin. A copy holds the same factory delegates as its origin, and each delegate keeps using the cache of the instance that registered it. The model therefore gives each `Extensions` instance an identity and keeps all metadata caches in a `Store` indexed by identity (`Extensions.AttachThroughCopy`). Whatever the core calls but does not define comes in as function parameters. This covers:

- reflection (`Reflect.ClassWorld`);
- factories, handlers and customizers written elsewhere (`Plugins`, `HandlerPlugins`, `Runtime`, `Build`, `Behaviour`);
- what a configuration customizer does to a configuration;
- the parser behind the SQL cache.

A Java `null` is `None` or `Lang.Null`, and an exception is the `Failure` of a `Result`. Foreign calls whose result the core maps through `Optional.map` return an `Option`, so a null from them is modelled; most foreign calls are taken as never throwing, and "## Left out" names the members this concerns.

Modules follow the source files:

- `wrappers.dfy`, `search.dfy`, `linked_sets.dfy` and `lang.dfy` hold shared helpers: Option/Result, first-match searches, `LinkedHashSet`, Java values, exceptions and `Integer.toHexString`.
- `config_list.dfy`, `config_set.dfy`, `config_map.dfy` and `config_customizer_chain.dfy` hold the persistent collections.
- `config_holder.dfy` holds the configuration holder of the registry tests.
- One file per registry.
- `internal_jdbi_cache.dfy` and `caching_sql_parser.dfy` hold the cache.
- `reflect.dfy`, `extension_handler.dfy`, `internal_extension_factory.dfy`, `extension_factory.dfy`, `extension_meta_data.dfy` and `extensions.dfy` hold extension dispatch.

Behaviour of the code worth noting:

- `register` on `Extensions` does not clear the metadata cache.
- The proxy defaults are put into the dispatch table after the metadata's handlers, so they replace entries for the same method. The comment at `core/src/main/java/org/jdbi/v3/core/extension/Extensions.java:260-261` says they are added only when missing.
- Attaching through a copy of `Extensions` caches the metadata in the instance that registered the factory, not in the copy (`Extensions.AttachThroughCopy`).
- The `finalize` default looks the method up on the extension type both times, so it is never installed (`Extensions.FinalizeDefaultNeverInstalled`).
- `JdbiConfigList.setValue` past the end of the list always throws (`JdbiConfigList.SetValue`).

## Model

| member | source | states |
|---|---|---|
| JdbiConfigList.ConfigList.AddFirst | core/src/main/java/org/jdbi/v3/core/config/internal/JdbiConfigList.java:87-91 | the new elements come first, in order, followed by the old contents shifted back by their count |
| JdbiConfigList.ConfigList.AddLast | core/src/main/java/org/jdbi/v3/core/config/internal/JdbiConfigList.java:93-97 | the old contents are kept in place and the new elements are appended in order |
| JdbiConfigList.ConfigList.GetValue | core/src/main/java/org/jdbi/v3/core/config/internal/JdbiConfigList.java:112-114 | returns the element exactly when the index is within the list; otherwise throws IndexOutOfBounds with the index and the size |
| JdbiConfigList.Create | core/src/main/java/org/jdbi/v3/core/config/internal/JdbiConfigList.java:33-35 | the new list is empty |
| JdbiConfigList.CreateSized | core/src/main/java/org/jdbi/v3/core/config/internal/JdbiConfigList.java:37-43 | fails exactly for a negative size; otherwise holds that many nulls |
| JdbiConfigList.SetValue | core/src/main/java/org/jdbi/v3/core/config/internal/JdbiConfigList.java:99-110 | succeeds exactly for an index inside the list, replaces only that slot and keeps the size; past the end it throws, with IllegalArgument when index+1 overflows to a negative capacity |
| JdbiConfigList.GetValueAfterAddFirst | core/src/main/java/org/jdbi/v3/core/config/internal/JdbiConfigList.java:87-91 | getValue after addFirst reads the new elements first, then the old list at the index shifted back by their count |
| JdbiConfigList.GetValueAfterSetValue | core/src/main/java/org/jdbi/v3/core/config/internal/JdbiConfigList.java:99-114 | getValue after setValue reads the new element at the set index and the old values everywhere else |
| JdbiConfigSet.ConfigSet.AddElements | core/src/main/java/org/jdbi/v3/core/config/internal/JdbiConfigSet.java:73-77 | the result holds exactly the old elements and the added ones |
| JdbiConfigSet.ConfigSet.RemoveElements | core/src/main/java/org/jdbi/v3/core/config/internal/JdbiConfigSet.java:84-88 | the result holds exactly the old elements that were not removed |
| JdbiConfigSet.Create | core/src/main/java/org/jdbi/v3/core/config/internal/JdbiConfigSet.java:32-38 | the new set is empty |
| JdbiConfigSet.AddPresentIsIdentity | core/src/main/java/org/jdbi/v3/core/config/internal/JdbiConfigSet.java:73-77 | adding elements that are all present gives an equal set |
| JdbiConfigSet.RemoveUndoesAdd | core/src/main/java/org/jdbi/v3/core/config/internal/JdbiConfigSet.java:73-88 | removing newly added elements restores the original set |
| JdbiConfigSet.SiblingsIndependent | core/src/main/java/org/jdbi/v3/core/config/internal/JdbiConfigSet.java:73-77 | two sets derived from one origin do not see each other's additions |
| JdbiConfigMap.ConfigMap.GetElement | core/src/main/java/org/jdbi/v3/core/config/internal/JdbiConfigMap.java:57-59 | returns the stored value, or null when the key is unmapped |
| JdbiConfigMap.ConfigMap.PutElement | core/src/main/java/org/jdbi/v3/core/config/internal/JdbiConfigMap.java:41-49 | a null value returns the receiver itself; otherwise the key maps to the value and no other key changes |
| JdbiConfigMap.ConfigMap.PutElements | core/src/main/java/org/jdbi/v3/core/config/internal/JdbiConfigMap.java:51-55 | the given mappings override the old ones, and keys not given keep their old values |
| JdbiConfigMap.ConfigMap.Clear | core/src/main/java/org/jdbi/v3/core/config/internal/JdbiConfigMap.java:65-70 | nothing is mapped afterwards, and an already empty map is returned as it is |
| JdbiConfigMap.Create | core/src/main/java/org/jdbi/v3/core/config/internal/JdbiConfigMap.java:25-31 | the new map has no keys |
| JdbiConfigMap.PutElementKeepsNoNulls | core/src/main/java/org/jdbi/v3/core/config/internal/JdbiConfigMap.java:41-63 | with putElement only, hasKey and a non-null getElement agree |
| JdbiConfigMap.PutElementsMayStoreNull | core/src/main/java/org/jdbi/v3/core/config/internal/JdbiConfigMap.java:51-63 | putElements can store a null, so hasKey holds while getElement is null |
| ConfigCustomizerChain.Empty | core/src/main/java/org/jdbi/v3/core/config/internal/ConfigCustomizerChain.java:24 | a new chain has no customizers |
| ConfigCustomizerChain.AddCustomizer | core/src/main/java/org/jdbi/v3/core/config/internal/ConfigCustomizerChain.java:26-28 | a new customizer is appended; one already present keeps its place and the chain is unchanged |
| ConfigCustomizerChain.CustomizeRunsInOrder | core/src/main/java/org/jdbi/v3/core/config/internal/ConfigCustomizerChain.java:31-35 | customize applies the customizers in insertion order |
| ConfigCustomizerChain.CustomizeRunsEachOnce | core/src/main/java/org/jdbi/v3/core/config/internal/ConfigCustomizerChain.java:24-35 | each registered customizer runs exactly once per customize, however often it was added |
| ConfigCustomizerChain.AddCustomizerRunsLast | core/src/main/java/org/jdbi/v3/core/config/internal/ConfigCustomizerChain.java:26-35 | a newly added customizer runs after all earlier ones, on their result |
| ConfigCustomizerChain.EmptyChainIsIdentity | core/src/main/java/org/jdbi/v3/core/config/internal/ConfigCustomizerChain.java:31-35 | an empty chain leaves the configuration unchanged |
| LinkedSets.Add | core/src/main/java/org/jdbi/v3/core/config/internal/ConfigCustomizerChain.java:27 | LinkedHashSet.add keeps elements distinct and in insertion order, and adding a present element changes nothing |
| LinkedSets.AddAll | core/src/main/java/org/jdbi/v3/core/extension/ExtensionMetaData.java:117-118 | LinkedHashSet.addAll keeps the old order as a prefix and contains exactly the old and the added elements |
| LinkedSets.AddAllIdempotent | core/src/main/java/org/jdbi/v3/core/extension/ExtensionMetaData.java:117-118 | adding elements that are all present already changes nothing |
| ConfigHolder.NewHolder | core/src/test/java/org/jdbi/v3/core/config/TestConfigRegistry.java:207-211 | a new holder has an empty list, set and map, and the existing holders are untouched |
| ConfigHolder.CreateCopy | core/src/test/java/org/jdbi/v3/core/config/TestConfigRegistry.java:213-222 | the copy holds the same three collections as its origin |
| ConfigHolder.AddList | core/src/test/java/org/jdbi/v3/core/config/TestConfigRegistry.java:224-227 | appends to the holder's list and changes no other holder or field |
| ConfigHolder.AddSet | core/src/test/java/org/jdbi/v3/core/config/TestConfigRegistry.java:229-232 | adds to the holder's set and changes no other holder or field |
| ConfigHolder.AddMap | core/src/test/java/org/jdbi/v3/core/config/TestConfigRegistry.java:234-237 | maps the key in the holder's map and changes no other holder or field |
| ConfigHolder.Parent | core/src/test/java/org/jdbi/v3/core/config/TestConfigRegistry.java:39-45 | the fixture's parent holds list1 and set1 |
| ConfigHolder.ModifyParentAfterCopy | core/src/test/java/org/jdbi/v3/core/config/TestConfigRegistry.java:68-91 | changing the parent after a copy leaves the child as it was, and changing the child leaves its own later copy as it was |
| ConfigHolder.SiblingsAreIndependent | core/src/test/java/org/jdbi/v3/core/config/TestConfigRegistry.java:118-136 | changing one child leaves the parent and the sibling as they were |
| ColumnMappers.Register | core/src/main/java/org/jdbi/v3/core/mapper/ColumnMappers.java:155-159 | the factory goes to the front and the memo is emptied |
| ColumnMappers.RegisterEach | core/src/main/java/org/jdbi/v3/core/mapper/ColumnMappers.java:48-57 | registering factories one after another leaves the last registered first, ahead of the factories already there, and empties the memo |
| ColumnMappers.NewRegistersDefaults | core/src/main/java/org/jdbi/v3/core/mapper/ColumnMappers.java:43-58 | the ten built-in factories, last registered first, an empty memo, and nulls coalesced to primitive defaults |
| ColumnMappers.CreateCopy | core/src/main/java/org/jdbi/v3/core/mapper/ColumnMappers.java:60-65 | the copy shares the factory list, the memo and the coalescing flag |
| ColumnMappers.SetCoalesceNullPrimitivesToDefaults | core/src/main/java/org/jdbi/v3/core/mapper/ColumnMappers.java:231-233 | sets the flag and nothing else |
| ColumnMappers.FindFor | core/src/main/java/org/jdbi/v3/core/mapper/ColumnMappers.java:204-218 | a memoized type is answered without asking any factory; otherwise the first factory's present mapper is found, initialised once and memoized, and only the factories up to it are asked |
| ColumnMappers.Consulted | core/src/main/java/org/jdbi/v3/core/mapper/ColumnMappers.java:209-212 | the factories the stream asks end at the first one that builds a mapper (that mapper is the lookup's answer) and every one before it builds none; with no mapper found, all factories are asked |
| ColumnMappers.EmptyMemoIsCoherent | core/src/main/java/org/jdbi/v3/core/mapper/ColumnMappers.java:155-159 | an emptied memo agrees with any factory list |
| ColumnMappers.RepeatedFindForIsMemoized | core/src/main/java/org/jdbi/v3/core/mapper/ColumnMappers.java:204-218 | a second findFor of the same type gives the same answer, asks no factory and changes nothing |
| ColumnMappers.RegisterTakesPriority | core/src/main/java/org/jdbi/v3/core/mapper/ColumnMappers.java:155-218 | after register, a factory that builds a mapper for the type wins; otherwise the answer is the old one |
| RowMappers.Register | core/src/main/java/org/jdbi/v3/core/mapper/RowMappers.java:123-128 | the factory goes to the front and the memo is emptied |
| RowMappers.NewRegistersDefaults | core/src/main/java/org/jdbi/v3/core/mapper/RowMappers.java:42-50 | the POJO factory comes first, then the map-entry factory, with an empty memo |
| RowMappers.CreateCopy | core/src/main/java/org/jdbi/v3/core/mapper/RowMappers.java:52-57 | the copy has the same factories and its own memo with the same entries |
| RowMappers.FindFor | core/src/main/java/org/jdbi/v3/core/mapper/RowMappers.java:162-179 | a memoized type is answered as memoized; otherwise factories are asked in order until one builds a mapper, which is initialised and memoized; no other memo entry changes |
| RowMappers.PojoMapperFactoryFirst | core/src/main/java/org/jdbi/v3/core/mapper/RowMappers.java:42-50 | a fresh registry asks the POJO factory before the map-entry factory |
| RowMappers.RegisterTakesPriority | core/src/main/java/org/jdbi/v3/core/mapper/RowMappers.java:123-179 | the newest factory that builds a mapper wins over all older ones |
| RowMappers.CopyHasOwnMemo | core/src/main/java/org/jdbi/v3/core/mapper/RowMappers.java:52-57 | registering on a copy empties only the copy's memo and leaves the original's factories in place |
| JdbiCollectors.Register | core/src/main/java/org/jdbi/v3/core/collector/JdbiCollectors.java:55-60 | the factory goes to the front and the memo is emptied |
| JdbiCollectors.RegisterCollector | core/src/main/java/org/jdbi/v3/core/collector/JdbiCollectors.java:70-72 | registers a single-type collector factory at the front |
| JdbiCollectors.RegisterEach | core/src/main/java/org/jdbi/v3/core/collector/JdbiCollectors.java:36-42 | registering factories one after another leaves the last registered first, ahead of the factories already there, and empties the memo |
| JdbiCollectors.NewRegistersDefaults | core/src/main/java/org/jdbi/v3/core/collector/JdbiCollectors.java:32-43 | the seven built-in factories, last registered first, with an empty memo |
| JdbiCollectors.CreateCopy | core/src/main/java/org/jdbi/v3/core/collector/JdbiCollectors.java:45-48 | the copy shares both the factory list and the memo |
| JdbiCollectors.EmptyMemoIsCoherent | core/src/main/java/org/jdbi/v3/core/collector/JdbiCollectors.java:55-60 | an emptied memo agrees with any factory list |
| JdbiCollectors.FindFactoryFor | core/src/main/java/org/jdbi/v3/core/collector/JdbiCollectors.java:96-106 | the first accepting factory, memoized per container type, an empty answer included |
| JdbiCollectors.FindFor | core/src/main/java/org/jdbi/v3/core/collector/JdbiCollectors.java:80-83 | with a memo that agrees with the factory list: the collector the first accepting factory builds, none when no factory accepts or it builds none; the memo keeps agreeing |
| JdbiCollectors.FindElementTypeFor | core/src/main/java/org/jdbi/v3/core/collector/JdbiCollectors.java:91-94 | with a memo that agrees with the factory list: the element type the first accepting factory gives, none when no factory accepts or it gives none; the memo keeps agreeing |
| JdbiCollectors.RepeatedFindFactoryForIsMemoized | core/src/main/java/org/jdbi/v3/core/collector/JdbiCollectors.java:96-106 | a repeated lookup changes nothing and agrees with the first |
| JdbiCollectors.RegisterTakesPriority | core/src/main/java/org/jdbi/v3/core/collector/JdbiCollectors.java:55-106 | the newest accepting registration is chosen; if it does not accept, the old choice stands |
| JdbiCollectors.RegisterThenFind | core/src/main/java/org/jdbi/v3/core/collector/JdbiCollectors.java:55-106 | right after registering a factory that accepts the type, the collector and the element type are that factory's |
| Handlers.New | sqlobject/src/main/java/org/jdbi/v3/sqlobject/Handlers.java:40-42 | a new registry has no factories |
| Handlers.Register | sqlobject/src/main/java/org/jdbi/v3/sqlobject/Handlers.java:57-60 | the factory goes to the front |
| Handlers.GetFactories | sqlobject/src/main/java/org/jdbi/v3/sqlobject/Handlers.java:48-50 | the factories in priority order, position for position |
| Handlers.CreateCopy | sqlobject/src/main/java/org/jdbi/v3/sqlobject/Handlers.java:44-46 | the copy shares the list |
| Handlers.FindFor | sqlobject/src/main/java/org/jdbi/v3/sqlobject/Handlers.java:62-66 | none exactly when no factory builds a handler; otherwise the handler of the earliest factory that builds one |
| Handlers.RegisterTakesPriority | sqlobject/src/main/java/org/jdbi/v3/sqlobject/Handlers.java:57-66 | the last registered factory that builds a handler wins, and an empty registry finds nothing |
| PojoTypes.NewIsEmpty | core/src/main/java/org/jdbi/v3/core/mapper/reflect/internal/PojoTypes.java:28-30 | a new registry binds no type to a factory |
| PojoTypes.Register | core/src/main/java/org/jdbi/v3/core/mapper/reflect/internal/PojoTypes.java:41-44 | the key maps to the factory and other keys are unchanged; a null factory changes nothing |
| PojoTypes.CreateCopy | core/src/main/java/org/jdbi/v3/core/mapper/reflect/internal/PojoTypes.java:32-34 | the copy shares the factory map |
| PojoTypes.FindFor | core/src/main/java/org/jdbi/v3/core/mapper/reflect/internal/PojoTypes.java:46-49 | properties exactly when a factory is registered for the erased type and creates non-null properties, and then those properties; empty otherwise |
| PojoTypes.FindForAfterRegister | core/src/main/java/org/jdbi/v3/core/mapper/reflect/internal/PojoTypes.java:41-49 | after a registration its own erased type gets what the factory creates, empty when that is null; other types are served as before, and a new registry finds nothing |
| ReflectionMappers.New | core/src/main/java/org/jdbi/v3/core/mapper/reflect/ReflectionMappers.java:36-42 | the case-insensitive then snake-case matchers, no strict matching, attributes made accessible |
| ReflectionMappers.GetColumnNameMatchers | core/src/main/java/org/jdbi/v3/core/mapper/reflect/ReflectionMappers.java:55-57 | the current matchers, in order |
| ReflectionMappers.SetColumnNameMatchers | core/src/main/java/org/jdbi/v3/core/mapper/reflect/ReflectionMappers.java:64-67 | the getter then returns the given matchers, and the two flags are unchanged |
| ReflectionMappers.SetStrictMatching | core/src/main/java/org/jdbi/v3/core/mapper/reflect/ReflectionMappers.java:89-92 | sets only the strict flag |
| ReflectionMappers.SetMakeAttributesAccessible | core/src/main/java/org/jdbi/v3/core/mapper/reflect/ReflectionMappers.java:115-118 | sets only the accessibility flag |
| ReflectionMappers.CreateCopy | core/src/main/java/org/jdbi/v3/core/mapper/reflect/ReflectionMappers.java:44-48 | the copy has the same matchers and flags |
| ReflectionMappers.GettersAfterSetters | core/src/main/java/org/jdbi/v3/core/mapper/reflect/ReflectionMappers.java:55-118 | after any run of setter calls, each getter reads what the last call of its setter gave, or the starting value when there was none, and a copy reads the same |
| CodecFactory.Of | core/src/main/java/org/jdbi/v3/core/codec/CodecFactory.java:150 | a plain type is qualified by no qualifiers |
| CodecFactory.New | core/src/main/java/org/jdbi/v3/core/codec/CodecFactory.java:79-82 | a null map throws "codecMap is null"; a null codec value throws; otherwise every entry is copied |
| CodecFactory.ForSingleCodec | core/src/main/java/org/jdbi/v3/core/codec/CodecFactory.java:72-74 | a factory that knows exactly the one type, or a failure when the codec is null |
| CodecFactory.ResolveType | core/src/main/java/org/jdbi/v3/core/codec/CodecFactory.java:115-117 | the codec of the type, present exactly when the type is known |
| CodecFactory.Prepare | core/src/main/java/org/jdbi/v3/core/codec/CodecFactory.java:86-88 | the codec's argument function, present exactly for known types whose codec gives a non-null function |
| CodecFactory.BuildArgument | core/src/main/java/org/jdbi/v3/core/codec/CodecFactory.java:100-102 | the prepared function applied to the value, present exactly when prepare is and the function gives a non-null argument |
| CodecFactory.BuildColumnMapper | core/src/main/java/org/jdbi/v3/core/codec/CodecFactory.java:105-107 | the codec's column mapper, present exactly for known types whose codec gives a non-null mapper |
| CodecFactory.EmptyBuilderResolvesNothing | core/src/main/java/org/jdbi/v3/core/codec/CodecFactory.java:62-64 | a factory built from a fresh builder has no codec for any type |
| CodecFactory.AddCodec | core/src/main/java/org/jdbi/v3/core/codec/CodecFactory.java:136-142 | a null type, then a null codec, throw with their messages; otherwise the type maps to the codec and other types are unchanged |
| CodecFactory.AddCodecForType | core/src/main/java/org/jdbi/v3/core/codec/CodecFactory.java:147-153 | adds the codec under the unqualified type |
| CodecFactory.Build | core/src/main/java/org/jdbi/v3/core/codec/CodecFactory.java:166-168 | the built factory resolves exactly the builder's types to their codecs |
| CodecFactory.BuiltFactoryResolvesLastCodec | core/src/main/java/org/jdbi/v3/core/codec/CodecFactory.java:136-168 | adding two codecs for one type resolves to the later one |
| InternalJdbiCache.NewBuilder | core/src/main/java/org/jdbi/v3/core/cache/internal/InternalJdbiCache.java:124-130 | the default maximum size is -1, unbounded |
| InternalJdbiCache.Builder.WithMaxSize | core/src/main/java/org/jdbi/v3/core/cache/internal/InternalJdbiCache.java:142-146 | sets the maximum size |
| InternalJdbiCache.Build | core/src/main/java/org/jdbi/v3/core/cache/internal/InternalJdbiCache.java:132-135 | an empty valid cache without a loader, with the builder's bound |
| InternalJdbiCache.BuildWithLoader | core/src/main/java/org/jdbi/v3/core/cache/internal/InternalJdbiCache.java:137-140 | an empty valid cache with the given loader and the builder's bound |
| InternalJdbiCache.GetWithLoader | core/src/main/java/org/jdbi/v3/core/cache/internal/InternalJdbiCache.java:56-63 | keeps the FIFO invariant; a hit returns the value without loading; a miss loads once and stores a non-null value, evicting the oldest key when full; a null loader throws |
| InternalJdbiCache.Get | core/src/main/java/org/jdbi/v3/core/cache/internal/InternalJdbiCache.java:43-54 | through the cache's own loader as getWithLoader does; without a loader a plain read that changes nothing |
| InternalJdbiCache.ComputeIfAbsentThenExpunge | core/src/main/java/org/jdbi/v3/core/cache/internal/InternalJdbiCache.java:81-122 | computeIfAbsent followed by expunge keeps the invariant and has the lookup effect described above |
| InternalJdbiCache.GetStats | core/src/main/java/org/jdbi/v3/core/cache/internal/InternalJdbiCache.java:65-79 | reports the number of stored entries, never above the bound when bounded, and the bound |
| InternalJdbiCache.GetAll | core/src/main/java/org/jdbi/v3/core/cache/internal/InternalJdbiCache.java:43-54 | a run of gets keeps the invariant, the loader and the bound |
| InternalJdbiCache.HitsChangeNothing | core/src/test/java/org/jdbi/v3/core/cache/internal/InternalJdbiCacheTest.java:41-65 | looking up stored keys loads nothing and does not refresh their place in the queue |
| InternalJdbiCache.FifoKeepsNewest | core/src/main/java/org/jdbi/v3/core/cache/internal/InternalJdbiCache.java:81-122 | with new keys, each is loaded once and the cache keeps exactly the newest maxSize keys, oldest first |
| InternalJdbiCache.FirstRoundKeepsNewest | core/src/test/java/org/jdbi/v3/core/cache/internal/InternalJdbiCacheTest.java:93-116 | after 2n new keys with bound n, the cache holds the last n and reports n of n |
| InternalJdbiCache.ExpungeScenario | core/src/test/java/org/jdbi/v3/core/cache/internal/InternalJdbiCacheTest.java:93-133 | the FIFO test: 2n loads, stats n of n, the newest n are hits, and the oldest n are loaded again |
| CachingSqlParser.NewParserWith | core/src/main/java/org/jdbi/v3/core/statement/CachingSqlParser.java:27-29 | an empty parse cache with internalParse as the loader and the builder's bound |
| CachingSqlParser.NewParser | core/src/main/java/org/jdbi/v3/core/statement/CachingSqlParser.java:23-25 | the default parser caches at most 1000 statements |
| CachingSqlParser.Parse | core/src/main/java/org/jdbi/v3/core/statement/CachingSqlParser.java:32-38 | parsing keeps the cache invariant |
| CachingSqlParser.ParseFirstTime | core/src/main/java/org/jdbi/v3/core/statement/CachingSqlParser.java:32-38 | an unseen statement is parsed once; an IllegalArgumentException becomes an UnableToCreateStatementException carrying it, other failures pass unchanged and are not cached |
| CachingSqlParser.ParseCachedStatement | core/src/main/java/org/jdbi/v3/core/statement/CachingSqlParser.java:32-38 | a cached statement is returned without parsing again |
| CachingSqlParser.ParseTwiceLoadsOnce | core/src/main/java/org/jdbi/v3/core/statement/CachingSqlParser.java:27-38 | a statement that parsed is a cache hit the second time |
| Reflect.SafeMethodLookup | core/src/main/java/org/jdbi/v3/core/extension/Extensions.java:282 | the public method with the given name and parameter types, present exactly when one exists |
| Lang.AddInt32 | core/src/main/java/org/jdbi/v3/core/config/internal/JdbiConfigList.java:104 | Java int addition, wrapping around past the 32-bit range |
| Lang.ToHexStringRoundTrip | core/src/main/java/org/jdbi/v3/core/extension/Extensions.java:267 | Integer.toHexString reads back as the unsigned value of the int |
| ExtensionHandler.Invoke | core/src/main/java/org/jdbi/v3/core/extension/ExtensionHandler.java:27-43 | a user handler and a method-handle handler with a target delegate to the runtime |
| ExtensionHandler.Warm | core/src/main/java/org/jdbi/v3/core/extension/ExtensionHandler.java:33-34 | warming is a no-op except for handlers that override it |
| ExtensionHandler.EqualsHandlerIsIdentity | core/src/main/java/org/jdbi/v3/core/extension/ExtensionHandler.java:27 | equals is identity with the first argument, and fails without one |
| ExtensionHandler.HashCodeHandlerIgnoresArguments | core/src/main/java/org/jdbi/v3/core/extension/ExtensionHandler.java:28 | hashCode is the identity hash of the target, whatever the arguments |
| ExtensionHandler.NullHandlerReturnsNull | core/src/main/java/org/jdbi/v3/core/extension/ExtensionHandler.java:29 | the null handler returns null |
| ExtensionHandler.MissingHandlerAlwaysThrows | core/src/main/java/org/jdbi/v3/core/extension/ExtensionHandler.java:36-43 | the missing handler always throws IllegalState naming the simple class name and the method |
| ExtensionHandler.MethodHandleNeedsTarget | core/src/main/java/org/jdbi/v3/core/extension/InternalExtensionFactory.java:81-88 | a method-handle handler refuses a null target with the proxy-factory message |
| ExtensionHandler.ToStringNamesTypeAndHash | core/src/main/java/org/jdbi/v3/core/extension/Extensions.java:265-269 | the proxy's toString is the prefix, the type name, "@" and hex digits that read back as the hash code |
| InternalExtensionFactory.BuildBridgeHandler | core/src/main/java/org/jdbi/v3/core/extension/InternalExtensionFactory.java:162-197 | empty exactly when no public method is a candidate: not a bridge, same name and arity, each parameter assignable; otherwise the first candidate's handler, or a failure when it cannot be unreflected |
| InternalExtensionFactory.BuildInstanceHandler | core/src/main/java/org/jdbi/v3/core/extension/InternalExtensionFactory.java:143-160 | a method-handle handler exactly when the method can be unreflected, otherwise UnableToCreateExtension |
| ExtensionFactory.Attach | core/src/main/java/org/jdbi/v3/core/extension/InternalExtensionFactory.java:59-62 | the internal factory refuses to attach |
| ExtensionFactory.DefaultsContributeNothing | core/src/main/java/org/jdbi/v3/core/extension/ExtensionFactory.java:51-92 | the interface defaults contribute no handler factories or customizers, no init data, and no proxy factory |
| ExtensionFactory.InternalFactoryIsBackstop | core/src/main/java/org/jdbi/v3/core/extension/InternalExtensionFactory.java:54-79 | the internal factory accepts nothing, refuses attach, offers bridge then instance handler factories, and is a proxy factory |
| ExtensionMetaData.CollectMethods | core/src/main/java/org/jdbi/v3/core/extension/ExtensionMetaData.java:117-118 | the public then the declared methods, each once |
| ExtensionMetaData.AmbiguityIsDistinctPair | core/src/main/java/org/jdbi/v3/core/extension/ExtensionMetaData.java:120-126 | a group of two or more means two distinct non-synthetic methods with the same name and parameter types |
| ExtensionMetaData.NewBuilder | core/src/main/java/org/jdbi/v3/core/extension/ExtensionMetaData.java:113-131 | fails with UnableToCreateExtension exactly for ambiguous methods; otherwise an empty builder over the collected methods |
| ExtensionMetaData.AddInstanceConfigCustomizer | core/src/main/java/org/jdbi/v3/core/extension/ExtensionMetaData.java:133-136 | adds to the instance chain only |
| ExtensionMetaData.AddMethodConfigCustomizer | core/src/main/java/org/jdbi/v3/core/extension/ExtensionMetaData.java:138-142 | creates the method's chain on first use, adds to it, and leaves the other methods' chains alone |
| ExtensionMetaData.AddMethodHandler | core/src/main/java/org/jdbi/v3/core/extension/ExtensionMetaData.java:144-147 | binds the method to the handler, replacing an earlier binding, and changes no other binding |
| ExtensionMetaData.ApplyInitActions | core/src/main/java/org/jdbi/v3/core/extension/ExtensionFactory.java:75 | the factory's builder calls in order; the bound methods are exactly those with an explicit handler |
| ExtensionMetaData.LastHandlerOf | core/src/main/java/org/jdbi/v3/core/extension/ExtensionMetaData.java:144-146 | the handler of the last addMethodHandler call for the method, none exactly when no call names it |
| ExtensionMetaData.ApplyInitActionsInstanceChain | core/src/main/java/org/jdbi/v3/core/extension/ExtensionMetaData.java:133-136 | the instance chain afterwards is the builder's chain with the instance customizers added in call order, each once |
| ExtensionMetaData.ApplyInitActionsMethodChains | core/src/main/java/org/jdbi/v3/core/extension/ExtensionMetaData.java:138-142 | a method has a chain exactly when it had one or a call named it, and the chain is its old or a new chain with that method's customizers added in call order |
| ExtensionMetaData.ApplyInitActionsHandlers | core/src/main/java/org/jdbi/v3/core/extension/ExtensionMetaData.java:144-146 | each method's handler comes from its last addMethodHandler call; a method no call names keeps its handler or stays without one |
| ExtensionMetaData.Build | core/src/main/java/org/jdbi/v3/core/extension/ExtensionMetaData.java:149-172 | keeps explicit handlers; binds every other non-static method to the customized found handler, or the missing handler; warms each handler once; the first failure stops the build |
| ExtensionMetaData.BuildsToDetermines | core/src/main/java/org/jdbi/v3/core/extension/ExtensionMetaData.java:149-172 | the outcome `build()` is specified to have is unique: the same metadata, or the exception of the one method that fails first |
| ExtensionMetaData.SkipKeepsBuildInv | core/src/main/java/org/jdbi/v3/core/extension/ExtensionMetaData.java:155-160 | skipping a static or already bound method keeps the bound handlers, the explicit ones and the warmed handlers as they were |
| ExtensionMetaData.BindKeepsBuildInv | core/src/main/java/org/jdbi/v3/core/extension/ExtensionMetaData.java:164-168 | binding an unbound method adds exactly that method, with the customized chain handler, and appends that handler to the warmed ones |
| ExtensionMetaData.BuildStep | core/src/main/java/org/jdbi/v3/core/extension/ExtensionMetaData.java:156-169 | one pass of the loop: a static or already handled method leaves the handlers alone; any other method is bound to the customized found handler (or the missing handler) after warming it; a failure is the first one at this method, with every earlier method bound |
| ExtensionMetaData.ConfigurationsRunTheirChains | core/src/main/java/org/jdbi/v3/core/extension/ExtensionMetaData.java:71-91 | the instance configuration runs the instance chain; a method configuration runs that method's chain, or nothing when it has none |
| ExtensionMetaData.MethodCustomizersAccumulate | core/src/main/java/org/jdbi/v3/core/extension/ExtensionMetaData.java:138-142 | two customizers for one method both run, in order, and other methods are unaffected |
| ExtensionMetaData.NewInvoker | core/src/main/java/org/jdbi/v3/core/extension/ExtensionMetaData.java:181-187 | the invoker's method configuration is the method's configuration derived from the instance configuration |
| ExtensionMetaData.CreateExtensionHandlerInvoker | core/src/main/java/org/jdbi/v3/core/extension/ExtensionMetaData.java:97-100 | the invoker carries the method's handler, and none when the method has none |
| ExtensionMetaData.SafeVarargs | core/src/main/java/org/jdbi/v3/core/extension/ExtensionMetaData.java:190 | null arguments become an empty array |
| ExtensionMetaData.InvokerInvoke | core/src/main/java/org/jdbi/v3/core/extension/ExtensionMetaData.java:189-192 | invokes the handler on the target with the arguments; with no handler it throws NullPointerException |
| Extensions.Register | core/src/main/java/org/jdbi/v3/core/extension/Extensions.java:78-86 | the factory, in a delegate owned by this instance, its handler factories and its customizers each go to the front as one block; identity and proxy switch are kept |
| Extensions.New | core/src/main/java/org/jdbi/v3/core/extension/Extensions.java:47-56 | a new identity with an empty cache; the internal factory is the only factory, with bridge then instance handler factories; proxies allowed |
| Extensions.CreateCopy | core/src/main/java/org/jdbi/v3/core/extension/Extensions.java:63-70 | the copy is a new instance whose cache starts with the origin's entries; it holds the origin's delegates themselves, still owned by the instances that registered them, and the same handler lists and proxy switch |
| Extensions.FindFactoryFor | core/src/main/java/org/jdbi/v3/core/extension/Extensions.java:133-143 | none exactly when no factory accepts; otherwise the delegate of the first accepting factory in the list |
| Extensions.HasExtensionFor | core/src/main/java/org/jdbi/v3/core/extension/Extensions.java:94-96 | true exactly when some factory accepts the type |
| Extensions.FindFactory | core/src/main/java/org/jdbi/v3/core/extension/Extensions.java:151-161 | the delegate, not the wrapped factory, of the first factory of the given kind; none exactly when there is none |
| Extensions.FindExtensionHandlerFor | core/src/main/java/org/jdbi/v3/core/extension/Extensions.java:112-123 | empty exactly when no factory accepts and builds or throws; otherwise the result of the earliest such factory |
| Extensions.ApplyExtensionHandlerCustomizers | core/src/main/java/org/jdbi/v3/core/extension/Extensions.java:125-131 | with no customizers the handler is unchanged |
| Extensions.SetAllowProxy | core/src/main/java/org/jdbi/v3/core/extension/Extensions.java:170-173 | sets only the proxy switch |
| Extensions.OnCreateProxy | core/src/main/java/org/jdbi/v3/core/extension/Extensions.java:194-199 | throws IllegalState with the generator message exactly when proxies are disallowed |
| Extensions.RegisterTakesPriority | core/src/main/java/org/jdbi/v3/core/extension/Extensions.java:78-143 | an accepting new factory is found first; otherwise the search is unchanged |
| Extensions.RegisterHandlerFactoriesTakePriority | core/src/main/java/org/jdbi/v3/core/extension/Extensions.java:78-123 | the new factory's handler factories answer first, and the old ones only when they do not |
| Extensions.RegisterCustomizersRunFirst | core/src/main/java/org/jdbi/v3/core/extension/Extensions.java:78-131 | the new factory's customizers run first, and the older ones on their result |
| Extensions.RegisterKeepsBackstop | core/src/main/java/org/jdbi/v3/core/extension/Extensions.java:53-86 | the internal factory and its two handler factories stay last through every registration |
| Extensions.BackstopAlwaysAnswers | core/src/main/java/org/jdbi/v3/core/extension/InternalExtensionFactory.java:143-160 | with the backstop in place every method gets a handler or an exception |
| Extensions.CheckMethodHandler | core/src/main/java/org/jdbi/v3/core/extension/Extensions.java:281-290 | a default is offered only when the extension type lacks the method |
| Extensions.FinalizeDefaultNeverInstalled | core/src/main/java/org/jdbi/v3/core/extension/Extensions.java:275-276 | the finalize lookup never yields a method |
| Extensions.BuildMetaData | core/src/main/java/org/jdbi/v3/core/extension/Extensions.java:237-241 | an ambiguous type fails with the builder's exception; otherwise the outcome is that of `build()` on the builder after the factory's init data, against the handler factories and customizers of the configuration's `Extensions` (`BuildOutcome`): the first method that cannot be bound or warmed gives the exception, or every non-static method is bound to its customized handler |
| Extensions.AddDefaults | core/src/main/java/org/jdbi/v3/core/extension/Extensions.java:265-276 | the table afterwards holds exactly the handled methods and the found defaults; a handled method that is no default keeps its invoker |
| Extensions.AddDefaultsLastWins | core/src/main/java/org/jdbi/v3/core/extension/Extensions.java:265-276 | a found default that no later default repeats ends up bound to the proxy with its own handler and the method configuration |
| Extensions.AddDefaultsBindsProxy | core/src/main/java/org/jdbi/v3/core/extension/Extensions.java:265-276 | every entry the defaults add is bound to the proxy |
| Extensions.BackingTable | core/src/main/java/org/jdbi/v3/core/extension/Extensions.java:257-258 | one invoker per method with metadata, running that method's handler on the backing object |
| Extensions.AddDefaultsOverBacking | core/src/main/java/org/jdbi/v3/core/extension/Extensions.java:257-276 | after the defaults, the table has the handled methods and the found defaults; handled methods that are no default still run their handler on the backing object; every entry runs on the backing object or the proxy |
| Extensions.DispatchTable | core/src/main/java/org/jdbi/v3/core/extension/Extensions.java:245-276 | one entry per handled method and per found default; handled methods that are not defaults run on the backing object; defaults run on the proxy |
| Extensions.CachedMetaData | core/src/main/java/org/jdbi/v3/core/extension/Extensions.java:201-241 | metadata comes from the cache of the instance that registered the delegate; a type not cached there yet gets the outcome of building its metadata (`BuildOutcome`), which is cached on success; no other cache changes; a failed build caches nothing |
| Extensions.Attach | core/src/main/java/org/jdbi/v3/core/extension/Extensions.java:234-279 | only the owner's cache changes, and a type not cached yet gains exactly the metadata `BuildOutcome` admits; it fails exactly when that build fails, with the build's exception, or when the backing attach fails, with that exception; otherwise the proxy's table is the dispatch table of the cached metadata, the backing object (attached only for a non-proxy factory) and the instance configuration |
| Extensions.AttachedDeterminesStore | core/src/main/java/org/jdbi/v3/core/extension/Extensions.java:237-241 | from one store, attaching a type leaves one possible store: a type not cached yet gains the one metadata building admits, or nothing and the build's one exception |
| Extensions.AttachedDetermines | core/src/main/java/org/jdbi/v3/core/extension/Extensions.java:234-279 | from one store, attaching a type through a delegate has one possible resulting store and one possible outcome |
| Extensions.FindFor | core/src/main/java/org/jdbi/v3/core/extension/Extensions.java:107-110 | none, and no cache change, exactly when no factory accepts; otherwise the one outcome (`AttachedDetermines`) of attaching through the first accepting delegate, in the cache of the instance that registered it, a first attach building the metadata as `BuildOutcome` states |
| Extensions.AttachTwice | core/src/main/java/org/jdbi/v3/core/extension/Extensions.java:237-241 | two attaches through one delegate build the metadata at most once, and not at all when it was cached |
| Extensions.AttachThroughCopy | core/src/main/java/org/jdbi/v3/core/extension/Extensions.java:63-70 | after registering and copying, a successful findFor on the copy fills the origin's cache and leaves the copy's own; the origin's next findFor changes no cache |
| Extensions.ProxyInvoke | core/src/main/java/org/jdbi/v3/core/extension/Extensions.java:249 | a call goes to the invoker registered for the method, and a method without one throws NullPointerException |

## Left out

- Reflection, MethodHandles and java.lang.reflect.Proxy are not modelled. Methods, classes and the unreflect step are data and parameters.
- Concurrency is left out: the concurrent maps and copy-on-write lists, and races in computeIfAbsent. Every operation is modelled as atomic.
- JdbiClassUtils is not part of this model. safeMethodLookup is modelled as a lookup of a public method by name and parameter types.
- The handle supplier, invokeInContext and the ExtensionContext are not modelled. An invoker's method configuration is kept but not observed.
- Sneaky rethrowing is left out. The warm(config) argument is ignored, because the core handlers do not use it.
- Exception messages that Java formats from a `Class` or `Method` object use its name instead of its `toString()`. The ambiguous-methods message leaves out the list of methods. Other messages formatted from objects become an empty string.
- ExtensionMetaData.ApplyInitActions: its contract states validity and which methods get a handler; the chains and the handlers themselves are stated by ApplyInitActionsInstanceChain, ApplyInitActionsMethodChains and ApplyInitActionsHandlers.
- Value equality stands for reference identity.
- The inference interceptors of ColumnMappers and RowMappers are not modelled, and neither are setRegistry and mapper init beyond recording which mappers were initialised.
- The branch of InternalJdbiCache.expunge for an empty queue is not modelled: the cache invariant shows it cannot be reached.
- Extensions.ApplyExtensionHandlerCustomizers: its contract states only the empty case; the order of the customizers is stated by Extensions.RegisterCustomizersRunFirst.
- CachingSqlParser.Parse: its contract states only that the cache invariant is kept; its results are stated by the ParseFirstTime, ParseCachedStatement and ParseTwiceLoadsOnce lemmas.
- ExtensionHandler.Invoke: its contract states only the delegating cases; the built-in handlers are stated by the lemmas that follow it.
- The asUnmodifiable views, stream, iterator and forEach of the config collections are the underlying sequence, set and map themselves.
- CachingSqlParser.NewParserWith: takes only the builder of `InternalJdbiCache`, where the source takes any `JdbiCacheBuilder` (the Caffeine one, say); ParseTwiceLoadsOnce therefore holds for the internal FIFO cache only, and other caches are not part of this model.
- ColumnMappers.FindFor: a factory's `build` and a mapper's `init` are taken as never throwing; in Java such an exception leaves `findFor` with the memo unchanged.
- RowMappers.FindFor: a factory's `build` and a mapper's `init` are taken as never throwing.
- JdbiCollectors.FindFactoryFor: a factory's `accepts` and `build` are taken as never throwing.
- Handlers.FindFor: a handler factory's `buildHandler` is taken as never throwing.
- Extensions.FindFactoryFor: an extension factory's `accepts` is taken as never throwing.
- Extensions.FindExtensionHandlerFor: a handler factory's `accepts` is taken as never throwing (its `buildHandler` may fail).
- Extensions.ApplyExtensionHandlerCustomizers: a handler customizer is taken as never throwing.
- Extensions.BuildMetaData: the factory's `buildExtensionInitData` and the configuration customizers are taken as never throwing.
- ConfigCustomizerChain.CustomizeRunsInOrder: a configuration customizer is taken as never throwing.
- CodecFactory.Prepare: `getArgumentFunction`, the argument function and `getColumnMapper` are taken as never throwing; their null results are modelled.
- PojoTypes.FindFor: a properties factory's `create` is taken as never throwing; its null result is modelled.
- The delegate's own `isProxyFactory()`, which always answers true, is not modelled: nothing in the core asks it of a delegate, and `attach` asks the wrapped factory instead.

=== FILE: caching_sql_parser.dfy ===
/** CachingSqlParser: parsed SQL served from a loading cache keyed by the
    SQL text, with the subclass's `internalParse` as the loader. */
module CachingSqlParser {
  import opened Wrappers
  import opened Lang
  import C = InternalJdbiCache

  /** `internalParse(sql)`: a parsed statement, or what parsing threw. */
  type InternalParse<!P> = string -> Result<P, Exception>

  /** The parse cache's maximum size when none is configured. */
  const DefaultMaxSize: int := 1_000

  const ParseFailureMessage: string := "Exception parsing for named parameter replacement"

  datatype Parser<P> = Parser(cache: C.Cache<string, P>)

  ghost predicate Valid<P>(p: Parser<P>) {
    C.Valid(p.cache)
  }

  /** The loader the cache is built with: `this::internalParse`, which
      never yields null. */
  function Loader<P>(internalParse: InternalParse<P>): C.Loader<string, P> {
    sql => match internalParse(sql)
      case Success(v) => Success(Some(v))
      case Failure(e) => Failure(e)
  }

  /** `CachingSqlParser(cacheBuilder)` over an internal cache builder. */
  function NewParserWith<P>(builder: C.Builder, internalParse: InternalParse<P>): (p: Parser<P>)
    ensures Valid(p)
    ensures p.cache.loader == Some(Loader(internalParse)) && p.cache.maxSize == builder.maxSize
    ensures forall sql :: sql !in p.cache.entries
  {
    Parser(C.BuildWithLoader(builder, Loader(internalParse)))
  }

  /** `CachingSqlParser()`: a FIFO cache of at most 1000 statements. */
  function NewParser<P>(internalParse: InternalParse<P>): (p: Parser<P>)
    ensures Valid(p) && p.cache.maxSize == 1000 && C.Bounded(p.cache)
    ensures p.cache.loader == Some(Loader(internalParse))
  {
    NewParserWith(C.NewBuilder().WithMaxSize(DefaultMaxSize), internalParse)
  }

  /** The outcome of `parse`: the parser afterwards, the statement (`None`
      for a null one from a loader that yields null) or the exception, and
      how many times `internalParse` ran. */
  datatype Parsed<P> = Parsed(parser: Parser<P>, result: Result<Option<P>, Exception>, parses: nat)

  /** `parse(sql, ctx)`: an `IllegalArgumentException` from the cache
      becomes an `UnableToCreateStatementException` with it as the cause;
      anything else, a null statement included, passes unchanged. */
  function Parse<P>(p: Parser<P>, sql: string): (r: Parsed<P>)
    requires Valid(p)
    ensures Valid(r.parser)
  {
    var g := C.Get(p.cache, sql);
    var result :=
      match g.value
      case Success(v) => Success(v)
      case Failure(IllegalArgument(m)) => Failure(UnableToCreateStatement(ParseFailureMessage, IllegalArgument(m)))
      case Failure(e) => Failure(e);
    Parsed(Parser(g.cache), result, g.loads)
  }

  /** A parser built by either constructor parses a statement the way
      `internalParse` does, translating only the illegal-argument failure,
      and calls `internalParse` once the first time a statement is seen. */
  lemma ParseFirstTime<P>(p: Parser<P>, internalParse: InternalParse<P>, sql: string)
    requires Valid(p) && p.cache.loader == Some(Loader(internalParse))
    requires sql !in p.cache.entries
    ensures var r := Parse(p, sql);
      && r.parses == 1
      && (internalParse(sql).Success? ==>
            r.result == Success(Some(internalParse(sql).value)) && sql in r.parser.cache.entries)
      && (internalParse(sql).Failure? && internalParse(sql).error.IllegalArgument? ==>
            r.result == Failure(UnableToCreateStatement(ParseFailureMessage, internalParse(sql).error)))
      && (internalParse(sql).Failure? && !internalParse(sql).error.IllegalArgument? ==>
            r.result == Failure(internalParse(sql).error))
      && (internalParse(sql).Failure? ==> r.parser == p)
  {
    var g := C.Get(p.cache, sql);
    assert g.value == Loader(internalParse)(sql);
  }

  /** A statement still in the cache is returned as it was parsed, without
      calling `internalParse` again and without changing the parser. */
  lemma ParseCachedStatement<P>(p: Parser<P>, sql: string)
    requires Valid(p) && p.cache.loader.Some?
    requires sql in p.cache.entries
    ensures Parse(p, sql) == Parsed(p, Success(Some(p.cache.entries[sql])), 0)
  {
  }

  /** Once a statement parsed, parsing it again right away is a cache hit:
      `internalParse` is not called again and the same statement comes
      back. A failed parse is not cached. */
  lemma ParseTwiceLoadsOnce<P>(p: Parser<P>, internalParse: InternalParse<P>, sql: string)
    requires Valid(p) && p.cache.loader == Some(Loader(internalParse))
    ensures var r1 := Parse(p, sql);
      var r2 := Parse(r1.parser, sql);
      && r1.parses <= 1
      && (r1.result.Success? ==> r2.result == r1.result && r2.parses == 0)
      && (r1.result.Failure? ==> r1.parser == p)
  {
    var r1 := Parse(p, sql);
    if sql !in p.cache.entries {
      ParseFirstTime(p, internalParse, sql);
      if internalParse(sql).Success? {
        ParseCachedStatement(r1.parser, sql);
        assert r1.parser.cache.entries[sql] == internalParse(sql).value;
      }
    }
  }
}

=== FILE: codec_factory.dfy ===
/** CodecFactory: codecs keyed by qualified type. A codec supplies an
    argument function and a column mapper; what those are and do is code
    outside the model and comes in as functions. */
module CodecFactory {
  import opened Wrappers
  import opened Lang

  /** `QualifiedType`: a type with a set of qualifier annotations. */
  datatype QualifiedType<T> = QualifiedType(ty: T, qualifiers: set<nat>)

  /** `QualifiedType.of(type)`: no qualifiers. */
  function Of<T>(t: T): (q: QualifiedType<T>)
    ensures q.ty == t && q.qualifiers == {}
  {
    QualifiedType(t, {})
  }

  datatype Codec = Codec(id: nat)

  datatype Factory<T(==)> = Factory(codecMap: map<QualifiedType<T>, Codec>)

  /** `new CodecFactory(codecMap)`: a null map, and a null codec (refused by
      the concurrent map) are rejected; otherwise every entry is copied. */
  function New<T(==)>(codecMap: Option<map<QualifiedType<T>, Option<Codec>>>): (r: Result<Factory<T>, Exception>)
    ensures codecMap.None? ==> r == Failure(NullPointer("codecMap is null"))
    ensures codecMap.Some? ==> (r.Success? <==> forall q :: q in codecMap.value ==> codecMap.value[q].Some?)
    ensures r.Success? ==> r.value.codecMap.Keys == codecMap.value.Keys
    ensures r.Success? ==> forall q :: q in codecMap.value ==> Some(r.value.codecMap[q]) == codecMap.value[q]
  {
    if codecMap.None? then Failure(NullPointer("codecMap is null"))
    else if exists q :: q in codecMap.value && codecMap.value[q].None? then Failure(NullPointer(""))
    else Success(Factory(map q | q in codecMap.value :: codecMap.value[q].value))
  }

  /** `forSingleCodec(type, codec)` */
  function ForSingleCodec<T(==)>(t: QualifiedType<T>, codec: Option<Codec>): (r: Result<Factory<T>, Exception>)
    ensures r.Success? <==> codec.Some?
    ensures r.Success? ==> r.value.codecMap.Keys == {t} && r.value.codecMap[t] == codec.value
  {
    var m := map[t := codec];
    assert t in m && m[t] == codec;
    New(Some(m))
  }

  /** `resolveType(qualifiedType)`: a plain lookup, null when absent. */
  function ResolveType<T(==)>(f: Factory<T>, t: QualifiedType<T>): (c: Option<Codec>)
    ensures c.Some? <==> t in f.codecMap
    ensures c.Some? ==> c.value == f.codecMap[t]
  {
    if t in f.codecMap then Some(f.codecMap[t]) else None
  }

  /** `prepare(type, config)`: the codec's argument function. The codec's
      `getArgumentFunction` may return null (`None`), and `Optional.map`
      then makes the result empty. */
  function Prepare<T(==), Fn>(f: Factory<T>, argumentFunction: Codec -> Option<Fn>, t: QualifiedType<T>): (r: Option<Fn>)
    ensures r.Some? <==> t in f.codecMap && argumentFunction(f.codecMap[t]).Some?
    ensures r.Some? ==> r == argumentFunction(f.codecMap[t])
  {
    match ResolveType(f, t)
    case Some(c) => argumentFunction(c)
    case None => None
  }

  /** `build(type, value, config)`: the prepared function applied to the
      value; a null argument from it (`None`) makes the result empty. */
  function BuildArgument<T(==), Fn, V, A>(
    f: Factory<T>, argumentFunction: Codec -> Option<Fn>, apply: (Fn, V) -> Option<A>, t: QualifiedType<T>, value: V)
    : (r: Option<A>)
    ensures r.Some? <==> Prepare(f, argumentFunction, t).Some? && apply(Prepare(f, argumentFunction, t).value, value).Some?
    ensures r.Some? ==> r == apply(Prepare(f, argumentFunction, t).value, value)
  {
    match Prepare(f, argumentFunction, t)
    case Some(fn) => apply(fn, value)
    case None => None
  }

  /** `build(type, config)`: the codec's column mapper; a codec whose
      `getColumnMapper` returns null (`None`) gives an empty result, so the
      lookup moves on to the next factory. */
  function BuildColumnMapper<T(==), M>(f: Factory<T>, columnMapper: Codec -> Option<M>, t: QualifiedType<T>): (r: Option<M>)
    ensures r.Some? <==> t in f.codecMap && columnMapper(f.codecMap[t]).Some?
    ensures r.Some? ==> r == columnMapper(f.codecMap[t])
  {
    match ResolveType(f, t)
    case Some(c) => columnMapper(c)
    case None => None
  }

  /** `CodecFactory.Builder` with the default factory function. */
  datatype Builder<T(==)> = Builder(codecMap: map<QualifiedType<T>, Codec>)

  function NewBuilder<T(==)>(): Builder<T> {
    Builder(map[])
  }

  /** `addCodec(qualifiedType, codec)`: both must be non-null; a later
      codec for the same type replaces the earlier one. */
  function AddCodec<T(==)>(b: Builder<T>, t: Option<QualifiedType<T>>, codec: Option<Codec>): (r: Result<Builder<T>, Exception>)
    ensures t.None? ==> r == Failure(NullPointer("type is null"))
    ensures t.Some? && codec.None? ==> r == Failure(NullPointer("codec is null"))
    ensures r.Success? <==> t.Some? && codec.Some?
    ensures r.Success? ==> r.value.codecMap.Keys == b.codecMap.Keys + {t.value}
    ensures r.Success? ==> r.value.codecMap[t.value] == codec.value
    ensures r.Success? ==> forall q :: q in b.codecMap && q != t.value ==> r.value.codecMap[q] == b.codecMap[q]
  {
    if t.None? then Failure(NullPointer("type is null"))
    else if codec.None? then Failure(NullPointer("codec is null"))
    else Success(Builder(b.codecMap[t.value := codec.value]))
  }

  /** `addCodec(type, codec)` and `addCodec(genericType, codec)`: the type
      without qualifiers. */
  function AddCodecForType<T(==)>(b: Builder<T>, t: Option<T>, codec: Option<Codec>): (r: Result<Builder<T>, Exception>)
    ensures r.Success? <==> t.Some? && codec.Some?
    ensures r.Success? ==> r.value.codecMap == b.codecMap[Of(t.value) := codec.value]
  {
    AddCodec(b, if t.None? then None else Some(Of(t.value)), codec)
  }

  /** `build()`: the factory over the accumulated map. */
  function Build<T(==,!new)>(b: Builder<T>): (f: Factory<T>)
    ensures forall q :: ResolveType(f, q) == if q in b.codecMap then Some(b.codecMap[q]) else None
  {
    var r := New(Some(map q | q in b.codecMap :: Some(b.codecMap[q])));
    r.value
  }

  /** A factory built from a fresh builder resolves no type. */
  lemma EmptyBuilderResolvesNothing<T(!new)>(t: QualifiedType<T>)
    ensures ResolveType(Build(NewBuilder()), t).None?
  {
  }

  /** Codecs added through the builder are what the built factory
      resolves: the last one added for a type. */
  lemma BuiltFactoryResolvesLastCodec<T(!new)>(b: Builder<T>, t: QualifiedType<T>, c1: Codec, c2: Codec)
    ensures var b1 := AddCodec(b, Some(t), Some(c1)).value;
      var b2 := AddCodec(b1, Some(t), Some(c2)).value;
      ResolveType(Build(b2), t) == Some(c2)
  {
  }
}

=== FILE: column_mappers.dfy ===
/** ColumnMappers: column mapper factories in priority order and a memo of
    lookups per qualified type. `register` prepends and forgets the memo;
    `findFor` answers from the memo, or asks the factories in order and
    remembers the answer, an empty one included. What a factory builds for a
    type is code outside the model and comes in as `build`. */
module ColumnMappers {
  import opened Wrappers
  import opened Search
  import JdbiConfigList
  import JdbiConfigMap

  /** The factories the constructor registers, and any others. */
  datatype Factory =
    | SqlArrayMapperFactory | JavaTimeMapperFactory | SqlTimeMapperFactory
    | InternetMapperFactory | EssentialsMapperFactory | BoxedMapperFactory
    | PrimitiveMapperFactory | OptionalMapperFactory | EnumMapperFactory
    | NVarcharMapper
    | UserFactory(id: nat)

  /** `factory.build(type, registry)` */
  type Build<!Q, M> = (Factory, Q) -> Option<M>

  datatype Registry<!Q(!new), M> = Registry(
    factories: JdbiConfigList.ConfigList<Factory>,
    cache: JdbiConfigMap.ConfigMap<Q, Option<M>>,
    coalesceNullPrimitivesToDefaults: bool)

  /** The unmemoized answer: the first factory's present result. */
  function Lookup<Q, M>(factories: seq<Factory>, build: Build<Q, M>, t: Q): Option<M> {
    FirstSome(factories, f => build(f, t))
  }

  /** Every memoized answer is the one the current factories give. */
  ghost predicate Coherent<Q(!new), M>(r: Registry<Q, M>, build: Build<Q, M>) {
    && JdbiConfigMap.NoNulls(r.cache)
    && forall t :: r.cache.HasKey(t) ==> r.cache.GetElement(t) == Some(Lookup(r.factories.items, build, t))
  }

  /** `register(factory)`: first in priority, memo emptied. */
  function Register<Q(!new), M>(r: Registry<Q, M>, f: Factory): (r': Registry<Q, M>)
    ensures r'.factories.items == [f] + r.factories.items
    ensures r'.cache.entries == map[]
    ensures r'.coalesceNullPrimitivesToDefaults == r.coalesceNullPrimitivesToDefaults
  {
    r.(factories := r.factories.AddFirst([f]), cache := r.cache.Clear())
  }

  /** Registers the factories from the last to the first, so that the
      first one ends up with the highest priority. */
  function RegisterEach<Q(!new), M>(r: Registry<Q, M>, fs: seq<Factory>): (r': Registry<Q, M>)
    ensures r'.factories.items == fs + r.factories.items
    ensures |fs| > 0 ==> r'.cache.entries == map[]
    ensures r'.coalesceNullPrimitivesToDefaults == r.coalesceNullPrimitivesToDefaults
  {
    if |fs| == 0 then r
    else
      var r' := Register(RegisterEach(r, fs[1..]), fs[0]);
      assert [fs[0]] + (fs[1..] + r.factories.items) == fs + r.factories.items;
      r'
  }

  /** `new ColumnMappers()`: registers the built-in factories, the array
      factory first and the `NVarchar` mapper last, so the latter is asked
      first. */
  function New<Q(!new), M>(): Registry<Q, M> {
    var empty := Registry(JdbiConfigList.Create(), JdbiConfigMap.Create(), true);
    RegisterEach(empty, [
      NVarcharMapper, EnumMapperFactory, OptionalMapperFactory, PrimitiveMapperFactory,
      BoxedMapperFactory, EssentialsMapperFactory, InternetMapperFactory,
      SqlTimeMapperFactory, JavaTimeMapperFactory, SqlArrayMapperFactory])
  }

  lemma NewRegistersDefaults<Q(!new), M>()
    ensures New<Q, M>().factories.items == [
      NVarcharMapper, EnumMapperFactory, OptionalMapperFactory, PrimitiveMapperFactory,
      BoxedMapperFactory, EssentialsMapperFactory, InternetMapperFactory,
      SqlTimeMapperFactory, JavaTimeMapperFactory, SqlArrayMapperFactory]
    ensures New<Q, M>().coalesceNullPrimitivesToDefaults
    ensures New<Q, M>().cache.entries == map[]
  {
    var empty: Registry<Q, M> := Registry(JdbiConfigList.Create(), JdbiConfigMap.Create(), true);
    assert empty.factories.items == [];
  }

  /** `createCopy()`: shares the factory list and the memo and keeps the
      coalescing flag. */
  function CreateCopy<Q(!new), M>(r: Registry<Q, M>): (c: Registry<Q, M>)
    ensures c.factories == r.factories && c.cache == r.cache
    ensures c.coalesceNullPrimitivesToDefaults == r.coalesceNullPrimitivesToDefaults
  {
    Registry(r.factories, r.cache, r.coalesceNullPrimitivesToDefaults)
  }

  /** `setCoalesceNullPrimitivesToDefaults(b)` */
  function SetCoalesceNullPrimitivesToDefaults<Q(!new), M>(r: Registry<Q, M>, b: bool): (r': Registry<Q, M>)
    ensures r'.coalesceNullPrimitivesToDefaults == b
    ensures r'.factories == r.factories && r'.cache == r.cache
  {
    r.(coalesceNullPrimitivesToDefaults := b)
  }

  /** What `findFor` returns: the registry afterwards, the mapper, the
      mappers it initialised, and the factories whose `build` it called. */
  datatype Found<!Q(!new), M> = Found(registry: Registry<Q, M>, mapper: Option<M>, initialized: seq<M>, consulted: seq<Factory>)

  /** `findFor(qualifiedType)`. The stream stops at the first present
      result, so only the factories up to it are asked. */
  function FindFor<Q(!new), M>(r: Registry<Q, M>, build: Build<Q, M>, t: Q): (f: Found<Q, M>)
    ensures f.registry.factories == r.factories
    ensures f.registry.coalesceNullPrimitivesToDefaults == r.coalesceNullPrimitivesToDefaults
    ensures f.registry.cache.HasKey(t)
    ensures r.cache.HasKey(t) ==> f.registry == r && f.initialized == [] && f.consulted == []
    ensures !r.cache.HasKey(t) ==> f.initialized == (if f.mapper.Some? then [f.mapper.value] else [])
    ensures !r.cache.HasKey(t) ==> f.mapper == Lookup(r.factories.items, build, t)
    ensures !r.cache.HasKey(t) ==>
      && f.consulted <= r.factories.items
      && (f.mapper.None? ==> f.consulted == r.factories.items)
      && (f.mapper.Some? ==> |f.consulted| > 0 && build(f.consulted[|f.consulted| - 1], t) == f.mapper)
      && (forall i :: 0 <= i < |f.consulted| - 1 ==> build(f.consulted[i], t).None?)
    ensures Coherent(r, build) ==> Coherent(f.registry, build)
    ensures Coherent(r, build) ==> f.mapper == Lookup(r.factories.items, build, t)
  {
    if r.cache.HasKey(t) then
      var cached := match r.cache.GetElement(t) case Some(m) => m case None => None;
      Found(r, cached, [], [])
    else
      var fs := r.factories.items;
      var mapper := Lookup(fs, build, t);
      var initialized := if mapper.Some? then [mapper.value] else [];
      Found(r.(cache := r.cache.PutElement(t, Some(mapper))), mapper, initialized, Consulted(fs, build, t))
  }

  /** The factories the stream asks: all of them up to the first one that
      builds a mapper, or all of them when none does. */
  function Consulted<Q, M>(fs: seq<Factory>, build: Build<Q, M>, t: Q): (c: seq<Factory>)
    ensures c <= fs
    ensures Lookup(fs, build, t).None? ==> c == fs
    ensures Lookup(fs, build, t).Some? ==> |c| > 0 && build(c[|c| - 1], t) == Lookup(fs, build, t)
    ensures forall i :: 0 <= i < |c| - 1 ==> build(c[i], t).None?
  {
    match FirstIndex(fs, f => build(f, t).Some?)
    case Some(i) =>
      FirstSomeIsEarliest(fs, f => build(f, t), i);
      fs[..i + 1]
    case None => fs
  }

  /** An empty memo agrees with any factories: so a new registry, and one
      right after `register`, are coherent. */
  lemma EmptyMemoIsCoherent<Q(!new), M>(r: Registry<Q, M>, build: Build<Q, M>)
    requires r.cache.entries == map[]
    ensures Coherent(r, build)
  {
  }

  /** Memoization: a second lookup of the same type, with no registration
      in between, asks no factory, initialises nothing, changes nothing and
      gives the same answer as the first, an empty one included. */
  lemma RepeatedFindForIsMemoized<Q(!new), M>(r: Registry<Q, M>, build: Build<Q, M>, t: Q)
    requires Coherent(r, build)
    ensures var f1 := FindFor(r, build, t);
      var f2 := FindFor(f1.registry, build, t);
      f2 == Found(f1.registry, f1.mapper, [], [])
  {
  }

  /** The newest registration wins: a factory that builds a mapper for the
      type is the answer after `register`, even over a memoized answer;
      one that builds nothing leaves the answer as the older factories give
      it. */
  lemma RegisterTakesPriority<Q(!new), M>(r: Registry<Q, M>, build: Build<Q, M>, f: Factory, t: Q)
    requires Coherent(r, build)
    ensures build(f, t).Some? ==> FindFor(Register(r, f), build, t).mapper == build(f, t)
    ensures build(f, t).None? ==> FindFor(Register(r, f), build, t).mapper == FindFor(r, build, t).mapper
  {
    FirstSomeAppend([f], r.factories.items, g => build(g, t));
  }
}

=== FILE: config_customizer_chain.dfy ===
/** ConfigCustomizerChain: customizers kept in a LinkedHashSet and applied
    in insertion order. What a customizer does to a configuration is code
    outside the model and comes in as the function `apply`. */
module ConfigCustomizerChain {
  import LinkedSets
  import opened Search

  datatype Chain<Cz> = Chain(customizers: seq<Cz>)

  ghost predicate Valid<Cz>(c: Chain<Cz>) {
    LinkedSets.Distinct(c.customizers)
  }

  function Empty<Cz>(): (r: Chain<Cz>)
    ensures Valid(r) && |r.customizers| == 0
  {
    Chain([])
  }

  /** `addCustomizer(c)`: appended unless already present, in which case it
      keeps its first position. */
  function AddCustomizer<Cz(==,!new)>(chain: Chain<Cz>, c: Cz): (r: Chain<Cz>)
    requires Valid(chain)
    ensures Valid(r)
    ensures forall x :: x in r.customizers <==> x in chain.customizers || x == c
    ensures c in chain.customizers ==> r == chain
    ensures c !in chain.customizers ==> r.customizers == chain.customizers + [c]
  {
    Chain(LinkedSets.Add(chain.customizers, c))
  }

  /** `customize(config)`: every customizer in turn, each on the result of
      the previous one. */
  function Customize<Cz, C>(chain: Chain<Cz>, apply: (Cz, C) -> C, config: C): C {
    FoldLeft((cfg, cz) => apply(cz, cfg), config, chain.customizers)
  }

  /** The log-writing customizer: records which customizer ran. */
  function Record<Cz>(cz: Cz, log: seq<Cz>): seq<Cz> {
    log + [cz]
  }

  /** Customizers run in insertion order: a configuration that logs each
      application ends with the chain's contents, in order, after what it
      held before. */
  lemma {:induction false} CustomizeRunsInOrder<Cz>(chain: Chain<Cz>, log: seq<Cz>)
    ensures Customize(chain, Record, log) == log + chain.customizers
    decreases |chain.customizers|
  {
    var cs := chain.customizers;
    if |cs| > 0 {
      CustomizeRunsInOrder(Chain(cs[1..]), Record(cs[0], log));
      assert log + [cs[0]] + cs[1..] == log + cs;
    }
  }

  /** Each registered customizer runs exactly once per `customize` call,
      however often it was added. */
  lemma CustomizeRunsEachOnce<Cz>(chain: Chain<Cz>, c: Cz)
    requires Valid(chain)
    ensures multiset(Customize(chain, Record, []))[c] == if c in chain.customizers then 1 else 0
  {
    CustomizeRunsInOrder(chain, []);
    assert [] + chain.customizers == chain.customizers;
    DistinctCount(chain.customizers, c);
  }

  lemma {:induction false} DistinctCount<T>(s: seq<T>, x: T)
    requires LinkedSets.Distinct(s)
    ensures multiset(s)[x] == if x in s then 1 else 0
    decreases |s|
  {
    if |s| > 0 {
      assert s == [s[0]] + s[1..];
      assert LinkedSets.Distinct(s[1..]) by {
        forall i, j | 0 <= i < j < |s[1..]| ensures s[1..][i] != s[1..][j] {
          assert s[1..][i] == s[i + 1] && s[1..][j] == s[j + 1];
        }
      }
      DistinctCount(s[1..], x);
      if x == s[0] {
        assert x !in s[1..] by {
          forall j | 0 <= j < |s[1..]| ensures s[1..][j] != x {
            assert s[1..][j] == s[j + 1];
          }
        }
      }
      assert multiset(s) == multiset{s[0]} + multiset(s[1..]);
    }
  }

  /** A customizer added to the chain runs last, on the result of the ones
      before it; adding one that is present changes nothing. */
  lemma AddCustomizerRunsLast<Cz(!new), C>(chain: Chain<Cz>, c: Cz, apply: (Cz, C) -> C, config: C)
    requires Valid(chain)
    ensures Customize(AddCustomizer(chain, c), apply, config) ==
      if c in chain.customizers then Customize(chain, apply, config)
      else apply(c, Customize(chain, apply, config))
  {
    if c !in chain.customizers {
      FoldLeftAppend((cfg, cz) => apply(cz, cfg), config, chain.customizers, [c]);
    }
  }

  /** An empty chain leaves the configuration as it is. */
  lemma EmptyChainIsIdentity<Cz, C>(apply: (Cz, C) -> C, config: C)
    ensures Customize(Empty<Cz>(), apply, config) == config
  {
  }
}

=== FILE: config_holder.dfy ===
/** A configuration holder over the persistent collections, as the
    configuration registry tests use one: a mutable object whose fields are
    a `JdbiConfigList`, a `JdbiConfigSet` and a `JdbiConfigMap`, and whose
    copy shares all three. Holders live in a store indexed by reference;
    a mutation replaces one holder's fields and nothing else. */
module ConfigHolder {
  import opened Wrappers
  import JdbiConfigList
  import JdbiConfigSet
  import JdbiConfigMap

  datatype TestConfig = TestConfig(
    list: JdbiConfigList.ConfigList<string>,
    elements: JdbiConfigSet.ConfigSet<string>,
    entries: JdbiConfigMap.ConfigMap<string, string>)

  /** The holders, a reference being an index. */
  datatype Store = Store(holders: seq<TestConfig>)

  datatype Created = Created(store: Store, ref: nat)

  /** `new TestConfig()` in a new holder. */
  function NewHolder(s: Store): (c: Created)
    ensures c.ref == |s.holders| && |c.store.holders| == |s.holders| + 1
    ensures c.store.holders[..|s.holders|] == s.holders
    ensures c.store.holders[c.ref].list.items == [] && c.store.holders[c.ref].entries.entries == map[]
    ensures forall x :: x !in c.store.holders[c.ref].elements.elements
  {
    Created(Store(s.holders + [TestConfig(JdbiConfigList.Create(), JdbiConfigSet.Create(), JdbiConfigMap.Create())]), |s.holders|)
  }

  /** `createCopy()`: a new holder sharing the three collections. */
  function CreateCopy(s: Store, from: nat): (c: Created)
    requires from < |s.holders|
    ensures c.ref == |s.holders| && |c.store.holders| == |s.holders| + 1
    ensures c.store.holders[..|s.holders|] == s.holders
    ensures c.store.holders[c.ref] == s.holders[from]
  {
    Created(Store(s.holders + [s.holders[from]]), |s.holders|)
  }

  /** `addList(key)`: only the holder addressed changes. */
  function AddList(s: Store, h: nat, key: string): (s': Store)
    requires h < |s.holders|
    ensures |s'.holders| == |s.holders|
    ensures s'.holders[h].list.items == s.holders[h].list.items + [key]
    ensures s'.holders[h].elements == s.holders[h].elements && s'.holders[h].entries == s.holders[h].entries
    ensures forall g :: 0 <= g < |s.holders| && g != h ==> s'.holders[g] == s.holders[g]
  {
    Store(s.holders[h := s.holders[h].(list := s.holders[h].list.AddLast([key]))])
  }

  /** `addSet(key)` */
  function AddSet(s: Store, h: nat, key: string): (s': Store)
    requires h < |s.holders|
    ensures |s'.holders| == |s.holders|
    ensures forall x :: x in s'.holders[h].elements.elements <==> x in s.holders[h].elements.elements || x == key
    ensures s'.holders[h].list == s.holders[h].list && s'.holders[h].entries == s.holders[h].entries
    ensures forall g :: 0 <= g < |s.holders| && g != h ==> s'.holders[g] == s.holders[g]
  {
    Store(s.holders[h := s.holders[h].(elements := s.holders[h].elements.AddElements([key]))])
  }

  /** `addMap(key, value)` */
  function AddMap(s: Store, h: nat, key: string, value: string): (s': Store)
    requires h < |s.holders|
    ensures |s'.holders| == |s.holders|
    ensures s'.holders[h].entries.GetElement(key) == Some(value)
    ensures s'.holders[h].list == s.holders[h].list && s'.holders[h].elements == s.holders[h].elements
    ensures forall g :: 0 <= g < |s.holders| && g != h ==> s'.holders[g] == s.holders[g]
  {
    Store(s.holders[h := s.holders[h].(entries := s.holders[h].entries.PutElement(key, Some(value)))])
  }

  /** The contents the registry tests check: the list in order, the set and
      the single map entry. */
  ghost predicate Holds(c: TestConfig, list: seq<string>, elements: set<string>) {
    && c.list.items == list
    && (forall x :: x in c.elements.elements <==> x in elements)
    && c.entries.entries == map["key1" := Some("value1")]
  }

  /** A parent holding "list1", "set1" and "key1" -> "value1". */
  function Parent(): (c: Created)
    ensures c.ref == 0 && |c.store.holders| == 1
    ensures Holds(c.store.holders[0], ["list1"], {"set1"})
  {
    var c := NewHolder(Store([]));
    var s := AddList(c.store, 0, "list1");
    var s := AddSet(s, 0, "set1");
    var s := AddMap(s, 0, "key1", "value1");
    Created(s, 0)
  }

  /** Modifying the parent after a copy leaves the copy as it was, and
      modifying the copy afterwards leaves the parent and a grandchild taken
      before as they were. */
  lemma ModifyParentAfterCopy()
    ensures var p := Parent();
      var child := CreateCopy(p.store, 0);
      var s := AddSet(AddList(child.store, 0, "list2"), 0, "set2");
      var grandchild := CreateCopy(s, child.ref);
      var s := AddSet(AddList(grandchild.store, child.ref, "list2"), child.ref, "set2");
      && Holds(s.holders[0], ["list1", "list2"], {"set1", "set2"})
      && Holds(s.holders[child.ref], ["list1", "list2"], {"set1", "set2"})
      && Holds(s.holders[grandchild.ref], ["list1"], {"set1"})
  {
  }

  /** Two copies of one parent are independent: what one adds shows neither
      in the parent nor in the sibling. */
  lemma SiblingsAreIndependent()
    ensures var p := Parent();
      var c1 := CreateCopy(p.store, 0);
      var c2 := CreateCopy(c1.store, 0);
      var s := AddSet(AddList(c2.store, c1.ref, "list2"), c1.ref, "set2");
      && Holds(s.holders[c1.ref], ["list1", "list2"], {"set1", "set2"})
      && Holds(s.holders[0], ["list1"], {"set1"})
      && Holds(s.holders[c2.ref], ["list1"], {"set1"})
  {
  }
}

=== FILE: config_list.dfy ===
/** JdbiConfigList: an immutable list whose "modifying" operations return a
    new list and leave the receiver as it was. A Java null element is `None`. */
module JdbiConfigList {
  import opened Wrappers
  import opened Lang

  datatype ConfigList<T> = ConfigList(items: seq<T>) {

    function Size(): nat {
      |items|
    }

    /** `addFirst(elements)`: the elements, in their order, ahead of the
        old contents. */
    function AddFirst(elements: seq<T>): (r: ConfigList<T>)
      ensures r.Size() == |elements| + Size()
      ensures forall i :: 0 <= i < |elements| ==> r.items[i] == elements[i]
      ensures forall i :: 0 <= i < Size() ==> r.items[|elements| + i] == items[i]
    {
      ConfigList(elements + items)
    }

    /** `addLast(elements)`: the old contents, then the elements. */
    function AddLast(elements: seq<T>): (r: ConfigList<T>)
      ensures r.Size() == Size() + |elements|
      ensures forall i :: 0 <= i < Size() ==> r.items[i] == items[i]
      ensures forall i :: 0 <= i < |elements| ==> r.items[Size() + i] == elements[i]
    {
      ConfigList(items + elements)
    }

    /** `getValue(index)`: `List.get`, which throws for an index outside
        the list. */
    function GetValue(index: int): (r: Result<T, Exception>)
      ensures r.Success? <==> 0 <= index < Size()
      ensures r.Success? ==> r.value == items[index]
      ensures r.Failure? ==> r.error == IndexOutOfBounds(index, Size())
    {
      if 0 <= index < |items| then Success(items[index])
      else Failure(IndexOutOfBounds(index, |items|))
    }
  }

  /** `create()` */
  function Create<T>(): (r: ConfigList<T>)
    ensures r.Size() == 0
  {
    ConfigList([])
  }

  function Nulls<T>(n: nat): (r: seq<Option<T>>)
    ensures |r| == n
    ensures forall i :: 0 <= i < n ==> r[i] == None
  {
    if n == 0 then [] else Nulls(n - 1) + [None]
  }

  /** `new ArrayList<>(capacity)`: a negative capacity is rejected. */
  function CheckCapacity(capacity: int): (r: Result<(), Exception>)
    ensures r.Failure? <==> capacity < 0
  {
    if capacity < 0 then Failure(IllegalArgument("Illegal Capacity")) else Success(())
  }

  /** `create(initialSize)`: `initialSize` nulls. */
  function CreateSized<T>(initialSize: int): (r: Result<ConfigList<Option<T>>, Exception>)
    requires IsInt32(initialSize)
    ensures r.Failure? <==> initialSize < 0
    ensures r.Success? ==> r.value.Size() == initialSize
    ensures r.Success? ==> forall i :: 0 <= i < initialSize ==> r.value.items[i] == None
  {
    var _ :- CheckCapacity(initialSize);
    Success(ConfigList(Nulls(initialSize)))
  }

  /** `setValue(index, element)`. Past the end the new list only reserves
      `index + 1` slots of capacity (a Java `int` sum) and still has the old
      size, so `List.set` throws unless the capacity itself is illegal. */
  function SetValue<T>(l: ConfigList<T>, index: int, element: T): (r: Result<ConfigList<T>, Exception>)
    requires IsInt32(index)
    ensures r.Success? <==> 0 <= index < l.Size()
    ensures r.Success? ==> r.value.Size() == l.Size()
    ensures r.Success? ==> r.value.items[index] == element
    ensures r.Success? ==> forall i :: 0 <= i < l.Size() && i != index ==> r.value.items[i] == l.items[i]
    ensures r.Failure? && index != MaxInt ==> r.error == IndexOutOfBounds(index, l.Size())
    ensures r.Failure? && index == MaxInt ==> r.error.IllegalArgument?
  {
    if index < l.Size() then
      if index < 0 then Failure(IndexOutOfBounds(index, l.Size()))
      else Success(ConfigList(l.items[index := element]))
    else
      var _ :- CheckCapacity(AddInt32(index, 1));
      Failure(IndexOutOfBounds(index, l.Size()))
  }

  /** What `getValue` reads after `addFirst`: the new elements at the front,
      the old ones shifted back by their number. */
  lemma GetValueAfterAddFirst<T>(l: ConfigList<T>, elements: seq<T>, index: int)
    ensures 0 <= index < |elements| ==> l.AddFirst(elements).GetValue(index) == Success(elements[index])
    ensures |elements| <= index ==>
      (l.AddFirst(elements).GetValue(index).Success? <==> l.GetValue(index - |elements|).Success?)
    ensures |elements| <= index < |elements| + l.Size() ==>
      l.AddFirst(elements).GetValue(index) == l.GetValue(index - |elements|)
  {
  }

  /** What `getValue` reads after `setValue`: the new element at the set
      position, the old ones elsewhere. */
  lemma GetValueAfterSetValue<T>(l: ConfigList<T>, index: int, element: T, j: int)
    requires IsInt32(index)
    requires 0 <= index < l.Size()
    ensures SetValue(l, index, element).Success?
    ensures SetValue(l, index, element).value.GetValue(j) == if j == index then Success(element) else l.GetValue(j)
  {
  }
}

=== FILE: config_map.dfy ===
/** JdbiConfigMap: an immutable map whose operations return a new map. The
    backing `HashMap` admits null values through `putElements`, so a stored
    value is an `Option` (`None` is a stored null). */
module JdbiConfigMap {
  import opened Wrappers

  datatype ConfigMap<K(!new), V> = ConfigMap(entries: map<K, Option<V>>) {

    /** `getElement(k)`: the mapped value, or null when `k` is unmapped. */
    function GetElement(k: K): (r: Option<V>)
      ensures k !in entries ==> r == None
      ensures k in entries ==> r == entries[k]
    {
      if k in entries then entries[k] else None
    }

    /** `hasKey(k)` */
    predicate HasKey(k: K)
    {
      k in entries
    }

    /** `putElement(k, v)`: a null value returns the receiver itself. */
    function PutElement(k: K, v: Option<V>): (r: ConfigMap<K, V>)
      ensures v.None? ==> r == this
      ensures v.Some? ==> r.HasKey(k) && r.GetElement(k) == v
      ensures v.Some? ==> r.entries.Keys == entries.Keys + {k}
      ensures forall k' :: k' != k ==> r.GetElement(k') == GetElement(k') && (r.HasKey(k') <==> HasKey(k'))
    {
      if v.None? then this else ConfigMap(entries[k := v])
    }

    /** `putElements(m)`: the old mappings overridden by those of `m`. */
    function PutElements(m: map<K, Option<V>>): (r: ConfigMap<K, V>)
      ensures r.entries.Keys == entries.Keys + m.Keys
      ensures forall k :: k in m ==> r.GetElement(k) == m[k]
      ensures forall k :: k !in m ==> r.GetElement(k) == GetElement(k)
    {
      ConfigMap(entries + m)
    }

    /** `clear()`: the receiver if already empty, a new empty map otherwise;
        either way nothing is mapped. */
    function Clear(): (r: ConfigMap<K, V>)
      ensures forall k :: !r.HasKey(k)
      ensures r.entries == map[]
      ensures |entries| == 0 ==> r == this
    {
      if |entries| == 0 then this else Create()
    }
  }

  /** `create()` */
  function Create<K(!new), V>(): (r: ConfigMap<K, V>)
    ensures forall k :: !r.HasKey(k)
    ensures r.entries == map[]
  {
    ConfigMap(map[])
  }

  /** `putElement` only ever stores a non-null value, so `getElement` finds
      a value exactly for the keys `hasKey` reports, as long as only
      `putElement` filled the map. */
  ghost predicate NoNulls<K(!new), V>(m: ConfigMap<K, V>) {
    forall k :: k in m.entries ==> m.entries[k].Some?
  }

  lemma PutElementKeepsNoNulls<K(!new), V>(m: ConfigMap<K, V>, k: K, v: Option<V>)
    requires NoNulls(m)
    ensures NoNulls(m.PutElement(k, v))
    ensures forall k' :: m.PutElement(k, v).HasKey(k') <==> m.PutElement(k, v).GetElement(k').Some?
  {
  }

  /** `putElements` with a null value leaves a key that `hasKey` reports
      but `getElement` reads as null. */
  lemma PutElementsMayStoreNull<K(!new), V>(m: ConfigMap<K, V>, k: K)
    ensures m.PutElements(map[k := None]).HasKey(k)
    ensures m.PutElements(map[k := None]).GetElement(k) == None
  {
  }
}

=== FILE: config_set.dfy ===
/** JdbiConfigSet: an immutable set whose operations return a new set. */
module JdbiConfigSet {

  datatype ConfigSet<T(!new)> = ConfigSet(elements: set<T>) {

    /** `addElements(es)` */
    function AddElements(es: seq<T>): (r: ConfigSet<T>)
      ensures forall x :: x in r.elements <==> x in elements || x in es
    {
      ConfigSet(elements + set x | x in es)
    }

    /** `removeElements(es)` */
    function RemoveElements(es: seq<T>): (r: ConfigSet<T>)
      ensures forall x :: x in r.elements <==> x in elements && x !in es
    {
      ConfigSet(elements - set x | x in es)
    }
  }

  /** `create()` */
  function Create<T(!new)>(): (r: ConfigSet<T>)
    ensures forall x :: x !in r.elements
  {
    ConfigSet({})
  }

  /** Adding elements that are all present already leaves the contents
      equal. */
  lemma AddPresentIsIdentity<T(!new)>(s: ConfigSet<T>, es: seq<T>)
    requires forall x :: x in es ==> x in s.elements
    ensures s.AddElements(es) == s
  {
    assert s.AddElements(es).elements == s.elements;
  }

  /** Removing what was just added restores the set, when none of it was
      there before. */
  lemma RemoveUndoesAdd<T(!new)>(s: ConfigSet<T>, es: seq<T>)
    requires forall x :: x in es ==> x !in s.elements
    ensures s.AddElements(es).RemoveElements(es) == s
  {
    assert s.AddElements(es).RemoveElements(es).elements == s.elements;
  }

  /** Two siblings derived from one set evolve independently: what one adds
      does not show in the other, and the shared origin is left as it was. */
  lemma SiblingsIndependent<T(!new)>(origin: ConfigSet<T>, a: seq<T>, b: seq<T>, x: T)
    requires x in a && x !in b && x !in origin.elements
    ensures x in origin.AddElements(a).elements
    ensures x !in origin.AddElements(b).elements
  {
  }
}

=== FILE: extension_factory.dfy ===
/** ExtensionFactory: a factory that produces extension objects. The
    internal backstop is one constructor; a factory written elsewhere is
    described by its identity and by what it overrides of the interface's
    defaults, with its `accepts` and `attach` coming in as `Plugins`. */
module ExtensionFactory {
  import opened Wrappers
  import opened Lang
  import opened Reflect
  import opened ExtensionHandler
  import InternalExtensionFactory

  /** One call a factory's `buildExtensionInitData` makes on the metadata
      builder. Configuration customizers are identified by number. */
  datatype InitAction =
    | AddInstanceConfigCustomizer(customizer: nat)
    | AddMethodConfigCustomizer(forMethod: Method, customizer: nat)
    | AddMethodHandler(forMethod: Method, handler: Handler)

  /** What a factory written elsewhere overrides. */
  datatype Declaration = Declaration(
    handlerFactories: seq<HandlerFactory>,
    handlerCustomizers: seq<HandlerCustomizer>,
    initActions: seq<InitAction>,
    proxyFactory: bool)

  /** The interface's defaults: no handler factories, no customizers,
      `buildExtensionInitData` leaves the builder alone, not a proxy
      factory. */
  const Defaults: Declaration := Declaration([], [], [], false)

  datatype Factory = InternalFactory | UserFactory(id: nat, decl: Declaration)

  /** `accepts` and `attach` of factories written elsewhere. */
  datatype Plugins = Plugins(
    accepts: (nat, JClass) -> bool,
    attach: (nat, JClass) -> Result<Value, Exception>)

  /** `accepts(extensionType)` */
  predicate Accepts(p: Plugins, f: Factory, t: JClass) {
    match f
    case InternalFactory => false
    case UserFactory(id, _) => p.accepts(id, t)
  }

  /** `attach(extensionType, handleSupplier)` */
  function Attach(p: Plugins, f: Factory, t: JClass): (r: Result<Value, Exception>)
    ensures f.InternalFactory? ==> r == Failure(UnsupportedOperation)
  {
    match f
    case InternalFactory => Failure(UnsupportedOperation)
    case UserFactory(id, _) => p.attach(id, t)
  }

  /** `getExtensionHandlerFactories()` */
  function GetExtensionHandlerFactories(f: Factory): seq<HandlerFactory> {
    match f
    case InternalFactory => InternalExtensionFactory.HandlerFactories
    case UserFactory(_, decl) => decl.handlerFactories
  }

  /** `getExtensionHandlerCustomizers()` */
  function GetExtensionHandlerCustomizers(f: Factory): seq<HandlerCustomizer> {
    match f
    case InternalFactory => []
    case UserFactory(_, decl) => decl.handlerCustomizers
  }

  /** `buildExtensionInitData(builder)`: the calls it makes on the builder. */
  function BuildExtensionInitData(f: Factory): seq<InitAction> {
    match f
    case InternalFactory => []
    case UserFactory(_, decl) => decl.initActions
  }

  /** `isProxyFactory()` */
  predicate IsProxyFactory(f: Factory) {
    match f
    case InternalFactory => true
    case UserFactory(_, decl) => decl.proxyFactory
  }

  /** A factory that overrides nothing contributes no handler factories and
      no customizers, leaves the metadata builder alone and is not a proxy
      factory, so its `attach` is the one that gets called. */
  lemma DefaultsContributeNothing(p: Plugins, id: nat, t: JClass)
    ensures GetExtensionHandlerFactories(UserFactory(id, Defaults)) == []
    ensures GetExtensionHandlerCustomizers(UserFactory(id, Defaults)) == []
    ensures BuildExtensionInitData(UserFactory(id, Defaults)) == []
    ensures !IsProxyFactory(UserFactory(id, Defaults))
  {
  }

  /** The internal factory accepts no type, refuses to attach, supplies the
      bridge then the instance handler factory and no customizers, and is a
      proxy factory. */
  lemma InternalFactoryIsBackstop(p: Plugins, t: JClass)
    ensures !Accepts(p, InternalFactory, t)
    ensures Attach(p, InternalFactory, t) == Failure(UnsupportedOperation)
    ensures GetExtensionHandlerFactories(InternalFactory) == [BridgeMethodHandlerFactory, InstanceHandlerFactory]
    ensures GetExtensionHandlerCustomizers(InternalFactory) == []
    ensures IsProxyFactory(InternalFactory)
  {
  }
}

=== FILE: extension_handler.dfy ===
/** ExtensionHandler: what runs when a method of an extension is called.
    The handlers the core defines itself are constructors of `Handler`;
    the handlers of other code are `UserHandler`s whose invocation and
    warming come in through a `Runtime`. */
module ExtensionHandler {
  import opened Wrappers
  import opened Lang
  import opened Reflect

  datatype Handler =
    | EqualsHandler
    | HashCodeHandler
    | NullHandler
      /** `missingExtensionHandler(method)` */
    | MissingHandler(unbound: Method)
      /** a handler over a method handle unreflected from `method` */
    | MethodHandleHandler(backing: Method)
      /** the proxy's default `toString` for the named extension type */
    | ToStringHandler(extensionTypeName: string)
    | UserHandler(id: nat)

  /** An `ExtensionHandlerFactory`: the two the core supplies, or one
      written elsewhere. */
  datatype HandlerFactory = BridgeMethodHandlerFactory | InstanceHandlerFactory | UserHandlerFactory(id: nat)

  /** An `ExtensionHandlerCustomizer`, written elsewhere. */
  datatype HandlerCustomizer = HandlerCustomizer(id: nat)

  /** What the model cannot see: `System.identityHashCode`, a virtual
      `hashCode()` call, invoking a reflected method on an object, and the
      `invoke` and `warm` of handlers written elsewhere. */
  datatype Runtime = Runtime(
    identityHashCode: Value -> Int32,
    hashCode: Value -> Int32,
    invokeMethod: (Method, Value, seq<Value>) -> Result<Value, Exception>,
    invokeUser: (nat, Value, seq<Value>) -> Result<Value, Exception>,
    warmUser: nat -> Option<Exception>)

  function MissingMessage(m: Method): string {
    "Method " + m.declaringClass.simpleName + "." + m.name + " has no registered extension handler!"
  }

  const NoTargetMessage: string := "no object present, called from a proxy factory?"
  const ToStringPrefix: string := "Jdbi extension proxy for "

  /** `handler.invoke(handleSupplier, target, args)`; `Null` is Java null
      and equality of `Value`s stands for reference identity. */
  function Invoke(rt: Runtime, h: Handler, target: Value, args: seq<Value>): (r: Result<Value, Exception>)
    ensures h.UserHandler? ==> r == rt.invokeUser(h.id, target, args)
    ensures h.MethodHandleHandler? && target != Null ==> r == rt.invokeMethod(h.backing, target, args)
  {
    match h
    case EqualsHandler =>
      if |args| == 0 then Failure(IndexOutOfBounds(0, 0)) else Success(Bool(target == args[0]))
    case HashCodeHandler => Success(Int(rt.identityHashCode(target)))
    case NullHandler => Success(Null)
    case MissingHandler(m) => Failure(IllegalState(MissingMessage(m)))
    case MethodHandleHandler(m) =>
      if target == Null then Failure(IllegalArgument(NoTargetMessage)) else rt.invokeMethod(m, target, args)
    case ToStringHandler(name) => Success(Str(ToStringPrefix + name + "@" + ToHexString(rt.hashCode(target))))
    case UserHandler(id) => rt.invokeUser(id, target, args)
  }

  /** `handler.warm(config)`: a no-op unless the handler overrides it. */
  function Warm(rt: Runtime, h: Handler): (r: Option<Exception>)
    ensures !h.UserHandler? ==> r.None?
    ensures h.UserHandler? ==> r == rt.warmUser(h.id)
  {
    if h.UserHandler? then rt.warmUser(h.id) else None
  }

  /** `EQUALS_HANDLER` answers whether the first argument is the target
      itself; with no argument it fails on the array access. */
  lemma EqualsHandlerIsIdentity(rt: Runtime, target: Value, args: seq<Value>)
    ensures |args| == 0 ==> Invoke(rt, EqualsHandler, target, args) == Failure(IndexOutOfBounds(0, 0))
    ensures |args| > 0 ==> Invoke(rt, EqualsHandler, target, args).Success?
    ensures |args| > 0 ==> (Invoke(rt, EqualsHandler, target, args) == Success(Bool(true)) <==> args[0] == target)
  {
  }

  /** `HASHCODE_HANDLER` is the identity hash of the target, whatever the
      arguments. */
  lemma HashCodeHandlerIgnoresArguments(rt: Runtime, target: Value, args1: seq<Value>, args2: seq<Value>)
    ensures Invoke(rt, HashCodeHandler, target, args1) == Invoke(rt, HashCodeHandler, target, args2)
    ensures Invoke(rt, HashCodeHandler, target, args1) == Success(Int(rt.identityHashCode(target)))
  {
  }

  /** `NULL_HANDLER` returns null for every call. */
  lemma NullHandlerReturnsNull(rt: Runtime, target: Value, args: seq<Value>)
    ensures Invoke(rt, NullHandler, target, args) == Success(Null)
  {
  }

  /** The missing-handler sentinel always throws an `IllegalStateException`
      naming the method's declaring class (simple name) and the method. */
  lemma MissingHandlerAlwaysThrows(rt: Runtime, m: Method, target: Value, args: seq<Value>)
    ensures var r := Invoke(rt, MissingHandler(m), target, args);
      && r.Failure? && r.error.IllegalState?
      && r.error.message == "Method " + m.declaringClass.simpleName + "." + m.name + " has no registered extension handler!"
  {
  }

  /** A method-handle handler refuses a null target. */
  lemma MethodHandleNeedsTarget(rt: Runtime, m: Method, args: seq<Value>)
    ensures Invoke(rt, MethodHandleHandler(m), Null, args) == Failure(IllegalArgument(NoTargetMessage))
  {
  }

  /** The proxy's `toString` names the extension type and ends in the
      hexadecimal hash code, which reads back as the hash's unsigned value. */
  lemma ToStringNamesTypeAndHash(rt: Runtime, name: string, target: Value, args: seq<Value>)
    ensures var r := Invoke(rt, ToStringHandler(name), target, args);
      var prefix := ToStringPrefix + name + "@";
      && r.Success? && r.value.Str?
      && prefix <= r.value.s
      && var digits := r.value.s[|prefix|..];
      && (forall k :: 0 <= k < |digits| ==> digits[k] in HexAlphabet)
      && ParseHex(digits) == rt.hashCode(target) % 0x1_0000_0000
  {
    var prefix := ToStringPrefix + name + "@";
    var hex := ToHexString(rt.hashCode(target));
    var s := prefix + hex;
    assert s[|prefix|..] == hex;
    ToHexStringRoundTrip(rt.hashCode(target));
  }
}

=== FILE: extension_meta_data.dfy ===
/** ExtensionMetaData: the resolved view of one extension type, holding the
    configuration customizers and the handler bound to each method, and its
    `Builder`, which collects the type's methods, rejects ambiguous ones and
    binds a handler to every method. Configuration customizers are numbered
    and what one does to a configuration `C` comes in as `customize`; the
    handler chain of `Extensions` comes in as functions, as `build` reaches
    it through the configuration. */
module ExtensionMetaData {
  import opened Wrappers
  import opened Lang
  import opened Reflect
  import opened ExtensionHandler
  import opened LinkedSets
  import CC = ConfigCustomizerChain
  import EF = ExtensionFactory

  datatype MetaData = MetaData(
    extensionType: JClass,
    instanceConfigCustomizer: CC.Chain<nat>,
    methodConfigCustomizers: map<Method, CC.Chain<nat>>,
    methodHandlers: map<Method, Handler>)

  datatype Builder = Builder(
    extensionType: JClass,
    instanceConfigCustomizer: CC.Chain<nat>,
    methodConfigCustomizers: map<Method, CC.Chain<nat>>,
    methodHandlers: map<Method, Handler>,
    extensionTypeMethods: seq<Method>)

  /** The builder's chains and its method collection are linked hash sets. */
  ghost predicate Valid(b: Builder) {
    && CC.Valid(b.instanceConfigCustomizer)
    && (forall m :: m in b.methodConfigCustomizers ==> CC.Valid(b.methodConfigCustomizers[m]))
    && Distinct(b.extensionTypeMethods)
  }

  /** The type's public methods, then its declared methods, each once, in
      first-seen order. */
  function CollectMethods(w: ClassWorld, t: JClass): (ms: seq<Method>)
    ensures Distinct(ms)
    ensures forall m :: m in ms <==> m in w.methods(t) || m in w.declaredMethods(t)
  {
    AddAll(AddAll([], w.methods(t)), w.declaredMethods(t))
  }

  predicate SameSignature(a: Method, b: Method) {
    a.name == b.name && a.params == b.params
  }

  /** Two non-synthetic entries at different positions with one name and one
      list of parameter types. */
  predicate HasAmbiguity(ms: seq<Method>) {
    exists i, j :: 0 <= i < j < |ms| && !ms[i].isSynthetic && !ms[j].isSynthetic && SameSignature(ms[i], ms[j])
  }

  /** In a collection without repetitions, an ambiguity is exactly a pair of
      distinct non-synthetic methods sharing name and parameter types. */
  lemma AmbiguityIsDistinctPair(ms: seq<Method>)
    requires Distinct(ms)
    ensures HasAmbiguity(ms) <==>
      exists a, b :: a in ms && b in ms && a != b && !a.isSynthetic && !b.isSynthetic && SameSignature(a, b)
  {
    if HasAmbiguity(ms) {
      var i, j :| 0 <= i < j < |ms| && !ms[i].isSynthetic && !ms[j].isSynthetic && SameSignature(ms[i], ms[j]);
      assert ms[i] in ms && ms[j] in ms && ms[i] != ms[j];
    }
    if exists a, b :: a in ms && b in ms && a != b && !a.isSynthetic && !b.isSynthetic && SameSignature(a, b) {
      var a, b :| a in ms && b in ms && a != b && !a.isSynthetic && !b.isSynthetic && SameSignature(a, b);
      var i :| 0 <= i < |ms| && ms[i] == a;
      var j :| 0 <= j < |ms| && ms[j] == b;
      if i < j {
        assert 0 <= i < j < |ms| && !ms[i].isSynthetic && !ms[j].isSynthetic && SameSignature(ms[i], ms[j]);
      } else {
        assert 0 <= j < i < |ms| && !ms[j].isSynthetic && !ms[i].isSynthetic && SameSignature(ms[j], ms[i]);
      }
    }
  }

  /** `ExtensionMetaData.builder(config, extensionType)`: fails when two
      distinct non-synthetic methods of the type share a name and parameter
      types; otherwise an empty builder over the collected methods. The
      message names the type where Java formats the `Class` object, and
      leaves out the list of the ambiguous methods. */
  function NewBuilder(w: ClassWorld, t: JClass): (r: Result<Builder, Exception>)
    ensures r.Failure? <==>
      exists a, b ::
        && (a in w.methods(t) || a in w.declaredMethods(t))
        && (b in w.methods(t) || b in w.declaredMethods(t))
        && a != b && !a.isSynthetic && !b.isSynthetic && SameSignature(a, b)
    ensures r.Failure? ==> r.error.UnableToCreateExtension?
    ensures r.Success? ==> Valid(r.value) && r.value.extensionType == t
    ensures r.Success? ==> forall m :: m in r.value.extensionTypeMethods <==> m in w.methods(t) || m in w.declaredMethods(t)
    ensures r.Success? ==> r.value.methodHandlers == map[] && r.value.methodConfigCustomizers == map[]
    ensures r.Success? ==> r.value.instanceConfigCustomizer.customizers == []
  {
    var ms := CollectMethods(w, t);
    AmbiguityIsDistinctPair(ms);
    if HasAmbiguity(ms) then
      Failure(UnableToCreateExtension(t.name + " has ambiguous methods found, please resolve with an explicit override"))
    else
      Success(Builder(t, CC.Empty(), map[], map[], ms))
  }

  /** `addInstanceConfigCustomizer(customizer)` */
  function AddInstanceConfigCustomizer(b: Builder, cz: nat): (r: Builder)
    requires Valid(b)
    ensures Valid(r)
    ensures r.instanceConfigCustomizer == CC.AddCustomizer(b.instanceConfigCustomizer, cz)
    ensures r.(instanceConfigCustomizer := b.instanceConfigCustomizer) == b
  {
    b.(instanceConfigCustomizer := CC.AddCustomizer(b.instanceConfigCustomizer, cz))
  }

  /** `addMethodConfigCustomizer(method, customizer)`: one chain per method,
      created on first use. */
  function AddMethodConfigCustomizer(b: Builder, m: Method, cz: nat): (r: Builder)
    requires Valid(b)
    ensures Valid(r)
    ensures r.methodConfigCustomizers.Keys == b.methodConfigCustomizers.Keys + {m}
    ensures m in b.methodConfigCustomizers ==>
      r.methodConfigCustomizers[m] == CC.AddCustomizer(b.methodConfigCustomizers[m], cz)
    ensures m !in b.methodConfigCustomizers ==> r.methodConfigCustomizers[m].customizers == [cz]
    ensures forall k :: k in b.methodConfigCustomizers && k != m ==> r.methodConfigCustomizers[k] == b.methodConfigCustomizers[k]
    ensures r.(methodConfigCustomizers := b.methodConfigCustomizers) == b
  {
    var chain := if m in b.methodConfigCustomizers then b.methodConfigCustomizers[m] else CC.Empty();
    b.(methodConfigCustomizers := b.methodConfigCustomizers[m := CC.AddCustomizer(chain, cz)])
  }

  /** `addMethodHandler(method, handler)`: replaces an earlier one. */
  function AddMethodHandler(b: Builder, m: Method, h: Handler): (r: Builder)
    requires Valid(b)
    ensures Valid(r)
    ensures r.methodHandlers.Keys == b.methodHandlers.Keys + {m} && r.methodHandlers[m] == h
    ensures forall k :: k in b.methodHandlers && k != m ==> r.methodHandlers[k] == b.methodHandlers[k]
    ensures r.(methodHandlers := b.methodHandlers) == b
  {
    b.(methodHandlers := b.methodHandlers[m := h])
  }

  /** One call a factory's `buildExtensionInitData` makes on the builder. */
  function ApplyInitAction(b: Builder, a: EF.InitAction): (r: Builder)
    requires Valid(b)
    ensures Valid(r)
  {
    match a
    case AddInstanceConfigCustomizer(cz) => AddInstanceConfigCustomizer(b, cz)
    case AddMethodConfigCustomizer(m, cz) => AddMethodConfigCustomizer(b, m, cz)
    case AddMethodHandler(m, h) => AddMethodHandler(b, m, h)
  }

  /** The calls a factory's `buildExtensionInitData` makes, in order. */
  function ApplyInitActions(b: Builder, actions: seq<EF.InitAction>): (r: Builder)
    requires Valid(b)
    ensures Valid(r)
    ensures r.extensionType == b.extensionType && r.extensionTypeMethods == b.extensionTypeMethods
    ensures forall m :: m in r.methodHandlers <==>
      m in b.methodHandlers || exists a :: a in actions && a.AddMethodHandler? && a.forMethod == m
    decreases |actions|
  {
    if |actions| == 0 then b
    else
      var r := ApplyInitActions(ApplyInitAction(b, actions[0]), actions[1..]);
      assert forall a :: a in actions <==> a == actions[0] || a in actions[1..];
      r
  }

  /** The customizers of the `addInstanceConfigCustomizer` calls among
      `actions`, in call order. */
  function InstanceCustomizersOf(actions: seq<EF.InitAction>): (r: seq<nat>)
    ensures forall cz :: cz in r <==> EF.AddInstanceConfigCustomizer(cz) in actions
    decreases |actions|
  {
    if |actions| == 0 then []
    else
      var r := (if actions[0].AddInstanceConfigCustomizer? then [actions[0].customizer] else []) + InstanceCustomizersOf(actions[1..]);
      assert forall a :: a in actions <==> a == actions[0] || a in actions[1..];
      r
  }

  /** The customizers of the `addMethodConfigCustomizer` calls for `m`
      among `actions`, in call order. */
  function MethodCustomizersOf(actions: seq<EF.InitAction>, m: Method): (r: seq<nat>)
    ensures forall cz :: cz in r <==> EF.AddMethodConfigCustomizer(m, cz) in actions
    decreases |actions|
  {
    if |actions| == 0 then []
    else
      var a := actions[0];
      var r := (if a.AddMethodConfigCustomizer? && a.forMethod == m then [a.customizer] else []) + MethodCustomizersOf(actions[1..], m);
      assert forall a :: a in actions <==> a == actions[0] || a in actions[1..];
      r
  }

  /** Whether `a` is an `addMethodHandler` call for `m`. */
  predicate HandlesMethod(a: EF.InitAction, m: Method) {
    a.AddMethodHandler? && a.forMethod == m
  }

  /** The handler of the last `addMethodHandler` call for `m` among
      `actions`, if there is one. */
  function LastHandlerOf(actions: seq<EF.InitAction>, m: Method): (r: Option<Handler>)
    ensures r.None? <==> forall i :: 0 <= i < |actions| ==> !HandlesMethod(actions[i], m)
    ensures r.Some? ==>
      exists i :: 0 <= i < |actions| && actions[i] == EF.AddMethodHandler(m, r.value) &&
        forall j :: i < j < |actions| ==> !HandlesMethod(actions[j], m)
    decreases |actions|
  {
    if |actions| == 0 then None
    else
      var rest := actions[1..];
      assert forall j :: 0 <= j < |rest| ==> rest[j] == actions[j + 1];
      match LastHandlerOf(rest, m)
      case Some(h) =>
        var i :| 0 <= i < |rest| && rest[i] == EF.AddMethodHandler(m, h) &&
          forall j :: i < j < |rest| ==> !HandlesMethod(rest[j], m);
        assert actions[i + 1] == rest[i];
        Some(h)
      case None =>
        if HandlesMethod(actions[0], m) then Some(actions[0].handler) else None
  }

  /** The per-method chain of `b` for `m`, or a new empty one. */
  function ChainOf(b: Builder, m: Method): CC.Chain<nat> {
    if m in b.methodConfigCustomizers then b.methodConfigCustomizers[m] else CC.Empty()
  }

  /** The instance chain after the calls is the builder's chain with the
      instance-level customizers added in call order. */
  lemma {:induction false} ApplyInitActionsInstanceChain(b: Builder, actions: seq<EF.InitAction>)
    requires Valid(b)
    ensures ApplyInitActions(b, actions).instanceConfigCustomizer.customizers ==
      AddAll(b.instanceConfigCustomizer.customizers, InstanceCustomizersOf(actions))
    decreases |actions|
  {
    if |actions| > 0 {
      var rest := actions[1..];
      var b1 := ApplyInitAction(b, actions[0]);
      assert ApplyInitActions(b, actions) == ApplyInitActions(b1, rest);
      ApplyInitActionsInstanceChain(b1, rest);
      if actions[0].AddInstanceConfigCustomizer? {
        AddAllCons(b.instanceConfigCustomizer.customizers, actions[0].customizer, InstanceCustomizersOf(rest));
      } else {
        assert InstanceCustomizersOf(actions) == InstanceCustomizersOf(rest);
        assert b1.instanceConfigCustomizer == b.instanceConfigCustomizer;
      }
    }
  }

  /** Each method's chain after the calls is its chain in the builder, or a
      new one, with that method's customizers added in call order; a method
      has a chain exactly when it had one or a call named it. */
  lemma {:induction false} ApplyInitActionsMethodChains(b: Builder, actions: seq<EF.InitAction>, m: Method)
    requires Valid(b)
    ensures var r := ApplyInitActions(b, actions);
      && (m in r.methodConfigCustomizers <==> m in b.methodConfigCustomizers || MethodCustomizersOf(actions, m) != [])
      && (m in r.methodConfigCustomizers ==>
           r.methodConfigCustomizers[m].customizers == AddAll(ChainOf(b, m).customizers, MethodCustomizersOf(actions, m)))
    decreases |actions|
  {
    if |actions| > 0 {
      var rest := actions[1..];
      var b1 := ApplyInitAction(b, actions[0]);
      assert ApplyInitActions(b, actions) == ApplyInitActions(b1, rest);
      ApplyInitActionsMethodChains(b1, rest, m);
      if actions[0].AddMethodConfigCustomizer? && actions[0].forMethod == m {
        var cz := actions[0].customizer;
        assert MethodCustomizersOf(actions, m) == [cz] + MethodCustomizersOf(rest, m);
        assert ChainOf(b1, m).customizers == Add(ChainOf(b, m).customizers, cz);
        AddAllCons(ChainOf(b, m).customizers, cz, MethodCustomizersOf(rest, m));
      } else {
        assert [] + MethodCustomizersOf(rest, m) == MethodCustomizersOf(rest, m);
        assert ChainOf(b1, m) == ChainOf(b, m);
      }
    } else {
      assert AddAll(ChainOf(b, m).customizers, []) == ChainOf(b, m).customizers;
    }
  }

  /** Each method's handler after the calls is the one its last
      `addMethodHandler` call gave; a method no call named keeps the handler
      it had, or stays without one. */
  lemma {:induction false} ApplyInitActionsHandlers(b: Builder, actions: seq<EF.InitAction>, m: Method)
    requires Valid(b)
    ensures var r := ApplyInitActions(b, actions);
      && (LastHandlerOf(actions, m).Some? ==> m in r.methodHandlers && r.methodHandlers[m] == LastHandlerOf(actions, m).value)
      && (LastHandlerOf(actions, m).None? ==>
           (m in r.methodHandlers <==> m in b.methodHandlers) &&
           (m in b.methodHandlers ==> r.methodHandlers[m] == b.methodHandlers[m]))
    decreases |actions|
  {
    if |actions| > 0 {
      var rest := actions[1..];
      var b1 := ApplyInitAction(b, actions[0]);
      assert ApplyInitActions(b, actions) == ApplyInitActions(b1, rest);
      ApplyInitActionsHandlers(b1, rest, m);
    }
  }

  /** A method `build` binds through the chain: collected, not static and
      without an explicit handler. */
  predicate IsUnbound(b: Builder, m: Method) {
    !m.isStatic && m !in b.methodHandlers
  }

  /** The handler the chain yields for a method, or the missing-handler
      sentinel. */
  function Initial(findHandler: Method -> Result<Option<Handler>, Exception>, m: Method): Handler {
    match findHandler(m)
    case Success(Some(h)) => h
    case _ => MissingHandler(m)
  }

  /** The handlers `build` warms for the methods in `ms`, in order. */
  function Warmed(b: Builder, findHandler: Method -> Result<Option<Handler>, Exception>, ms: seq<Method>): seq<Handler>
    decreases |ms|
  {
    if |ms| == 0 then []
    else
      Warmed(b, findHandler, ms[..|ms| - 1])
        + (if IsUnbound(b, ms[|ms| - 1]) then [Initial(findHandler, ms[|ms| - 1])] else [])
  }

  /** The chain answers for `m` and warming its handler succeeds. */
  predicate Binds(
    findHandler: Method -> Result<Option<Handler>, Exception>, warm: Handler -> Option<Exception>, m: Method)
  {
    findHandler(m).Success? && warm(Initial(findHandler, m)).None?
  }

  /** Every unbound method before position `i` binds. */
  ghost predicate PrefixBinds(
    b: Builder, findHandler: Method -> Result<Option<Handler>, Exception>, warm: Handler -> Option<Exception>, i: int)
  {
    forall k :: 0 <= k < i && k < |b.extensionTypeMethods| && IsUnbound(b, b.extensionTypeMethods[k]) ==>
      Binds(findHandler, warm, b.extensionTypeMethods[k])
  }

  /** The method at position `i` is the first unbound one that does not
      bind, and `e` is what it failed with: the chain's exception, or the
      one `warm` returned. */
  ghost predicate FailsFirstAt(
    b: Builder, findHandler: Method -> Result<Option<Handler>, Exception>, warm: Handler -> Option<Exception>,
    i: int, e: Exception)
  {
    && 0 <= i < |b.extensionTypeMethods|
    && var m := b.extensionTypeMethods[i];
    && IsUnbound(b, m) && !Binds(findHandler, warm, m)
    && PrefixBinds(b, findHandler, warm, i)
    && e == (if findHandler(m).Failure? then findHandler(m).error else warm(Initial(findHandler, m)).value)
  }

  /** What `build` has established after the first `i` collected methods:
      the handlers bound so far, the explicit ones untouched, and the
      handlers warmed so far. */
  ghost predicate BuildInv(
    b: Builder,
    findHandler: Method -> Result<Option<Handler>, Exception>,
    applyCustomizers: (Handler, Method) -> Handler,
    warm: Handler -> Option<Exception>,
    i: int, handlers: map<Method, Handler>, warmed: seq<Handler>)
  {
    var ms := b.extensionTypeMethods;
    && 0 <= i <= |ms|
    && (forall m :: m in handlers <==> m in b.methodHandlers || (m in ms[..i] && !m.isStatic))
    && (forall m :: m in b.methodHandlers ==> handlers[m] == b.methodHandlers[m])
    && PrefixBinds(b, findHandler, warm, i)
    && (forall k :: 0 <= k < i && IsUnbound(b, ms[k]) ==>
          handlers[ms[k]] == applyCustomizers(Initial(findHandler, ms[k]), ms[k]))
    && warmed == Warmed(b, findHandler, ms[..i])
  }

  /** A method that is static or already bound leaves what `build` has
      established unchanged. */
  lemma SkipKeepsBuildInv(
    b: Builder,
    findHandler: Method -> Result<Option<Handler>, Exception>,
    applyCustomizers: (Handler, Method) -> Handler,
    warm: Handler -> Option<Exception>,
    i: int, handlers: map<Method, Handler>, warmed: seq<Handler>)
    requires 0 <= i < |b.extensionTypeMethods| && !IsUnbound(b, b.extensionTypeMethods[i])
    requires BuildInv(b, findHandler, applyCustomizers, warm, i, handlers, warmed)
    ensures BuildInv(b, findHandler, applyCustomizers, warm, i + 1, handlers, warmed)
  {
    var ms := b.extensionTypeMethods;
    assert ms[..i + 1][..i] == ms[..i];
    assert Warmed(b, findHandler, ms[..i + 1]) == warmed;
    assert forall m :: m in ms[..i + 1] <==> m in ms[..i] || m == ms[i];
  }

  /** Binding the unbound method at position `i` to its customized handler
      extends what `build` has established by one method. */
  lemma BindKeepsBuildInv(
    b: Builder,
    findHandler: Method -> Result<Option<Handler>, Exception>,
    applyCustomizers: (Handler, Method) -> Handler,
    warm: Handler -> Option<Exception>,
    i: int, handlers: map<Method, Handler>, warmed: seq<Handler>)
    requires 0 <= i < |b.extensionTypeMethods| && b.extensionTypeMethods[i] !in b.extensionTypeMethods[..i]
    requires IsUnbound(b, b.extensionTypeMethods[i]) && Binds(findHandler, warm, b.extensionTypeMethods[i])
    requires BuildInv(b, findHandler, applyCustomizers, warm, i, handlers, warmed)
    ensures var m := b.extensionTypeMethods[i];
      BuildInv(b, findHandler, applyCustomizers, warm, i + 1,
        handlers[m := applyCustomizers(Initial(findHandler, m), m)], warmed + [Initial(findHandler, m)])
  {
    var ms := b.extensionTypeMethods;
    var m := ms[i];
    assert ms[..i + 1][..i] == ms[..i];
    assert Warmed(b, findHandler, ms[..i + 1]) == warmed + [Initial(findHandler, m)];
    assert forall k :: k in ms[..i + 1] <==> k in ms[..i] || k == m;
  }

  /** A collected method does not occur among the ones before it. */
  lemma NotSeenBefore(b: Builder, i: int)
    requires Valid(b) && 0 <= i < |b.extensionTypeMethods|
    ensures b.extensionTypeMethods[i] !in b.extensionTypeMethods[..i]
  {
    var ms := b.extensionTypeMethods;
    forall k | 0 <= k < i
      ensures ms[..i][k] != ms[i]
    {
      assert ms[..i][k] == ms[k];
    }
  }

  /** One iteration of `build`'s loop: the method at position `i` is
      skipped when static or already bound; otherwise it is bound through
      the chain, its handler warmed and customized, or the build fails with
      the first exception. */
  method BuildStep(
    b: Builder,
    findHandler: Method -> Result<Option<Handler>, Exception>,
    applyCustomizers: (Handler, Method) -> Handler,
    warm: Handler -> Option<Exception>,
    i: int, handlers: map<Method, Handler>, warmed: seq<Handler>)
    returns (failure: Option<Exception>, handlers': map<Method, Handler>, warmed': seq<Handler>)
    requires Valid(b) && i < |b.extensionTypeMethods|
    requires BuildInv(b, findHandler, applyCustomizers, warm, i, handlers, warmed)
    ensures failure.None? ==> BuildInv(b, findHandler, applyCustomizers, warm, i + 1, handlers', warmed')
    ensures failure.Some? ==> FailsFirstAt(b, findHandler, warm, i, failure.value)
  {
    var m := b.extensionTypeMethods[i];
    NotSeenBefore(b, i);
    // `seen` of the source is the key set of the handlers bound so far.
    if m.isStatic || m in handlers {
      SkipKeepsBuildInv(b, findHandler, applyCustomizers, warm, i, handlers, warmed);
      return None, handlers, warmed;
    }
    assert IsUnbound(b, m);
    var found := findHandler(m);
    if found.Failure? {
      return Some(found.error), handlers, warmed;
    }
    var handler := match found.value case Some(h) => h case None => MissingHandler(m);
    assert handler == Initial(findHandler, m);
    var warmFailure := warm(handler);
    warmed' := warmed + [handler];
    if warmFailure.Some? {
      return Some(warmFailure.value), handlers, warmed';
    }
    BindKeepsBuildInv(b, findHandler, applyCustomizers, warm, i, handlers, warmed);
    handlers' := handlers[m := applyCustomizers(handler, m)];
    failure := None;
  }

  /** What `build()` on `b` ends with: on failure, the exception of the
      first collected method that does not bind; on success, the builder's
      type and chains, its explicit handlers kept, and every other
      collected non-static method bound to the chain's handler passed
      through the customizers. */
  ghost predicate BuildsTo(
    b: Builder,
    findHandler: Method -> Result<Option<Handler>, Exception>,
    applyCustomizers: (Handler, Method) -> Handler,
    warm: Handler -> Option<Exception>,
    r: Result<MetaData, Exception>)
  {
    && (r.Failure? ==> exists i :: FailsFirstAt(b, findHandler, warm, i, r.error))
    && (r.Success? ==>
         && r.value.extensionType == b.extensionType
         && r.value.instanceConfigCustomizer == b.instanceConfigCustomizer
         && r.value.methodConfigCustomizers == b.methodConfigCustomizers
         && (forall m :: m in r.value.methodHandlers <==>
               m in b.methodHandlers || (m in b.extensionTypeMethods && !m.isStatic))
         && (forall m :: m in b.methodHandlers ==> r.value.methodHandlers[m] == b.methodHandlers[m])
         && (forall m :: m in b.extensionTypeMethods && IsUnbound(b, m) ==>
               && Binds(findHandler, warm, m)
               && r.value.methodHandlers[m] == applyCustomizers(Initial(findHandler, m), m)))
  }

  /** At most one method fails first. */
  lemma FailsFirstAtUnique(
    b: Builder, findHandler: Method -> Result<Option<Handler>, Exception>, warm: Handler -> Option<Exception>,
    i: int, j: int, e1: Exception, e2: Exception)
    requires FailsFirstAt(b, findHandler, warm, i, e1) && FailsFirstAt(b, findHandler, warm, j, e2)
    ensures i == j && e1 == e2
  {
  }

  /** `BuildsTo` leaves no choice: two outcomes it admits are the same
      metadata, or the same exception. */
  lemma {:induction false} BuildsToDetermines(
    b: Builder,
    findHandler: Method -> Result<Option<Handler>, Exception>,
    applyCustomizers: (Handler, Method) -> Handler,
    warm: Handler -> Option<Exception>,
    r1: Result<MetaData, Exception>, r2: Result<MetaData, Exception>)
    requires BuildsTo(b, findHandler, applyCustomizers, warm, r1)
    requires BuildsTo(b, findHandler, applyCustomizers, warm, r2)
    ensures r1 == r2
  {
    if r1.Failure? && r2.Failure? {
      var i :| FailsFirstAt(b, findHandler, warm, i, r1.error);
      var j :| FailsFirstAt(b, findHandler, warm, j, r2.error);
      FailsFirstAtUnique(b, findHandler, warm, i, j, r1.error, r2.error);
    } else if r1.Success? && r2.Success? {
      var h1 := r1.value.methodHandlers;
      var h2 := r2.value.methodHandlers;
      forall m | m in h1
        ensures m in h2 && h1[m] == h2[m]
      {
        if m !in b.methodHandlers {
          assert m in b.extensionTypeMethods && IsUnbound(b, m);
        }
      }
      assert h1 == h2;
    }
  }

  /** `build()`: every collected non-static method without an explicit
      handler gets the chain's handler, or the missing-handler sentinel;
      that handler is warmed once and then passed through the customizers.
      Explicit handlers are kept as they are. The first failure of the chain
      or of a `warm` ends the build with that exception. */
  method Build(
    b: Builder,
    findHandler: Method -> Result<Option<Handler>, Exception>,
    applyCustomizers: (Handler, Method) -> Handler,
    warm: Handler -> Option<Exception>)
    returns (r: Result<MetaData, Exception>, warmed: seq<Handler>)
    requires Valid(b)
    ensures r.Success? ==> warmed == Warmed(b, findHandler, b.extensionTypeMethods)
    ensures r.Success? ==>
      && r.value.extensionType == b.extensionType
      && r.value.instanceConfigCustomizer == b.instanceConfigCustomizer
      && r.value.methodConfigCustomizers == b.methodConfigCustomizers
    ensures r.Success? ==> forall m :: m in r.value.methodHandlers <==>
      m in b.methodHandlers || (m in b.extensionTypeMethods && !m.isStatic)
    ensures r.Success? ==> forall m :: m in b.methodHandlers ==> r.value.methodHandlers[m] == b.methodHandlers[m]
    ensures r.Success? ==> forall m :: m in b.extensionTypeMethods && IsUnbound(b, m) ==>
      && Binds(findHandler, warm, m)
      && r.value.methodHandlers[m] == applyCustomizers(Initial(findHandler, m), m)
    ensures r.Failure? ==> exists i :: FailsFirstAt(b, findHandler, warm, i, r.error)
    ensures BuildsTo(b, findHandler, applyCustomizers, warm, r)
  {
    var ms := b.extensionTypeMethods;
    var handlers := b.methodHandlers;
    warmed := [];
    var i := 0;
    while i < |ms|
      invariant BuildInv(b, findHandler, applyCustomizers, warm, i, handlers, warmed)
    {
      var failure;
      failure, handlers, warmed := BuildStep(b, findHandler, applyCustomizers, warm, i, handlers, warmed);
      if failure.Some? {
        return Failure(failure.value), warmed;
      }
      i := i + 1;
    }
    assert ms[..i] == ms;
    r := Success(MetaData(b.extensionType, b.instanceConfigCustomizer, b.methodConfigCustomizers, handlers));
    forall m | m in ms && IsUnbound(b, m)
      ensures Binds(findHandler, warm, m) && handlers[m] == applyCustomizers(Initial(findHandler, m), m)
    {
      var k :| 0 <= k < |ms| && ms[k] == m;
    }
  }

  /** `createInstanceConfiguration(config)`: the instance chain applied to a
      copy; the argument is a value and stays as it was. */
  function CreateInstanceConfiguration<C>(md: MetaData, customize: (nat, C) -> C, config: C): C {
    CC.Customize(md.instanceConfigCustomizer, customize, config)
  }

  /** `createMethodConfiguration(method, config)`: the method's chain applied
      to a copy, or the plain copy when the method has none. */
  function CreateMethodConfiguration<C>(md: MetaData, m: Method, customize: (nat, C) -> C, config: C): C {
    if m in md.methodConfigCustomizers then CC.Customize(md.methodConfigCustomizers[m], customize, config)
    else config
  }

  /** With customizers that log themselves, the instance configuration is
      the argument followed by the instance chain, and a method's
      configuration is the argument followed by that method's chain, or just
      the argument. */
  lemma ConfigurationsRunTheirChains(md: MetaData, m: Method, log: seq<nat>)
    ensures CreateInstanceConfiguration(md, CC.Record, log) == log + md.instanceConfigCustomizer.customizers
    ensures m in md.methodConfigCustomizers ==>
      CreateMethodConfiguration(md, m, CC.Record, log) == log + md.methodConfigCustomizers[m].customizers
    ensures m !in md.methodConfigCustomizers ==> CreateMethodConfiguration(md, m, CC.Record, log) == log
  {
    CC.CustomizeRunsInOrder(md.instanceConfigCustomizer, log);
    if m in md.methodConfigCustomizers {
      CC.CustomizeRunsInOrder(md.methodConfigCustomizers[m], log);
    }
  }

  /** Repeated `addMethodConfigCustomizer` calls for one method accumulate
      into one chain, in call order; other methods keep theirs. */
  lemma MethodCustomizersAccumulate(b: Builder, m: Method, c1: nat, c2: nat, other: Method)
    requires Valid(b) && m !in b.methodConfigCustomizers && c1 != c2 && other != m
    ensures var b2 := AddMethodConfigCustomizer(AddMethodConfigCustomizer(b, m, c1), m, c2);
      && b2.methodConfigCustomizers[m].customizers == [c1, c2]
      && (other in b2.methodConfigCustomizers <==> other in b.methodConfigCustomizers)
      && (other in b.methodConfigCustomizers ==> b2.methodConfigCustomizers[other] == b.methodConfigCustomizers[other])
  {
  }

  /** An `ExtensionHandlerInvoker`: the target, the method, the handler
      bound to it (absent when the map has none) and the method
      configuration its context is built from. */
  datatype Invoker<C> = Invoker(target: Value, forMethod: Method, handler: Option<Handler>, methodConfig: C)

  /** `new ExtensionHandlerInvoker(target, method, handler, handleSupplier, config)` */
  function NewInvoker<C>(md: MetaData, customize: (nat, C) -> C, target: Value, m: Method, handler: Option<Handler>, config: C): (inv: Invoker<C>)
    ensures inv.target == target && inv.forMethod == m && inv.handler == handler
    ensures inv.methodConfig == CreateMethodConfiguration(md, m, customize, config)
  {
    Invoker(target, m, handler, CreateMethodConfiguration(md, m, customize, config))
  }

  /** `createExtensionHandlerInvoker(target, method, handleSupplier, instanceConfig)` */
  function CreateExtensionHandlerInvoker<C>(md: MetaData, customize: (nat, C) -> C, target: Value, m: Method, config: C): (inv: Invoker<C>)
    ensures inv.handler.Some? <==> m in md.methodHandlers
    ensures inv.handler.Some? ==> inv.handler.value == md.methodHandlers[m]
    ensures inv == NewInvoker(md, customize, target, m, inv.handler, config)
  {
    NewInvoker(md, customize, target, m, if m in md.methodHandlers then Some(md.methodHandlers[m]) else None, config)
  }

  /** `JdbiClassUtils.safeVarargs`: a null argument array is an empty one. */
  function SafeVarargs(args: Option<seq<Value>>): (r: seq<Value>)
    ensures args.Some? ==> r == args.value
    ensures args.None? ==> r == []
  {
    if args.None? then [] else args.value
  }

  /** `invoker.invoke(args)`: the handler's result or exception, unchanged;
      a missing handler fails on the null dereference. */
  function InvokerInvoke<C>(rt: Runtime, inv: Invoker<C>, args: Option<seq<Value>>): (r: Result<Value, Exception>)
    ensures inv.handler.None? ==> r == Failure(NullPointer(""))
    ensures inv.handler.Some? ==> r == Invoke(rt, inv.handler.value, inv.target, SafeVarargs(args))
  {
    match inv.handler
    case None => Failure(NullPointer(""))
    case Some(h) => Invoke(rt, h, inv.target, SafeVarargs(args))
  }
}

=== FILE: extensions.dfy ===
/** Extensions: the configuration of extension factories. It keeps three
    prepend-ordered lists (factories, handler factories, handler
    customizers), a per-type metadata cache and the proxy switch. The
    per-factory `ExtensionFactoryDelegate.attach` builds the dispatch table
    of an extension proxy. */
module Extensions {
  import opened Wrappers
  import opened Search
  import opened Lang
  import opened Reflect
  import opened ExtensionHandler
  import InternalExtensionFactory
  import EF = ExtensionFactory
  import MD = ExtensionMetaData

  /** A registered factory inside the `ExtensionFactoryDelegate` that
      `register` wraps it in. The wrapper is an inner object of the
      `Extensions` instance that registered it: `owner` is that instance's
      identity, and the wrapper's `attach` reads and fills that instance's
      metadata cache, whichever copy the wrapper is later reached through. */
  datatype Delegate = Delegate(factory: EF.Factory, owner: nat)

  /** The wrapper forwards `accepts` to the factory it wraps. */
  predicate DelegateAccepts(p: EF.Plugins, d: Delegate, t: JClass) {
    EF.Accepts(p, d.factory, t)
  }

  /** One `Extensions` instance, known by its identity `id`. Its metadata
      cache is not a field: it lives in the `Store` under `id`, because the
      delegates it registered keep using it from every copy. */
  datatype Extensions = Extensions(
    id: nat,
    factories: seq<Delegate>,
    handlerFactories: seq<HandlerFactory>,
    handlerCustomizers: seq<HandlerCustomizer>,
    allowProxy: bool)

  /** What handler factories and customizers written elsewhere do. */
  datatype HandlerPlugins = HandlerPlugins(
    accepts: (nat, JClass, Method) -> bool,
    build: (nat, JClass, Method) -> Result<Option<Handler>, Exception>,
    customize: (HandlerCustomizer, Handler, JClass, Method) -> Handler)

  /** Everything outside the model that dispatch depends on. */
  datatype Dispatch = Dispatch(
    world: ClassWorld,
    unreflect: InternalExtensionFactory.Unreflect,
    plugins: HandlerPlugins)

  /** A per-type metadata cache. */
  type MetaDataCache = map<JClass, MD.MetaData>

  /** The metadata caches of all instances, by identity; a new instance
      gets the next identity. */
  datatype Store = Store(caches: seq<MetaDataCache>)

  /** The instance and every delegate it holds have a cache in the store. */
  ghost predicate Valid(s: Store, e: Extensions) {
    && e.id < |s.caches|
    && forall i :: 0 <= i < |e.factories| ==> e.factories[i].owner < |s.caches|
  }

  /** `register(factory)`: the factory in a delegate owned by this instance,
      then its handler factories and its customizers, each as one block
      ahead of everything registered before. */
  function Register(e: Extensions, f: EF.Factory): (r: Extensions)
    ensures r.factories == [Delegate(f, e.id)] + e.factories
    ensures r.handlerFactories == EF.GetExtensionHandlerFactories(f) + e.handlerFactories
    ensures r.handlerCustomizers == EF.GetExtensionHandlerCustomizers(f) + e.handlerCustomizers
    ensures r.id == e.id && r.allowProxy == e.allowProxy
  {
    Extensions(
      e.id,
      [Delegate(f, e.id)] + e.factories,
      EF.GetExtensionHandlerFactories(f) + e.handlerFactories,
      EF.GetExtensionHandlerCustomizers(f) + e.handlerCustomizers,
      e.allowProxy)
  }

  /** `new Extensions()`: a new identity with an empty cache, the internal
      factory as backstop, proxies allowed. */
  function New(s: Store): (r: (Store, Extensions))
    ensures r.0.caches == s.caches + [map[]]
    ensures r.1.id == |s.caches| && r.1.factories == [Delegate(EF.InternalFactory, |s.caches|)]
    ensures r.1.handlerFactories == [BridgeMethodHandlerFactory, InstanceHandlerFactory]
    ensures r.1.handlerCustomizers == [] && r.1.allowProxy
    ensures Valid(r.0, r.1)
  {
    var id := |s.caches|;
    (Store(s.caches + [map[]]), Register(Extensions(id, [], [], [], true), EF.InternalFactory))
  }

  /** The copy constructor: a new identity whose cache starts with the
      entries of the origin's cache, the same three lists and the proxy
      switch. The factory list holds the origin's delegates themselves, so
      they stay bound to the caches of the instances that registered them. */
  function CreateCopy(s: Store, e: Extensions): (r: (Store, Extensions))
    requires Valid(s, e)
    ensures r.0.caches == s.caches + [s.caches[e.id]]
    ensures r.1.id == |s.caches| && r.1.id != e.id
    ensures r.1.factories == e.factories && r.1.handlerFactories == e.handlerFactories
    ensures r.1.handlerCustomizers == e.handlerCustomizers
    ensures r.1.allowProxy == e.allowProxy
    ensures Valid(r.0, r.1)
  {
    var id := |s.caches|;
    (Store(s.caches + [s.caches[e.id]]),
     Extensions(id, e.factories, e.handlerFactories, e.handlerCustomizers, e.allowProxy))
  }

  /** `findFactoryFor(extensionType)`: the first delegate whose factory
      accepts the type. */
  function FindFactoryFor(p: EF.Plugins, e: Extensions, t: JClass): (r: Option<Delegate>)
    ensures r.None? <==> forall d :: d in e.factories ==> !DelegateAccepts(p, d, t)
    ensures r.Some? ==> DelegateAccepts(p, r.value, t)
    ensures r.Some? ==>
      exists i :: 0 <= i < |e.factories| && e.factories[i] == r.value &&
        forall j :: 0 <= j < i ==> !DelegateAccepts(p, e.factories[j], t)
  {
    var r := FindFirst(e.factories, d => DelegateAccepts(p, d, t));
    if r.None? then
      assert forall d :: d in e.factories ==> !DelegateAccepts(p, d, t) by {
        forall d | d in e.factories ensures !DelegateAccepts(p, d, t) {
          var j :| 0 <= j < |e.factories| && e.factories[j] == d;
          assert !(d => DelegateAccepts(p, d, t))(e.factories[j]);
        }
      }
      r
    else
      var i :| 0 <= i < |e.factories| && e.factories[i] == r.value &&
        forall j :: 0 <= j < i ==> !(d => DelegateAccepts(p, d, t))(e.factories[j]);
      assert forall j :: 0 <= j < i ==> !DelegateAccepts(p, e.factories[j], t);
      r
  }

  /** `hasExtensionFor(extensionType)` */
  function HasExtensionFor(p: EF.Plugins, e: Extensions, t: JClass): (r: bool)
    ensures r <==> exists d :: d in e.factories && DelegateAccepts(p, d, t)
  {
    FindFactoryFor(p, e, t).Some?
  }

  /** `findFactory(factoryType)`: the delegate of the first factory of the
      given kind; the delegate itself, not the factory it wraps, is what the
      caller gets. */
  function FindFactory(e: Extensions, isInstance: EF.Factory -> bool): (r: Option<Delegate>)
    ensures r.None? <==> forall i :: 0 <= i < |e.factories| ==> !isInstance(e.factories[i].factory)
    ensures r.Some? ==> isInstance(r.value.factory)
    ensures r.Some? ==>
      exists i :: 0 <= i < |e.factories| && e.factories[i] == r.value &&
        forall j :: 0 <= j < i ==> !isInstance(e.factories[j].factory)
  {
    var r := FindFirst(e.factories, (d: Delegate) => isInstance(d.factory));
    if r.None? then
      assert forall i :: 0 <= i < |e.factories| ==> !isInstance(e.factories[i].factory) by {
        forall i | 0 <= i < |e.factories| ensures !isInstance(e.factories[i].factory) {
          assert !((d: Delegate) => isInstance(d.factory))(e.factories[i]);
        }
      }
      r
    else
      var i :| 0 <= i < |e.factories| && e.factories[i] == r.value &&
        forall j :: 0 <= j < i ==> !((d: Delegate) => isInstance(d.factory))(e.factories[j]);
      assert forall j :: 0 <= j < i ==> !isInstance(e.factories[j].factory);
      r
  }

  /** `ExtensionHandlerFactory.accepts` */
  predicate HandlerFactoryAccepts(d: Dispatch, hf: HandlerFactory, t: JClass, m: Method) {
    match hf
    case BridgeMethodHandlerFactory => InternalExtensionFactory.BridgeAccepts(m)
    case InstanceHandlerFactory => InternalExtensionFactory.InstanceAccepts(t, m)
    case UserHandlerFactory(id) => d.plugins.accepts(id, t, m)
  }

  /** `ExtensionHandlerFactory.buildExtensionHandler` */
  function HandlerFactoryBuild(d: Dispatch, hf: HandlerFactory, t: JClass, m: Method): Result<Option<Handler>, Exception> {
    match hf
    case BridgeMethodHandlerFactory => InternalExtensionFactory.BuildBridgeHandler(d.world, d.unreflect, t, m)
    case InstanceHandlerFactory => InternalExtensionFactory.BuildInstanceHandler(d.unreflect, t, m)
    case UserHandlerFactory(id) => d.plugins.build(id, t, m)
  }

  /** A handler factory that stops the search: it accepts and builds a
      handler, or it throws. */
  predicate Answers(d: Dispatch, hf: HandlerFactory, t: JClass, m: Method) {
    HandlerFactoryAccepts(d, hf, t, m) && HandlerFactoryBuild(d, hf, t, m) != Success(None)
  }

  function Outcome(d: Dispatch, t: JClass, m: Method, hf: HandlerFactory): Option<Result<Option<Handler>, Exception>> {
    if Answers(d, hf, t, m) then Some(HandlerFactoryBuild(d, hf, t, m)) else None
  }

  /** `findExtensionHandlerFor(extensionType, method)`: the handler of the
      first factory that accepts and builds one; a factory that accepts but
      builds nothing does not end the search. */
  function FindExtensionHandlerFor(d: Dispatch, e: Extensions, t: JClass, m: Method): (r: Result<Option<Handler>, Exception>)
    ensures r == Success(None) <==> forall i :: 0 <= i < |e.handlerFactories| ==> !Answers(d, e.handlerFactories[i], t, m)
    ensures r != Success(None) ==>
      exists i :: 0 <= i < |e.handlerFactories| && HandlerFactoryAccepts(d, e.handlerFactories[i], t, m) &&
        HandlerFactoryBuild(d, e.handlerFactories[i], t, m) == r &&
        forall j :: 0 <= j < i ==> !Answers(d, e.handlerFactories[j], t, m)
  {
    var hfs := e.handlerFactories;
    assert forall j :: 0 <= j < |hfs| ==> (Outcome(d, t, m, hfs[j]).None? <==> !Answers(d, hfs[j], t, m));
    match FirstSome(hfs, hf => Outcome(d, t, m, hf))
    case None => Success(None)
    case Some(r) =>
      var i :| 0 <= i < |hfs| && Outcome(d, t, m, hfs[i]) == Some(r) && forall j :: 0 <= j < i ==> Outcome(d, t, m, hfs[j]).None?;
      r
  }

  /** `applyExtensionHandlerCustomizers(handler, extensionType, method)`:
      each customizer in list order on the result of the previous one. */
  function ApplyExtensionHandlerCustomizers(d: Dispatch, e: Extensions, h: Handler, t: JClass, m: Method): (r: Handler)
    ensures e.handlerCustomizers == [] ==> r == h
  {
    FoldLeft((acc, cz) => d.plugins.customize(cz, acc, t, m), h, e.handlerCustomizers)
  }

  /** `setAllowProxy(allowProxy)` */
  function SetAllowProxy(e: Extensions, allowProxy: bool): (r: Extensions)
    ensures r.allowProxy == allowProxy && r.(allowProxy := e.allowProxy) == e
  {
    e.(allowProxy := allowProxy)
  }

  const ProxyDisallowedMessage: string :=
    "Creating onDemand proxy disallowed. Ensure @GenerateSqlObject annotation is being processed by `jdbi3-generator` annotation processor."

  /** `onCreateProxy()` */
  function OnCreateProxy(e: Extensions): (r: Result<(), Exception>)
    ensures r.Failure? <==> !e.allowProxy
    ensures r.Failure? ==> r.error == IllegalState(ProxyDisallowedMessage)
  {
    if e.allowProxy then Success(()) else Failure(IllegalState(ProxyDisallowedMessage))
  }

  // ---------------------------------------------------------------------
  // Registration order

  /** The factory search goes through the newest accepting registration,
      reached through the delegate this instance owns. */
  lemma RegisterTakesPriority(p: EF.Plugins, e: Extensions, f: EF.Factory, t: JClass)
    ensures EF.Accepts(p, f, t) ==> FindFactoryFor(p, Register(e, f), t) == Some(Delegate(f, e.id))
    ensures !EF.Accepts(p, f, t) ==> FindFactoryFor(p, Register(e, f), t) == FindFactoryFor(p, e, t)
  {
    var d := Delegate(f, e.id);
    FindFirstAppend([d], e.factories, g => DelegateAccepts(p, g, t));
    if EF.Accepts(p, f, t) {
      FindFirstIsEarliest([d], g => DelegateAccepts(p, g, t), 0);
    }
  }

  /** A newly registered factory's handler factories are searched before
      all earlier ones, and only when none of them answers does the search
      fall through. */
  lemma RegisterHandlerFactoriesTakePriority(d: Dispatch, e: Extensions, f: EF.Factory, t: JClass, m: Method)
    ensures var block := Extensions(e.id, [], EF.GetExtensionHandlerFactories(f), [], true);
      FindExtensionHandlerFor(d, Register(e, f), t, m) ==
        if FindExtensionHandlerFor(d, block, t, m) == Success(None) then FindExtensionHandlerFor(d, e, t, m)
        else FindExtensionHandlerFor(d, block, t, m)
  {
    FirstSomeAppend(EF.GetExtensionHandlerFactories(f), e.handlerFactories, hf => Outcome(d, t, m, hf));
  }

  /** A newly registered factory's customizers run first, and the earlier
      ones run on their result. */
  lemma RegisterCustomizersRunFirst(d: Dispatch, e: Extensions, f: EF.Factory, h: Handler, t: JClass, m: Method)
    ensures var block := Extensions(e.id, [], [], EF.GetExtensionHandlerCustomizers(f), true);
      ApplyExtensionHandlerCustomizers(d, Register(e, f), h, t, m) ==
        ApplyExtensionHandlerCustomizers(d, e, ApplyExtensionHandlerCustomizers(d, block, h, t, m), t, m)
  {
    FoldLeftAppend((acc, cz) => d.plugins.customize(cz, acc, t, m), h,
      EF.GetExtensionHandlerCustomizers(f), e.handlerCustomizers);
  }

  /** The internal factory stays last, with its two handler factories at
      the tail of the handler factory list. */
  ghost predicate HasBackstop(e: Extensions) {
    && |e.factories| > 0 && e.factories[|e.factories| - 1].factory == EF.InternalFactory
    && |e.handlerFactories| >= 2
    && e.handlerFactories[|e.handlerFactories| - 2..] == InternalExtensionFactory.HandlerFactories
  }

  lemma RegisterKeepsBackstop(s: Store, e: Extensions, f: EF.Factory)
    requires HasBackstop(e)
    ensures HasBackstop(New(s).1)
    ensures HasBackstop(Register(e, f))
  {
    var r := Register(e, f);
    var n := |EF.GetExtensionHandlerFactories(f)|;
    assert r.handlerFactories[|r.handlerFactories| - 2..] == e.handlerFactories[|e.handlerFactories| - 2..];
  }

  /** With the backstop in place every method gets an answer from the
      chain: a handler, or the exception of a factory that failed. */
  lemma BackstopAlwaysAnswers(d: Dispatch, e: Extensions, t: JClass, m: Method)
    requires HasBackstop(e)
    ensures FindExtensionHandlerFor(d, e, t, m) != Success(None)
  {
    var i := |e.handlerFactories| - 1;
    assert e.handlerFactories[i] == e.handlerFactories[|e.handlerFactories| - 2..][1];
    assert Answers(d, e.handlerFactories[i], t, m);
  }

  // ---------------------------------------------------------------------
  // Attaching through a factory delegate

  /** `checkMethodHandler(extensionType, klass, name, params)`: the default
      is offered only when the extension type has no such method. */
  function CheckMethodHandler(w: ClassWorld, t: JClass, klass: JClass, name: string, params: seq<JClass>): (r: Option<Method>)
    ensures SafeMethodLookup(w, t, name, params).Some? ==> r.None?
    ensures SafeMethodLookup(w, t, name, params).None? ==> r == SafeMethodLookup(w, klass, name, params)
  {
    if SafeMethodLookup(w, t, name, params).Some? then None else SafeMethodLookup(w, klass, name, params)
  }

  /** The `finalize` default looks the method up on the extension type
      twice, so it is never installed. */
  lemma FinalizeDefaultNeverInstalled(w: ClassWorld, t: JClass)
    ensures CheckMethodHandler(w, t, t, "finalize", []).None?
  {
  }

  /** A proxy: its own reference and its dispatch table. */
  datatype Proxy<C> = Proxy(self: Value, handlers: map<Method, MD.Invoker<C>>)

  /** Everything `attach` reaches outside the model: dispatch, the
      factories' `accepts`/`attach`, handler runtime, what a configuration
      customizer does, and the `Extensions` the handle's configuration
      holds. */
  datatype Env<!C> = Env(
    dispatch: Dispatch,
    factoryPlugins: EF.Plugins,
    runtime: Runtime,
    customize: (nat, C) -> C,
    extensionsOf: C -> Extensions)

  /** The handler chain `build` consults: `findExtensionHandlerFor` of the
      configuration's `Extensions`. */
  function ChainHandlers(d: Dispatch, e: Extensions, t: JClass): Method -> Result<Option<Handler>, Exception> {
    m => FindExtensionHandlerFor(d, e, t, m)
  }

  /** The customizers `build` passes each bound handler through. */
  function ChainCustomizers(d: Dispatch, e: Extensions, t: JClass): (Handler, Method) -> Handler {
    (h, m) => ApplyExtensionHandlerCustomizers(d, e, h, t, m)
  }

  /** `handler.warm(config)` for every handler `build` binds. */
  function Warmer(rt: Runtime): Handler -> Option<Exception> {
    h => Warm(rt, h)
  }

  /** What building the metadata of `t` for the factory `f` ends with: the
      failure of `ExtensionMetaData.builder` when the type is ambiguous,
      otherwise what `build()` ends with on the builder after the factory's
      `buildExtensionInitData`, consulting the handler factories and
      customizers of the configuration's `Extensions`. */
  ghost predicate BuildOutcome<C>(env: Env<C>, f: EF.Factory, t: JClass, config: C, r: Result<MD.MetaData, Exception>) {
    var nb := MD.NewBuilder(env.dispatch.world, t);
    if nb.Failure? then r == Failure(nb.error)
    else
      var ext := env.extensionsOf(config);
      MD.BuildsTo(
        MD.ApplyInitActions(nb.value, EF.BuildExtensionInitData(f)),
        ChainHandlers(env.dispatch, ext, t), ChainCustomizers(env.dispatch, ext, t), Warmer(env.runtime), r)
  }

  /** Building has one outcome only. */
  lemma BuildOutcomeDetermines<C>(
    env: Env<C>, f: EF.Factory, t: JClass, config: C, r1: Result<MD.MetaData, Exception>, r2: Result<MD.MetaData, Exception>)
    requires BuildOutcome(env, f, t, config, r1) && BuildOutcome(env, f, t, config, r2)
    ensures r1 == r2
  {
    var nb := MD.NewBuilder(env.dispatch.world, t);
    if nb.Success? {
      var ext := env.extensionsOf(config);
      MD.BuildsToDetermines(
        MD.ApplyInitActions(nb.value, EF.BuildExtensionInitData(f)),
        ChainHandlers(env.dispatch, ext, t), ChainCustomizers(env.dispatch, ext, t), Warmer(env.runtime), r1, r2);
    }
  }

  /** The metadata `attach` builds for a type it has not seen: a builder,
      the factory's init data, then `build` against the chain of the
      handle's configuration. */
  method BuildMetaData<C>(env: Env<C>, f: EF.Factory, t: JClass, config: C) returns (r: Result<MD.MetaData, Exception>)
    ensures BuildOutcome(env, f, t, config, r)
    ensures MD.NewBuilder(env.dispatch.world, t).Failure? ==> r == Failure(MD.NewBuilder(env.dispatch.world, t).error)
    ensures r.Success? ==> r.value.extensionType == t
    ensures r.Success? ==> forall m ::
      (m in env.dispatch.world.methods(t) || m in env.dispatch.world.declaredMethods(t)) && !m.isStatic ==>
        m in r.value.methodHandlers
  {
    var b := MD.NewBuilder(env.dispatch.world, t);
    if b.Failure? {
      return Failure(b.error);
    }
    var b1 := MD.ApplyInitActions(b.value, EF.BuildExtensionInitData(f));
    var extensions := env.extensionsOf(config);
    var built, _ := MD.Build(
      b1, ChainHandlers(env.dispatch, extensions, t), ChainCustomizers(env.dispatch, extensions, t), Warmer(env.runtime));
    r := built;
  }

  /** The Object methods a proxy answers itself, when the extension type
      does not declare them: `toString`, `equals(Object)`, `hashCode`; the
      `finalize` lookup never yields one. */
  function Defaults<C>(w: ClassWorld, t: JClass): seq<(Option<Method>, Handler)> {
    [
      (CheckMethodHandler(w, t, ObjectClass, "toString", []), ToStringHandler(t.name)),
      (CheckMethodHandler(w, t, ObjectClass, "equals", [ObjectClass]), EqualsHandler),
      (CheckMethodHandler(w, t, ObjectClass, "hashCode", []), HashCodeHandler),
      (CheckMethodHandler(w, t, t, "finalize", []), NullHandler)
    ]
  }

  /** Whether one of the defaults is the method `m`. */
  ghost predicate IsDefault(defaults: seq<(Option<Method>, Handler)>, m: Method) {
    exists i :: 0 <= i < |defaults| && defaults[i].0 == Some(m)
  }

  lemma IsDefaultCons(defaults: seq<(Option<Method>, Handler)>, m: Method)
    requires |defaults| > 0
    ensures IsDefault(defaults, m) <==> defaults[0].0 == Some(m) || IsDefault(defaults[1..], m)
  {
    if IsDefault(defaults, m) {
      var i :| 0 <= i < |defaults| && defaults[i].0 == Some(m);
      if i > 0 {
        assert defaults[1..][i - 1].0 == Some(m);
      }
    }
    if IsDefault(defaults[1..], m) {
      var i :| 0 <= i < |defaults[1..]| && defaults[1..][i].0 == Some(m);
      assert defaults[i + 1].0 == Some(m);
    }
  }

  /** The table after the default found at the head of `defaults`. */
  function PutDefault<C>(
    md: MD.MetaData, customize: (nat, C) -> C, proxy: Value, instanceConfig: C,
    d: (Option<Method>, Handler), handlers: map<Method, MD.Invoker<C>>): map<Method, MD.Invoker<C>>
  {
    match d.0
    case None => handlers
    case Some(m) => handlers[m := MD.NewInvoker(md, customize, proxy, m, Some(d.1), instanceConfig)]
  }

  /** Puts the defaults into the table in order, each bound to the proxy
      itself. */
  function AddDefaults<C>(
    md: MD.MetaData, customize: (nat, C) -> C, proxy: Value, instanceConfig: C,
    defaults: seq<(Option<Method>, Handler)>, handlers: map<Method, MD.Invoker<C>>): (r: map<Method, MD.Invoker<C>>)
    ensures forall m :: m in r <==> m in handlers || IsDefault(defaults, m)
    ensures forall m :: m in handlers && !IsDefault(defaults, m) ==> r[m] == handlers[m]
    decreases |defaults|
  {
    if |defaults| == 0 then handlers
    else
      var r := AddDefaults(md, customize, proxy, instanceConfig, defaults[1..],
        PutDefault(md, customize, proxy, instanceConfig, defaults[0], handlers));
      assert forall m :: IsDefault(defaults, m) <==> defaults[0].0 == Some(m) || IsDefault(defaults[1..], m) by {
        forall m ensures IsDefault(defaults, m) <==> defaults[0].0 == Some(m) || IsDefault(defaults[1..], m) {
          IsDefaultCons(defaults, m);
        }
      }
      r
  }

  /** A default found in the list is bound to the proxy with its handler,
      unless a later default is the same method. */
  lemma {:induction false} AddDefaultsLastWins<C>(
    md: MD.MetaData, customize: (nat, C) -> C, proxy: Value, instanceConfig: C,
    defaults: seq<(Option<Method>, Handler)>, handlers: map<Method, MD.Invoker<C>>, i: nat)
    requires i < |defaults| && defaults[i].0.Some?
    requires forall j :: i < j < |defaults| ==> defaults[j].0 != defaults[i].0
    ensures var r := AddDefaults(md, customize, proxy, instanceConfig, defaults, handlers);
      defaults[i].0.value in r &&
      r[defaults[i].0.value] == MD.NewInvoker(md, customize, proxy, defaults[i].0.value, Some(defaults[i].1), instanceConfig)
    decreases |defaults|
  {
    var next := PutDefault(md, customize, proxy, instanceConfig, defaults[0], handlers);
    var m := defaults[i].0.value;
    if i == 0 {
      forall j | 0 <= j < |defaults[1..]|
        ensures defaults[1..][j].0 != Some(m)
      {
        assert defaults[1..][j] == defaults[j + 1];
      }
    } else {
      assert defaults[1..][i - 1] == defaults[i];
      assert forall j :: i - 1 < j < |defaults[1..]| ==> defaults[1..][j] == defaults[j + 1];
      AddDefaultsLastWins(md, customize, proxy, instanceConfig, defaults[1..], next, i - 1);
    }
  }

  /** Every entry `AddDefaults` puts in is bound to the proxy. */
  lemma {:induction false} AddDefaultsBindsProxy<C>(
    md: MD.MetaData, customize: (nat, C) -> C, proxy: Value, instanceConfig: C,
    defaults: seq<(Option<Method>, Handler)>, handlers: map<Method, MD.Invoker<C>>)
    ensures var r := AddDefaults(md, customize, proxy, instanceConfig, defaults, handlers);
      forall m :: m in r ==> (m in handlers && r[m] == handlers[m]) || r[m].target == proxy
    decreases |defaults|
  {
    if |defaults| > 0 {
      var next := PutDefault(md, customize, proxy, instanceConfig, defaults[0], handlers);
      AddDefaultsBindsProxy(md, customize, proxy, instanceConfig, defaults[1..], next);
    }
  }

  /** An invoker for every method with metadata, bound to the backing
      object. */
  function BackingTable<C>(md: MD.MetaData, customize: (nat, C) -> C, backing: Value, instanceConfig: C): (r: map<Method, MD.Invoker<C>>)
    ensures r.Keys == md.methodHandlers.Keys
    ensures forall m :: m in r ==> r[m].target == backing && r[m].handler == Some(md.methodHandlers[m])
  {
    map m | m in md.methodHandlers :: MD.CreateExtensionHandlerInvoker(md, customize, backing, m, instanceConfig)
  }

  /** The backing table with any list of defaults added: handled methods
      that are not defaults keep their backing invoker, and every entry runs
      on the backing object or on the proxy. */
  lemma AddDefaultsOverBacking<C>(
    md: MD.MetaData, customize: (nat, C) -> C, proxy: Value, backing: Value, instanceConfig: C,
    defaults: seq<(Option<Method>, Handler)>)
    ensures var r := AddDefaults(md, customize, proxy, instanceConfig, defaults, BackingTable(md, customize, backing, instanceConfig));
      && (forall m :: m in r <==> m in md.methodHandlers || IsDefault(defaults, m))
      && (forall m :: m in md.methodHandlers && !IsDefault(defaults, m) ==>
          r[m].target == backing && r[m].handler == Some(md.methodHandlers[m]))
      && (forall m :: m in r ==> r[m].target == backing || r[m].target == proxy)
  {
    var base := BackingTable(md, customize, backing, instanceConfig);
    AddDefaultsBindsProxy(md, customize, proxy, instanceConfig, defaults, base);
  }

  /** The dispatch table of a proxy: an invoker for every method with
      metadata, bound to the backing object, then the Object defaults bound
      to the proxy. */
  function DispatchTable<C>(
    w: ClassWorld, md: MD.MetaData, customize: (nat, C) -> C, t: JClass,
    proxy: Value, backing: Value, instanceConfig: C): (r: map<Method, MD.Invoker<C>>)
    ensures forall m :: m in md.methodHandlers ==> m in r
    ensures forall m :: m in r <==> m in md.methodHandlers || IsDefault(Defaults<C>(w, t), m)
    ensures forall m :: m in md.methodHandlers && !IsDefault(Defaults<C>(w, t), m) ==>
      r[m].target == backing && r[m].handler == Some(md.methodHandlers[m])
    ensures forall m :: m in r ==> r[m].target == backing || r[m].target == proxy
  {
    var defaults := Defaults<C>(w, t);
    AddDefaultsOverBacking(md, customize, proxy, backing, instanceConfig, defaults);
    AddDefaults(md, customize, proxy, instanceConfig, defaults, BackingTable(md, customize, backing, instanceConfig))
  }

  /** Only the cache of instance `owner` may differ between `s` and `s'`. */
  ghost predicate OnlyCacheOf(s: Store, s': Store, owner: nat) {
    && |s'.caches| == |s.caches|
    && forall i :: 0 <= i < |s.caches| && i != owner ==> s'.caches[i] == s.caches[i]
  }

  /** The store with the cache of instance `owner` replaced by `c`. */
  function PutCache(s: Store, owner: nat, c: MetaDataCache): (r: Store)
    requires owner < |s.caches|
    ensures OnlyCacheOf(s, r, owner) && r.caches[owner] == c
  {
    Store(s.caches[owner := c])
  }

  /** The metadata of `t`, from the cache of the delegate's owner, or built
      and put there. */
  method CachedMetaData<C>(env: Env<C>, s: Store, d: Delegate, t: JClass, config: C)
    returns (s': Store, r: Result<MD.MetaData, Exception>, built: bool)
    requires d.owner < |s.caches|
    ensures OnlyCacheOf(s, s', d.owner)
    ensures t in s.caches[d.owner] ==> !built && s' == s && r == Success(s.caches[d.owner][t])
    ensures built <==> t !in s.caches[d.owner] && t in s'.caches[d.owner]
    ensures r.Success? <==> t in s'.caches[d.owner]
    ensures r.Success? ==> r.value == s'.caches[d.owner][t]
    ensures s'.caches[d.owner].Keys == s.caches[d.owner].Keys + (if built then {t} else {})
    ensures forall k :: k in s.caches[d.owner] ==> s'.caches[d.owner][k] == s.caches[d.owner][k]
    ensures t !in s.caches[d.owner] ==> BuildOutcome(env, d.factory, t, config, r)
  {
    var cache := s.caches[d.owner];
    if t in cache {
      return s, Success(cache[t]), false;
    }
    var computed := BuildMetaData(env, d.factory, t, config);
    if computed.Failure? {
      return s, Failure(computed.error), false;
    }
    var cache' := cache[t := computed.value];
    assert cache'.Keys == cache.Keys + {t};
    s' := PutCache(s, d.owner, cache');
    r := computed;
    built := true;
  }

  /** What attaching `t` through the delegate `d` does to the caches,
      taking them from `s` to `s'`: only the owner's cache changes, and
      only by gaining `t`; a type already cached leaves the store alone; a
      type not yet cached gains exactly the metadata built for it, or
      nothing when that build fails, and then `failure` is the build's
      exception. */
  ghost predicate CacheAttached<C>(
    env: Env<C>, s: Store, s': Store, d: Delegate, t: JClass, config: C, failure: Option<Exception>)
  {
    && d.owner < |s.caches|
    && OnlyCacheOf(s, s', d.owner)
    && (t in s.caches[d.owner] ==> s' == s)
    && s'.caches[d.owner].Keys <= s.caches[d.owner].Keys + {t}
    && (forall k :: k in s.caches[d.owner] ==> k in s'.caches[d.owner] && s'.caches[d.owner][k] == s.caches[d.owner][k])
    && (t !in s.caches[d.owner] && t in s'.caches[d.owner] ==>
         BuildOutcome(env, d.factory, t, config, Success(s'.caches[d.owner][t])))
    && (t !in s.caches[d.owner] && t !in s'.caches[d.owner] ==>
         failure.Some? && BuildOutcome(env, d.factory, t, config, Failure(failure.value)))
  }

  /** What attaching `t` through the delegate `d` does, taking the caches
      from `s` to `s'` with outcome `r`: the caches change as
      `CacheAttached` states, a failed build failing the call with the
      build's exception; with the metadata cached, the call fails exactly
      when the wrapped factory, not being a proxy factory, fails to attach,
      and then with that factory's exception; on success the
      result is a proxy with the given reference whose table is the
      dispatch table of the cached metadata, the backing object and the
      instance configuration. */
  ghost predicate Attached<C>(
    env: Env<C>, s: Store, s': Store, d: Delegate, t: JClass, config: C, proxyRef: nat,
    r: Result<Proxy<C>, Exception>)
  {
    && CacheAttached(env, s, s', d, t, config, if r.Failure? then Some(r.error) else None)
    && (r.Failure? <==>
         t !in s'.caches[d.owner] ||
         (!EF.IsProxyFactory(d.factory) && EF.Attach(env.factoryPlugins, d.factory, t).Failure?))
    && (r.Failure? && t in s'.caches[d.owner] ==> r.error == EF.Attach(env.factoryPlugins, d.factory, t).error)
    && (r.Success? ==>
         var md := s'.caches[d.owner][t];
         r.value == Proxy(Ref(proxyRef), DispatchTable(
           env.dispatch.world, md, env.customize, t, Ref(proxyRef),
           if EF.IsProxyFactory(d.factory) then Null else EF.Attach(env.factoryPlugins, d.factory, t).value,
           MD.CreateInstanceConfiguration(md, env.customize, config))))
  }

  /** Two updates of the owner's cache that keep its entries, may add
      only `t`, and agree on `t` are the same store. */
  lemma SameCacheUpdate(s: Store, s1: Store, s2: Store, owner: nat, t: JClass)
    requires owner < |s.caches| && OnlyCacheOf(s, s1, owner) && OnlyCacheOf(s, s2, owner)
    requires s1.caches[owner].Keys <= s.caches[owner].Keys + {t}
    requires s2.caches[owner].Keys <= s.caches[owner].Keys + {t}
    requires forall k :: k in s.caches[owner] ==> k in s1.caches[owner] && s1.caches[owner][k] == s.caches[owner][k]
    requires forall k :: k in s.caches[owner] ==> k in s2.caches[owner] && s2.caches[owner][k] == s.caches[owner][k]
    requires t in s1.caches[owner] <==> t in s2.caches[owner]
    requires t in s1.caches[owner] ==> s1.caches[owner][t] == s2.caches[owner][t]
    ensures s1 == s2
  {
    var c1, c2 := s1.caches[owner], s2.caches[owner];
    assert c1.Keys == c2.Keys;
    assert c1 == c2;
    assert s1.caches == s2.caches;
  }

  /** From one store, attaching one type through one delegate leaves one
      resulting store: a type not yet cached gains exactly the metadata
      built for it, or nothing when that build fails. */
  lemma AttachedDeterminesStore<C>(
    env: Env<C>, s: Store, s1: Store, s2: Store, d: Delegate, t: JClass, config: C,
    f1: Option<Exception>, f2: Option<Exception>)
    requires CacheAttached(env, s, s1, d, t, config, f1)
    requires CacheAttached(env, s, s2, d, t, config, f2)
    ensures s1 == s2
    ensures t !in s1.caches[d.owner] ==> f1 == f2
  {
    if t !in s.caches[d.owner] {
      var c1, c2 := s1.caches[d.owner], s2.caches[d.owner];
      var o1: Result<MD.MetaData, Exception> := if t in c1 then Success(c1[t]) else Failure(f1.value);
      var o2: Result<MD.MetaData, Exception> := if t in c2 then Success(c2[t]) else Failure(f2.value);
      BuildOutcomeDetermines(env, d.factory, t, config, o1, o2);
      SameCacheUpdate(s, s1, s2, d.owner, t);
    }
  }

  /** `Attached` leaves no choice: from one store, attaching one type
      through one delegate has one resulting store and one outcome, the
      metadata built for a type not yet cached included. */
  lemma AttachedDetermines<C>(
    env: Env<C>, s: Store, s1: Store, s2: Store, d: Delegate, t: JClass, config: C, proxyRef: nat,
    r1: Result<Proxy<C>, Exception>, r2: Result<Proxy<C>, Exception>)
    requires Attached(env, s, s1, d, t, config, proxyRef, r1)
    requires Attached(env, s, s2, d, t, config, proxyRef, r2)
    ensures s1 == s2 && r1 == r2
  {
    AttachedDeterminesStore(env, s, s1, s2, d, t, config,
      if r1.Failure? then Some(r1.error) else None, if r2.Failure? then Some(r2.error) else None);
  }

  /** `ExtensionFactoryDelegate.attach(extensionType, handleSupplier)`:
      metadata from the owner's cache, or built and cached there (the cache
      keeps it even when attaching the backing object fails later); the
      instance configuration; the backing object, attached only when the
      wrapped factory is not a proxy factory; the dispatch table.
      `proxyRef` is the reference the new proxy object gets. */
  method Attach<C>(env: Env<C>, s: Store, d: Delegate, t: JClass, config: C, proxyRef: nat)
    returns (s': Store, r: Result<Proxy<C>, Exception>, built: bool, attachedBacking: bool)
    requires d.owner < |s.caches|
    ensures OnlyCacheOf(s, s', d.owner)
    ensures built <==> t !in s.caches[d.owner] && t in s'.caches[d.owner]
    ensures attachedBacking <==> !EF.IsProxyFactory(d.factory) && t in s'.caches[d.owner]
    ensures Attached(env, s, s', d, t, config, proxyRef, r)
  {
    var cached;
    s', cached, built := CachedMetaData(env, s, d, t, config);
    attachedBacking := false;
    if cached.Failure? {
      return s', Failure(cached.error), built, false;
    }
    var md := cached.value;
    var instanceConfig := MD.CreateInstanceConfiguration(md, env.customize, config);
    var backing := Null;
    if !EF.IsProxyFactory(d.factory) {
      attachedBacking := true;
      var attached := EF.Attach(env.factoryPlugins, d.factory, t);
      if attached.Failure? {
        return s', Failure(attached.error), built, attachedBacking;
      }
      backing := attached.value;
    }
    var table := DispatchTable(env.dispatch.world, md, env.customize, t, Ref(proxyRef), backing, instanceConfig);
    r := Success(Proxy(Ref(proxyRef), table));
  }

  /** `findFor(extensionType, handleSupplier)`: nothing when no factory
      accepts the type; otherwise exactly what attaching through the first
      accepting delegate does, to the cache of the instance that registered
      it. */
  method FindFor<C>(env: Env<C>, s: Store, e: Extensions, t: JClass, config: C, proxyRef: nat)
    returns (s': Store, r: Result<Option<Proxy<C>>, Exception>)
    requires Valid(s, e)
    ensures !HasExtensionFor(env.factoryPlugins, e, t) ==> r == Success(None) && s' == s
    ensures HasExtensionFor(env.factoryPlugins, e, t) ==> r != Success(None)
    ensures HasExtensionFor(env.factoryPlugins, e, t) ==>
      Attached(env, s, s', FindFactoryFor(env.factoryPlugins, e, t).value, t, config, proxyRef,
        if r.Failure? then Failure(r.error) else if r.value.Some? then Success(r.value.value) else Failure(NullPointer("")))
  {
    match FindFactoryFor(env.factoryPlugins, e, t)
    case None =>
      return s, Success(None);
    case Some(d) =>
      var s1, attached, _, _ := Attach(env, s, d, t, config, proxyRef);
      s' := s1;
      r := if attached.Failure? then Failure(attached.error) else Success(Some(attached.value));
  }

  /** Registering keeps an instance valid, and so does the store growing
      as `new` and the copy constructor make it grow. */
  lemma RegisterKeepsValid(s: Store, e: Extensions, f: EF.Factory)
    requires Valid(s, e)
    ensures Valid(s, Register(e, f))
    ensures Valid(New(s).0, e) && Valid(CreateCopy(s, e).0, e)
  {
  }

  /** Two attaches of one type through one delegate build the metadata at
      most once; once the first has cached it, the second builds nothing
      and sees the same metadata. */
  method AttachTwice<C>(env: Env<C>, s: Store, d: Delegate, t: JClass, config: C, ref1: nat, ref2: nat)
    returns (cached1: bool, built1: bool, built2: bool)
    requires d.owner < |s.caches|
    ensures !(built1 && built2)
    ensures cached1 ==> !built2
    ensures built1 ==> cached1 && t !in s.caches[d.owner]
    ensures t in s.caches[d.owner] ==> cached1 && !built1 && !built2
  {
    var s1, r1, b1, _ := Attach(env, s, d, t, config, ref1);
    cached1 := t in s1.caches[d.owner];
    var s2, r2, b2, _ := Attach(env, s1, d, t, config, ref2);
    built1, built2 := b1, b2;
  }

  /** A copy holds the delegates its origin registered, so it shares their
      cache: after `e1 := register(f)` and `e2 := e1.createCopy()`, a
      successful `e2.findFor(t)` puts the metadata into `e1`'s cache and
      leaves `e2`'s own cache as the copy made it, and a later
      `e1.findFor(t)` reuses that metadata and changes no cache. */
  method AttachThroughCopy<C>(env: Env<C>, s: Store, e: Extensions, f: EF.Factory, t: JClass,
      config1: C, config2: C, ref1: nat, ref2: nat)
    returns (s2: Store, s3: Store, s4: Store, r1: Result<Option<Proxy<C>>, Exception>)
    requires Valid(s, e)
    requires EF.Accepts(env.factoryPlugins, f, t)
    ensures |s2.caches| == |s.caches| + 1 && s2.caches[|s.caches|] == s.caches[e.id]
    ensures OnlyCacheOf(s2, s3, e.id) && s3.caches[|s.caches|] == s.caches[e.id]
    ensures r1.Success? ==> t in s3.caches[e.id] && s4 == s3
  {
    var e1 := Register(e, f);
    RegisterTakesPriority(env.factoryPlugins, e, f, t);
    RegisterKeepsValid(s, e, f);
    var copied := CreateCopy(s, e1);
    var e2;
    s2, e2 := copied.0, copied.1;
    assert FindFactoryFor(env.factoryPlugins, e2, t) == Some(Delegate(f, e.id));
    assert Valid(s2, e1);
    s3, r1 := FindFor(env, s2, e2, t, config2, ref1);
    assert Valid(s3, e1);
    var r2;
    s4, r2 := FindFor(env, s3, e1, t, config1, ref2);
  }

  /** Sending a call to the proxy: the invoker registered for the method,
      or the null dereference of the table lookup. */
  function ProxyInvoke<C>(rt: Runtime, proxy: Proxy<C>, m: Method, args: Option<seq<Value>>): (r: Result<Value, Exception>)
    ensures m !in proxy.handlers ==> r == Failure(NullPointer(""))
    ensures m in proxy.handlers ==> r == MD.InvokerInvoke(rt, proxy.handlers[m], args)
  {
    if m in proxy.handlers then MD.InvokerInvoke(rt, proxy.handlers[m], args) else Failure(NullPointer(""))
  }
}

=== FILE: handlers.dfy ===
/** Handlers (SQL Object): handler factories in priority order, newest
    first; `findFor` takes the first handler a factory builds. What a factory
    builds is code outside the model and comes in as `buildHandler`. */
module Handlers {
  import opened Wrappers
  import opened Search
  import JdbiConfigList

  datatype HandlerFactory = HandlerFactory(id: nat)

  datatype Registry = Registry(factories: JdbiConfigList.ConfigList<HandlerFactory>)

  /** `new Handlers()` */
  function New(): (r: Registry)
    ensures r.factories.items == []
  {
    Registry(JdbiConfigList.Create())
  }

  /** `register(factory)` */
  function Register(r: Registry, f: HandlerFactory): (r': Registry)
    ensures r'.factories.items == [f] + r.factories.items
  {
    Registry(r.factories.AddFirst([f]))
  }

  /** `getFactories()`: the factories in priority order. */
  function GetFactories(r: Registry): (fs: seq<HandlerFactory>)
    ensures |fs| == r.factories.Size()
    ensures forall i :: 0 <= i < |fs| ==> r.factories.GetValue(i) == Success(fs[i])
  {
    r.factories.items
  }

  /** `createCopy()`: shares the list. */
  function CreateCopy(r: Registry): (c: Registry)
    ensures c.factories == r.factories
  {
    Registry(r.factories)
  }

  /** `findFor(sqlObjectType, method)` */
  function FindFor<T, Mth, H>(r: Registry, buildHandler: (HandlerFactory, T, Mth) -> Option<H>, t: T, m: Mth): (h: Option<H>)
    ensures h.None? <==> forall i :: 0 <= i < |r.factories.items| ==> buildHandler(r.factories.items[i], t, m).None?
    ensures h.Some? ==>
      exists i :: 0 <= i < |r.factories.items| && buildHandler(r.factories.items[i], t, m) == h &&
        forall j :: 0 <= j < i ==> buildHandler(r.factories.items[j], t, m).None?
  {
    FirstSome(r.factories.items, f => buildHandler(f, t, m))
  }

  /** The last registered factory that builds a handler wins; an empty
      registry finds nothing. */
  lemma RegisterTakesPriority<T, Mth, H>(r: Registry, f: HandlerFactory, buildHandler: (HandlerFactory, T, Mth) -> Option<H>, t: T, m: Mth)
    ensures buildHandler(f, t, m).Some? ==> FindFor(Register(r, f), buildHandler, t, m) == buildHandler(f, t, m)
    ensures buildHandler(f, t, m).None? ==> FindFor(Register(r, f), buildHandler, t, m) == FindFor(r, buildHandler, t, m)
    ensures FindFor(New(), buildHandler, t, m).None?
  {
    FirstSomeAppend([f], r.factories.items, g => buildHandler(g, t, m));
  }
}

=== FILE: internal_extension_factory.dfy ===
/** InternalExtensionFactory: the backstop registered by every
    `Extensions`. It accepts no extension type itself; it supplies the
    handler factories for bridge methods and for methods forwarded to a
    backing object. Whether a method handle can be unreflected is decided by
    access checks outside the model and comes in as `unreflect`. */
module InternalExtensionFactory {
  import opened Wrappers
  import opened Search
  import opened Lang
  import opened Reflect
  import opened ExtensionHandler

  /** Whether `lookupFor(c).unreflect(m)` succeeds. */
  type Unreflect = (JClass, Method) -> bool

  /** The handler factories the internal factory supplies, in order. */
  const HandlerFactories: seq<HandlerFactory> := [BridgeMethodHandlerFactory, InstanceHandlerFactory]

  /** `BridgeMethodExtensionHandlerFactory.accepts` */
  predicate BridgeAccepts(m: Method) {
    m.isBridge
  }

  /** `InstanceExtensionHandlerFactory.accepts` */
  predicate InstanceAccepts(t: JClass, m: Method) {
    true
  }

  /** A method a bridge method may stand for: not itself a bridge, same name
      and arity, and each parameter of the bridge assignable from the
      candidate's parameter at the same position. */
  predicate IsCandidate(w: ClassWorld, bridge: Method, c: Method) {
    && !c.isBridge
    && c.name == bridge.name
    && |c.params| == |bridge.params|
    && forall i :: 0 <= i < |bridge.params| ==> w.isAssignableFrom(bridge.params[i], c.params[i])
  }

  /** `BridgeMethodExtensionHandlerFactory.buildExtensionHandler`: a handler
      over the first candidate among the type's public methods; if that one
      cannot be unreflected, the build fails rather than trying the next.
      The message names the type and methods where Java formats the `Class`
      and `Method` objects themselves. */
  function BuildBridgeHandler(w: ClassWorld, unreflect: Unreflect, t: JClass, m: Method): (r: Result<Option<Handler>, Exception>)
    ensures r == Success(None) <==> forall c :: c in w.methods(t) ==> !IsCandidate(w, m, c)
    ensures r.Success? && r.value.Some? ==>
      exists i :: 0 <= i < |w.methods(t)| && IsCandidate(w, m, w.methods(t)[i]) &&
        (forall j :: 0 <= j < i ==> !IsCandidate(w, m, w.methods(t)[j])) &&
        unreflect(t, w.methods(t)[i]) && r.value.value == MethodHandleHandler(w.methods(t)[i])
    ensures r.Failure? ==>
      exists i :: 0 <= i < |w.methods(t)| && IsCandidate(w, m, w.methods(t)[i]) &&
        (forall j :: 0 <= j < i ==> !IsCandidate(w, m, w.methods(t)[j])) &&
        !unreflect(t, w.methods(t)[i]) && r.error.UnableToCreateExtension?
  {
    var ms := w.methods(t);
    match FirstIndex(ms, c => IsCandidate(w, m, c))
    case None =>
      assert forall c :: c in ms ==> !IsCandidate(w, m, c) by {
        forall c | c in ms ensures !IsCandidate(w, m, c) {
          var j :| 0 <= j < |ms| && ms[j] == c;
          assert !(c => IsCandidate(w, m, c))(ms[j]);
        }
      }
      Success(None)
    case Some(i) =>
      assert ms[i] in ms;
      if unreflect(t, ms[i]) then Success(Some(MethodHandleHandler(ms[i])))
      else Failure(UnableToCreateExtension("Could not create an extension handler for bridge method " + t.name + "#" + m.name + ", could not unreflect " + ms[i].name))
  }

  /** `InstanceExtensionHandlerFactory.buildExtensionHandler`: a handler
      forwarding to the method itself on the backing object. The message
      names the type and method where Java formats the objects themselves. */
  function BuildInstanceHandler(unreflect: Unreflect, t: JClass, m: Method): (r: Result<Option<Handler>, Exception>)
    ensures r.Success? <==> unreflect(m.declaringClass, m)
    ensures r.Success? ==> r.value == Some(MethodHandleHandler(m))
    ensures r.Failure? ==> r.error.UnableToCreateExtension?
  {
    if unreflect(m.declaringClass, m) then Success(Some(MethodHandleHandler(m)))
    else Failure(UnableToCreateExtension("Default handler for " + t.name + " couldn't unreflect " + m.name))
  }
}

=== FILE: internal_jdbi_cache.dfy ===
/** InternalJdbiCache: a map from keys to values with an optional loader and
    a FIFO bound. When `maxSize` is positive, every stored key is also
    queued in insertion order, and after each lookup the oldest keys are
    dropped until at most `maxSize` remain; otherwise the cache never
    evicts and keeps no queue. */
module InternalJdbiCache {
  import opened Wrappers
  import opened Lang
  import LinkedSets

  /** JdbiCacheLoader.create: a value (`None` is null) or an exception. */
  type Loader<!K, V> = K -> Result<Option<V>, Exception>

  /** `InternalJdbiCache.builder()`; `maxSize` defaults to -1 (unbounded). */
  datatype Builder = Builder(maxSize: int) {

    /** `maxSize(n)` */
    function WithMaxSize(n: int): (r: Builder)
      ensures r.maxSize == n
    {
      this.(maxSize := n)
    }
  }

  function NewBuilder(): (b: Builder)
    ensures b.maxSize == -1
  {
    Builder(-1)
  }

  datatype Cache<!K(!new), V> = Cache(entries: map<K, V>, queue: seq<K>, loader: Option<Loader<K, V>>, maxSize: int)

  predicate Bounded<K(!new), V>(c: Cache<K, V>) {
    c.maxSize > 0
  }

  /** The representation invariant every reachable cache keeps: bounded,
      the queue lists each stored key once, oldest first, and there are at
      most `maxSize` of them; unbounded, the queue stays empty. */
  ghost predicate Valid<K(!new), V>(c: Cache<K, V>) {
    if !Bounded(c) then c.queue == []
    else
      && LinkedSets.Distinct(c.queue)
      && (forall k :: k in c.entries <==> k in c.queue)
      && |c.queue| <= c.maxSize
  }

  /** `build()`: a cache without a loader. */
  function Build<K(!new), V>(b: Builder): (c: Cache<K, V>)
    ensures Valid(c) && c.loader.None? && c.maxSize == b.maxSize
    ensures forall k :: k !in c.entries
  {
    Cache(map[], [], None, b.maxSize)
  }

  /** `buildWithLoader(loader)` */
  function BuildWithLoader<K(!new), V>(b: Builder, loader: Loader<K, V>): (c: Cache<K, V>)
    ensures Valid(c) && c.loader == Some(loader) && c.maxSize == b.maxSize
    ensures forall k :: k !in c.entries
  {
    Cache(map[], [], Some(loader), b.maxSize)
  }

  /** What a lookup returns: the cache afterwards, the value (`None` is
      null) or the exception, and how many times a loader ran. */
  datatype Lookup<!K(!new), V> = Lookup(cache: Cache<K, V>, value: Result<Option<V>, Exception>, loads: nat)

  /** `cache.computeIfAbsent(key, compute(loader)::create)`: a stored key
      is returned as is; otherwise the loader runs once and a non-null
      value is stored and, when bounded, queued. */
  function ComputeIfAbsent<K(!new), V>(c: Cache<K, V>, key: K, loader: Loader<K, V>): Lookup<K, V> {
    if key in c.entries then Lookup(c, Success(Some(c.entries[key])), 0)
    else
      match loader(key)
      case Failure(e) => Lookup(c, Failure(e), 1)
      case Success(None) => Lookup(c, Success(None), 1)
      case Success(Some(v)) =>
        var queue := if Bounded(c) then c.queue + [key] else c.queue;
        Lookup(c.(entries := c.entries[key := v], queue := queue), Success(Some(v)), 1)
  }

  /** `expunge()`: nothing when unbounded; otherwise the oldest queued keys
      are removed until at most `maxSize` are left. */
  function Expunge<K(!new), V>(c: Cache<K, V>): Cache<K, V> {
    if !Bounded(c) then c else Evict(c)
  }

  function Evict<K(!new), V>(c: Cache<K, V>): Cache<K, V>
    requires Bounded(c)
    decreases |c.queue|
  {
    if |c.queue| <= c.maxSize then c
    else Evict(c.(entries := c.entries - {c.queue[0]}, queue := c.queue[1..]))
  }

  /** The keys the queue keeps once `maxSize` is exceeded: its newest `n`. */
  function Newest<K>(s: seq<K>, n: nat): (r: seq<K>)
    ensures |r| <= n && |r| <= |s|
  {
    if |s| <= n then s else s[|s| - n..]
  }

  /** How one lookup through `loader` changes a valid cache. A hit returns
      the stored value without loading and without refreshing its place in
      the queue. A miss loads once; a null result or an exception stores
      nothing; a value is stored and, when the cache is bounded and full,
      the oldest key makes room for it. */
  ghost predicate LoadsThrough<K(!new), V>(c: Cache<K, V>, key: K, loader: Loader<K, V>, r: Lookup<K, V>) {
    && (key in c.entries ==> r == Lookup(c, Success(Some(c.entries[key])), 0))
    && (key !in c.entries ==> r.loads == 1 && r.value == loader(key))
    && (key !in c.entries && !(loader(key).Success? && loader(key).value.Some?) ==> r.cache == c)
    && (key !in c.entries && loader(key).Success? && loader(key).value.Some? ==>
          var v := loader(key).value.value;
          && r.cache.loader == c.loader && r.cache.maxSize == c.maxSize
          && (!Bounded(c) ==> r.cache.entries == c.entries[key := v] && r.cache.queue == [])
          && (Bounded(c) && |c.queue| < c.maxSize ==>
                r.cache.entries == c.entries[key := v] && r.cache.queue == c.queue + [key])
          && (Bounded(c) && |c.queue| == c.maxSize ==>
                r.cache.entries == (c.entries - {c.queue[0]})[key := v] && r.cache.queue == c.queue[1..] + [key]))
  }

  /** `getWithLoader(key, loader)`. A null loader fails when the method
      reference on it is formed, before the map is consulted. */
  function GetWithLoader<K(!new), V>(c: Cache<K, V>, key: K, loader: Option<Loader<K, V>>): (r: Lookup<K, V>)
    requires Valid(c)
    ensures Valid(r.cache)
    ensures loader.Some? ==> LoadsThrough(c, key, loader.value, r)
    ensures loader.None? ==> r == Lookup(c, Failure(NullPointer("")), 0)
  {
    if loader.None? then Lookup(Expunge(c), Failure(NullPointer("")), 0)
    else
      var l := ComputeIfAbsent(c, key, loader.value);
      var r := l.(cache := Expunge(l.cache));
      ComputeIfAbsentThenExpunge(c, key, loader.value);
      r
  }

  /** `get(key)`: through the cache's own loader, or a plain read when it
      has none. */
  function Get<K(!new), V>(c: Cache<K, V>, key: K): (r: Lookup<K, V>)
    requires Valid(c)
    ensures Valid(r.cache)
    ensures c.loader.Some? ==> LoadsThrough(c, key, c.loader.value, r)
    ensures c.loader.None? ==> r.cache == c && r.loads == 0
    ensures c.loader.None? ==> r.value == Success(if key in c.entries then Some(c.entries[key]) else None)
  {
    if c.loader.None? then
      Lookup(Expunge(c), Success(if key in c.entries then Some(c.entries[key]) else None), 0)
    else
      GetWithLoader(c, key, c.loader)
  }

  lemma ComputeIfAbsentThenExpunge<K(!new), V>(c: Cache<K, V>, key: K, loader: Loader<K, V>)
    requires Valid(c)
    ensures var l := ComputeIfAbsent(c, key, loader);
      Valid(Expunge(l.cache)) && LoadsThrough(c, key, loader, l.(cache := Expunge(l.cache)))
  {
    var l := ComputeIfAbsent(c, key, loader);
    if Bounded(c) && key !in c.entries && loader(key).Success? && loader(key).value.Some? {
      var c1 := l.cache;
      assert key !in c.queue;
      if |c.queue| == c.maxSize {
        var c2 := c1.(entries := c1.entries - {c1.queue[0]}, queue := c1.queue[1..]);
        assert c1.queue[1..] == c.queue[1..] + [key];
        assert Evict(c1) == Evict(c2);
        assert c2.entries == (c.entries - {c.queue[0]})[key := loader(key).value.value] by {
          assert c.queue[0] != key;
        }
        assert forall k :: k in c2.entries <==> k in c2.queue by {
          forall k ensures k in c2.entries <==> k in c2.queue {
            if k in c.queue[1..] {
              assert k != c.queue[0] by {
                var j :| 0 <= j < |c.queue[1..]| && c.queue[1..][j] == k;
                assert c.queue[j + 1] == k;
              }
            }
            assert k in c.queue <==> k == c.queue[0] || k in c.queue[1..] by {
              assert c.queue == [c.queue[0]] + c.queue[1..];
            }
          }
        }
        DistinctSuffixAppend(c.queue, key);
      } else {
        DistinctAppend(c.queue, key);
      }
    }
  }

  lemma DistinctAppend<K>(s: seq<K>, x: K)
    requires LinkedSets.Distinct(s) && x !in s
    ensures LinkedSets.Distinct(s + [x])
  {
  }

  lemma DistinctSuffixAppend<K>(s: seq<K>, x: K)
    requires LinkedSets.Distinct(s) && x !in s && |s| > 0
    ensures LinkedSets.Distinct(s[1..] + [x])
  {
    assert forall i :: 0 <= i < |s[1..]| ==> s[1..][i] == s[i + 1];
  }

  /** `JdbiCacheStats`: the number of stored entries and the bound. */
  datatype Stats = Stats(cacheSize: nat, maxSize: int)

  /** `getStats()` */
  function GetStats<K(!new), V>(c: Cache<K, V>): (s: Stats)
    requires Valid(c)
    ensures s.maxSize == c.maxSize
    ensures s.cacheSize == |c.entries.Keys|
    ensures Bounded(c) ==> s.cacheSize == |c.queue| <= c.maxSize
  {
    if Bounded(c) then
      assert c.entries.Keys == set k | k in c.queue;
      DistinctCardinality(c.queue);
      Stats(|c.entries|, c.maxSize)
    else
      Stats(|c.entries|, c.maxSize)
  }

  lemma {:induction false} DistinctCardinality<K>(s: seq<K>)
    requires LinkedSets.Distinct(s)
    ensures |set k | k in s| == |s|
    decreases |s|
  {
    if |s| > 0 {
      var t := s[..|s| - 1];
      assert LinkedSets.Distinct(t);
      DistinctCardinality(t);
      assert s[|s| - 1] !in t;
      assert (set k | k in s) == (set k | k in t) + {s[|s| - 1]} by {
        assert s == t + [s[|s| - 1]];
      }
    }
  }

  /** The outcome of `get` on each key in turn: the final cache and the
      total number of loads. */
  datatype Run<!K(!new), V> = Run(cache: Cache<K, V>, loads: nat)

  function GetAll<K(!new), V>(c: Cache<K, V>, keys: seq<K>): (r: Run<K, V>)
    requires Valid(c)
    ensures Valid(r.cache)
    ensures r.cache.loader == c.loader && r.cache.maxSize == c.maxSize
    decreases |keys|
  {
    if |keys| == 0 then Run(c, 0)
    else
      var g := Get(c, keys[0]);
      var rest := GetAll(g.cache, keys[1..]);
      Run(rest.cache, g.loads + rest.loads)
  }

  /** A loader that always produces a value (as the test loader does). */
  ghost predicate AlwaysLoads<K(!new), V>(loader: Loader<K, V>) {
    forall k :: loader(k).Success? && loader(k).value.Some?
  }

  /** Looking up keys that are all stored loads nothing and changes
      nothing: hits do not refresh their place in the queue. */
  lemma {:induction false} HitsChangeNothing<K(!new), V>(c: Cache<K, V>, keys: seq<K>)
    requires Valid(c)
    requires forall k :: k in keys ==> k in c.entries
    ensures GetAll(c, keys) == Run(c, 0)
    decreases |keys|
  {
    if |keys| > 0 {
      assert keys[0] in keys;
      HitsChangeNothing(c, keys[1..]);
    }
  }

  lemma NewestAppend<K>(a: seq<K>, b: seq<K>, n: nat)
    ensures Newest(Newest(a, n) + b, n) == Newest(a + b, n)
  {
    var x := if |a| <= n then 0 else |a| - n;
    assert Newest(a, n) == a[x..];
    assert a[x..] + b == (a + b)[x..];
  }

  /** Looking up a key the bounded cache has not queued loads it once and
      queues it behind the newest `maxSize - 1` keys. */
  lemma FreshGetQueues<K(!new), V>(c: Cache<K, V>, k: K)
    requires Valid(c) && Bounded(c) && c.loader.Some? && AlwaysLoads(c.loader.value)
    requires k !in c.queue
    ensures Get(c, k).loads == 1
    ensures Get(c, k).cache.queue == Newest(c.queue + [k], c.maxSize)
    ensures Bounded(Get(c, k).cache) && Get(c, k).cache.loader == c.loader
  {
    if |c.queue| == c.maxSize {
      assert (c.queue + [k])[|c.queue| + 1 - c.maxSize..] == c.queue[1..] + [k];
    }
  }

  /** With the queue and the keys still to come all distinct, the head key
      is new to the queue, and once queued the rest stay distinct and lead
      to the same newest keys. */
  lemma FreshHeadStep<K>(q: seq<K>, keys: seq<K>, n: nat)
    requires LinkedSets.Distinct(q + keys) && |keys| > 0
    ensures keys[0] !in q
    ensures LinkedSets.Distinct(Newest(q + [keys[0]], n) + keys[1..])
    ensures Newest(Newest(q + [keys[0]], n) + keys[1..], n) == Newest(q + keys, n)
  {
    var k := keys[0];
    assert k !in q by {
      assert (q + keys)[|q|] == k;
      forall j | 0 <= j < |q| ensures q[j] != k {
        assert (q + keys)[j] == q[j];
      }
    }
    var p := q + [k];
    assert q + keys == p + keys[1..] by {
      assert keys == [k] + keys[1..];
    }
    var d := |p| - |Newest(p, n)|;
    assert Newest(p, n) == p[d..];
    assert Newest(p, n) + keys[1..] == (q + keys)[d..];
    SuffixDistinct(q + keys, d);
    NewestAppend(p, keys[1..], n);
  }

  /** FIFO eviction: with a loader that always produces, looking up keys
      not seen before loads each once, and the bounded cache ends up
      holding exactly the newest `maxSize` keys, oldest first. */
  lemma {:induction false} FifoKeepsNewest<K(!new), V>(c: Cache<K, V>, keys: seq<K>)
    requires Valid(c) && Bounded(c) && c.loader.Some? && AlwaysLoads(c.loader.value)
    requires LinkedSets.Distinct(c.queue + keys)
    ensures GetAll(c, keys).cache.queue == Newest(c.queue + keys, c.maxSize)
    ensures GetAll(c, keys).loads == |keys|
    decreases |keys|
  {
    if |keys| == 0 {
      assert c.queue + keys == c.queue;
    } else {
      FreshHeadStep(c.queue, keys, c.maxSize);
      FreshGetQueues(c, keys[0]);
      FifoKeepsNewest(Get(c, keys[0]).cache, keys[1..]);
    }
  }

  lemma SuffixDistinct<K>(s: seq<K>, d: nat)
    requires LinkedSets.Distinct(s) && d <= |s|
    ensures LinkedSets.Distinct(s[d..])
  {
    assert forall i :: 0 <= i < |s[d..]| ==> s[d..][i] == s[d + i];
  }

  /** The scenario of the FIFO test: a cache bounded to `n`, fed `2n` new
      keys, loads all of them and reports `n` entries; the newest `n` keys
      are then all hits, and the oldest `n` all have to be loaded again. */
  lemma ExpungeScenario<K(!new), V>(n: nat, loader: Loader<K, V>, keys: seq<K>, again: seq<K>)
    requires n > 0 && AlwaysLoads(loader)
    requires |keys| == n + n && LinkedSets.Distinct(keys)
    requires forall k :: k in again ==> k in keys[n..]
    ensures var run := GetAll(BuildWithLoader(NewBuilder().WithMaxSize(n), loader), keys);
      && run.loads == n + n
      && GetStats(run.cache) == Stats(n, n)
      && GetAll(run.cache, again) == Run(run.cache, 0)
      && GetAll(run.cache, keys[..n]).loads == n
  {
    var c := BuildWithLoader(NewBuilder().WithMaxSize(n), loader);
    var run := GetAll(c, keys);
    FirstRoundKeepsNewest(c, keys, n);
    HitsChangeNothing(run.cache, again);
    RotatedDistinct(keys, n);
    FifoKeepsNewest(run.cache, keys[..n]);
  }

  lemma FirstRoundKeepsNewest<K(!new), V>(c: Cache<K, V>, keys: seq<K>, n: nat)
    requires Valid(c) && c.maxSize == n > 0 && c.loader.Some? && AlwaysLoads(c.loader.value)
    requires c.queue == [] && |keys| == n + n && LinkedSets.Distinct(keys)
    ensures GetAll(c, keys).cache.queue == keys[n..]
    ensures GetAll(c, keys).loads == n + n
    ensures GetStats(GetAll(c, keys).cache) == Stats(n, n)
    ensures forall k :: k in keys[n..] ==> k in GetAll(c, keys).cache.entries
  {
    assert c.queue + keys == keys;
    FifoKeepsNewest(c, keys);
    var r := GetAll(c, keys).cache;
    assert Newest(keys, n) == keys[n..];
    assert r.queue == keys[n..];
    var st := GetStats(r);
    assert st.cacheSize == |r.queue| == n;
  }

  lemma RotatedDistinct<K>(keys: seq<K>, n: nat)
    requires |keys| == n + n && LinkedSets.Distinct(keys)
    ensures LinkedSets.Distinct(keys[n..] + keys[..n])
  {
    var s := keys[n..] + keys[..n];
    forall i, j | 0 <= i < j < |s| ensures s[i] != s[j] {
      var a := if i < n then i + n else i - n;
      var b := if j < n then j + n else j - n;
      assert s[i] == keys[a] && s[j] == keys[b];
    }
  }
}

=== FILE: jdbi_collectors.dfy ===
/** JdbiCollectors: collector factories in priority order and a memo of the
    factory chosen per container type. `register` prepends and empties the
    memo; the chosen factory is the first that accepts the type. What a
    factory accepts, builds and reports as element type is code outside the
    model and comes in as `Behaviour`. */
module JdbiCollectors {
  import opened Wrappers
  import opened Search
  import JdbiConfigList
  import JdbiConfigMap

  datatype Factory<T> =
    | MapCollectorFactory | OptionalCollectorFactory | ListCollectorFactory
    | SetCollectorFactory | OptionalPrimitiveCollectorFactory
    | ArrayCollectorFactory | EnumSetCollectorFactory
      /** `CollectorFactory.collectorFactory(containerType, collector)` */
    | SingleCollectorFactory(containerType: T, collector: nat)
    | UserFactory(id: nat)

  /** `accepts`, `build` (null is `None`) and `elementType`. */
  datatype Behaviour<!T, Col> = Behaviour(
    accepts: (Factory<T>, T) -> bool,
    build: (Factory<T>, T) -> Option<Col>,
    elementType: (Factory<T>, T) -> Option<T>)

  datatype Registry<!T(!new)> = Registry(
    factories: JdbiConfigList.ConfigList<Factory<T>>,
    factoryCache: JdbiConfigMap.ConfigMap<T, Option<Factory<T>>>)

  /** `register(factory)` */
  function Register<T(!new)>(r: Registry<T>, f: Factory<T>): (r': Registry<T>)
    ensures r'.factories.items == [f] + r.factories.items
    ensures r'.factoryCache.entries == map[]
  {
    Registry(r.factories.AddFirst([f]), r.factoryCache.Clear())
  }

  /** `registerCollector(containerType, collector)` */
  function RegisterCollector<T(!new)>(r: Registry<T>, containerType: T, collector: nat): (r': Registry<T>)
    ensures r'.factories.items == [SingleCollectorFactory(containerType, collector)] + r.factories.items
    ensures r'.factoryCache.entries == map[]
  {
    Register(r, SingleCollectorFactory(containerType, collector))
  }

  /** Registers the factories from the last to the first, so that the
      first one ends up with the highest priority. */
  function RegisterEach<T(!new)>(r: Registry<T>, fs: seq<Factory<T>>): (r': Registry<T>)
    ensures r'.factories.items == fs + r.factories.items
    ensures |fs| > 0 ==> r'.factoryCache.entries == map[]
  {
    if |fs| == 0 then r
    else
      var r' := Register(RegisterEach(r, fs[1..]), fs[0]);
      assert [fs[0]] + (fs[1..] + r.factories.items) == fs + r.factories.items;
      r'
  }

  /** `new JdbiCollectors()`: registers the map factory first and the
      `EnumSet` factory last, so the latter is asked first. */
  function New<T(!new)>(): Registry<T> {
    var empty := Registry(JdbiConfigList.Create(), JdbiConfigMap.Create());
    RegisterEach(empty, [
      EnumSetCollectorFactory, ArrayCollectorFactory, OptionalPrimitiveCollectorFactory,
      SetCollectorFactory, ListCollectorFactory, OptionalCollectorFactory, MapCollectorFactory])
  }

  /** The constructor registers seven factories, the last registered first,
      and leaves the memo empty. */
  lemma NewRegistersDefaults<T(!new)>()
    ensures New<T>().factories.items == [
      EnumSetCollectorFactory, ArrayCollectorFactory, OptionalPrimitiveCollectorFactory,
      SetCollectorFactory, ListCollectorFactory, OptionalCollectorFactory, MapCollectorFactory]
    ensures New<T>().factoryCache.entries == map[]
  {
    var empty: Registry<T> := Registry(JdbiConfigList.Create(), JdbiConfigMap.Create());
    assert empty.factories.items == [];
  }

  /** `createCopy()`: shares both persistent fields. */
  function CreateCopy<T(!new)>(r: Registry<T>): (c: Registry<T>)
    ensures c.factories == r.factories && c.factoryCache == r.factoryCache
  {
    Registry(r.factories, r.factoryCache)
  }

  /** The unmemoized choice: the first accepting factory. */
  function Choose<T, Col>(factories: seq<Factory<T>>, b: Behaviour<T, Col>, t: T): Option<Factory<T>> {
    FindFirst(factories, f => b.accepts(f, t))
  }

  ghost predicate Coherent<T(!new), Col>(r: Registry<T>, b: Behaviour<T, Col>) {
    && JdbiConfigMap.NoNulls(r.factoryCache)
    && forall t :: r.factoryCache.HasKey(t) ==> r.factoryCache.GetElement(t) == Some(Choose(r.factories.items, b, t))
  }

  lemma EmptyMemoIsCoherent<T(!new), Col>(r: Registry<T>, b: Behaviour<T, Col>)
    requires r.factoryCache.entries == map[]
    ensures Coherent(r, b)
  {
  }

  datatype Chosen<!T(!new), R> = Chosen(registry: Registry<T>, result: Option<R>)

  /** `findFactoryFor(containerType)` */
  function FindFactoryFor<T(!new), Col>(r: Registry<T>, b: Behaviour<T, Col>, t: T): (c: Chosen<T, Factory<T>>)
    ensures c.registry.factories == r.factories && c.registry.factoryCache.HasKey(t)
    ensures r.factoryCache.HasKey(t) ==> c.registry == r
    ensures !r.factoryCache.HasKey(t) ==> c.result == Choose(r.factories.items, b, t)
    ensures Coherent(r, b) ==> Coherent(c.registry, b) && c.result == Choose(r.factories.items, b, t)
  {
    if r.factoryCache.HasKey(t) then
      Chosen(r, match r.factoryCache.GetElement(t) case Some(f) => f case None => None)
    else
      var f := Choose(r.factories.items, b, t);
      Chosen(r.(factoryCache := r.factoryCache.PutElement(t, Some(f))), f)
  }

  /** `findFor(containerType)`: the chosen factory's collector. */
  function FindFor<T(!new), Col>(r: Registry<T>, b: Behaviour<T, Col>, t: T): (c: Chosen<T, Col>)
    ensures c.registry == FindFactoryFor(r, b, t).registry
    ensures Coherent(r, b) ==>
      (c.result.None? <==> (forall f :: f in r.factories.items ==> !b.accepts(f, t))
                           || b.build(Choose(r.factories.items, b, t).value, t).None?)
    ensures Coherent(r, b) && c.result.Some? ==> c.result == b.build(Choose(r.factories.items, b, t).value, t)
    ensures Coherent(r, b) ==> Coherent(c.registry, b)
  {
    var chosen := FindFactoryFor(r, b, t);
    Chosen(chosen.registry, match chosen.result case Some(f) => b.build(f, t) case None => None)
  }

  /** `findElementTypeFor(containerType)`: the chosen factory's element
      type. */
  function FindElementTypeFor<T(!new), Col>(r: Registry<T>, b: Behaviour<T, Col>, t: T): (c: Chosen<T, T>)
    ensures c.registry == FindFactoryFor(r, b, t).registry
    ensures Coherent(r, b) ==>
      (c.result.None? <==> (forall f :: f in r.factories.items ==> !b.accepts(f, t))
                           || b.elementType(Choose(r.factories.items, b, t).value, t).None?)
    ensures Coherent(r, b) && c.result.Some? ==> c.result == b.elementType(Choose(r.factories.items, b, t).value, t)
    ensures Coherent(r, b) ==> Coherent(c.registry, b)
  {
    var chosen := FindFactoryFor(r, b, t);
    Chosen(chosen.registry, match chosen.result case Some(f) => b.elementType(f, t) case None => None)
  }

  /** The choice is memoized per container type, an empty one included: a
      repeated lookup changes nothing and agrees with the first. */
  lemma RepeatedFindFactoryForIsMemoized<T(!new), Col>(r: Registry<T>, b: Behaviour<T, Col>, t: T)
    requires Coherent(r, b)
    ensures var c1 := FindFactoryFor(r, b, t);
      FindFactoryFor(c1.registry, b, t) == c1
  {
  }

  /** The newest accepting registration is the chosen factory. */
  lemma RegisterTakesPriority<T(!new), Col>(r: Registry<T>, b: Behaviour<T, Col>, f: Factory<T>, t: T)
    ensures b.accepts(f, t) ==> FindFactoryFor(Register(r, f), b, t).result == Some(f)
    ensures !b.accepts(f, t) ==> FindFactoryFor(Register(r, f), b, t).result == Choose(r.factories.items, b, t)
  {
    FindFirstAppend([f], r.factories.items, g => b.accepts(g, t));
    if b.accepts(f, t) {
      FindFirstIsEarliest([f], g => b.accepts(g, t), 0);
    }
  }

  /** Right after a factory that accepts the container type is registered,
      the collector and the element type both come from that factory,
      whatever was registered or memoized before. */
  lemma RegisterThenFind<T(!new), Col>(r: Registry<T>, b: Behaviour<T, Col>, f: Factory<T>, t: T)
    requires b.accepts(f, t)
    ensures FindFor(Register(r, f), b, t).result == b.build(f, t)
    ensures FindElementTypeFor(Register(r, f), b, t).result == b.elementType(f, t)
  {
    RegisterTakesPriority(r, b, f, t);
  }
}

=== FILE: lang.dfy ===
/** The Java runtime values the model passes around: object references and
    boxed results, the exceptions the modelled code throws or lets through,
    and the two JDK formatting routines it relies on. */
module Lang {

  /** A Java reference (`Ref`), null, or a boxed/string result. */
  datatype Value = Null | Ref(id: nat) | Bool(b: bool) | Int(i: int) | Str(s: string)

  /** Exceptions, identified by their Java class; JDK exceptions carry the
      data their message is formatted from. */
  datatype Exception =
    | IllegalState(message: string)
    | IllegalArgument(message: string)
    | UnsupportedOperation
    | NullPointer(message: string)
    | IndexOutOfBounds(index: int, length: int)
    | UnableToCreateExtension(message: string)
    | UnableToCreateStatement(message: string, cause: Exception)
      /** an exception raised by code outside the model, passed through */
    | Thrown(id: nat)

  const MinInt: int := -0x8000_0000
  const MaxInt: int := 0x7fff_ffff

  /** Java's 32-bit `int` range. */
  predicate IsInt32(i: int) {
    MinInt <= i <= MaxInt
  }

  /** A Java `int`. */
  type Int32 = i: int | IsInt32(i)

  /** Java `int` addition: two's-complement wrap-around. */
  function AddInt32(a: int, b: int): (r: int)
    requires IsInt32(a) && IsInt32(b)
    ensures IsInt32(r)
    ensures IsInt32(a + b) ==> r == a + b
    ensures !IsInt32(a + b) ==> (r == a + b - 0x1_0000_0000 || r == a + b + 0x1_0000_0000)
  {
    var s := a + b;
    if s > MaxInt then s - 0x1_0000_0000
    else if s < MinInt then s + 0x1_0000_0000
    else s
  }

  const HexAlphabet: string := "0123456789abcdef"

  function HexDigit(d: nat): char
    requires d < 16
  {
    HexAlphabet[d]
  }

  /** Lower-case hexadecimal digits of `n`, without leading zeros. */
  function HexDigits(n: nat): (s: string)
    ensures |s| >= 1
    ensures forall k :: 0 <= k < |s| ==> s[k] in HexAlphabet
    ensures n > 0 ==> s[0] != '0'
    decreases n
  {
    if n < 16 then [HexDigit(n)] else HexDigits(n / 16) + [HexDigit(n % 16)]
  }

  /** `Integer.toHexString(i)`: the unsigned 32-bit value of `i` in base 16. */
  function ToHexString(i: int): string
    requires IsInt32(i)
  {
    HexDigits(i % 0x1_0000_0000)
  }

  function HexValue(c: char): nat
    requires c in HexAlphabet
  {
    if '0' <= c <= '9' then (c - '0') as nat else (c - 'a') as nat + 10
  }

  /** Reads a string of lower-case hexadecimal digits back. */
  function ParseHex(s: string): nat
    requires forall k :: 0 <= k < |s| ==> s[k] in HexAlphabet
    decreases |s|
  {
    if |s| == 0 then 0 else 16 * ParseHex(s[..|s| - 1]) + HexValue(s[|s| - 1])
  }

  lemma HexValueOfDigit(d: nat)
    requires d < 16
    ensures HexValue(HexDigit(d)) == d
  {
  }

  /** The digits `HexDigits` writes read back as the number they came from. */
  lemma {:induction false} HexDigitsRoundTrip(n: nat)
    ensures ParseHex(HexDigits(n)) == n
    decreases n
  {
    var s := HexDigits(n);
    if n < 16 {
      HexValueOfDigit(n);
      assert s[..0] == [];
    } else {
      HexDigitsRoundTrip(n / 16);
      HexValueOfDigit(n % 16);
      assert s[..|s| - 1] == HexDigits(n / 16);
    }
  }

  /** `Integer.toHexString` loses nothing of a 32-bit value: parsing it back
      gives the value's unsigned reading. */
  lemma ToHexStringRoundTrip(i: int)
    requires IsInt32(i)
    ensures ParseHex(ToHexString(i)) == i % 0x1_0000_0000
    ensures 0 <= i ==> ParseHex(ToHexString(i)) == i
  {
    var u: nat := i % 0x1_0000_0000;
    HexDigitsRoundTrip(u);
    if 0 <= i {
      SmallModIsIdentity(i, 0x1_0000_0000);
    }
  }

  lemma SmallModIsIdentity(i: int, m: int)
    requires 0 <= i < m
    ensures i % m == i
  {
  }
}

=== FILE: linked_sets.dfy ===
/** Java's LinkedHashSet as a sequence without repetitions: iteration order
    is insertion order, and adding an element that is already present
    changes nothing. */
module LinkedSets {

  ghost predicate Distinct<T>(s: seq<T>) {
    forall i, j :: 0 <= i < j < |s| ==> s[i] != s[j]
  }

  /** `set.add(x)` */
  function Add<T(==,!new)>(s: seq<T>, x: T): (r: seq<T>)
    requires Distinct(s)
    ensures Distinct(r)
    ensures forall y :: y in r <==> y in s || y == x
    ensures |s| <= |r| <= |s| + 1 && r[..|s|] == s
    ensures x in s ==> r == s
    ensures x !in s ==> |r| == |s| + 1 && r[|s|] == x
  {
    if x in s then s else s + [x]
  }

  /** `set.addAll(xs)`: each element of `xs` in turn. */
  function AddAll<T(==,!new)>(s: seq<T>, xs: seq<T>): (r: seq<T>)
    requires Distinct(s)
    ensures Distinct(r)
    ensures forall y :: y in r <==> y in s || y in xs
    ensures |s| <= |r| && r[..|s|] == s
    decreases |xs|
  {
    if |xs| == 0 then s
    else
      var s1 := Add(s, xs[0]);
      var r := AddAll(s1, xs[1..]);
      assert forall y :: y in xs <==> y == xs[0] || y in xs[1..];
      assert r[..|s|] == r[..|s1|][..|s|];
      r
  }

  /** Adding the same elements twice adds nothing the second time. */
  lemma {:induction false} AddAllIdempotent<T(!new)>(s: seq<T>, xs: seq<T>)
    requires Distinct(s)
    requires forall x :: x in xs ==> x in s
    ensures AddAll(s, xs) == s
    decreases |xs|
  {
    if |xs| > 0 {
      assert xs[0] in xs;
      forall x | x in xs[1..] ensures x in s {
        assert x in xs;
      }
      AddAllIdempotent(s, xs[1..]);
    }
  }

  /** `addAll` of a list is `add` of its head, then `addAll` of the rest. */
  lemma AddAllCons<T(!new)>(s: seq<T>, x: T, xs: seq<T>)
    requires Distinct(s)
    ensures AddAll(s, [x] + xs) == AddAll(Add(s, x), xs)
  {
    assert ([x] + xs)[0] == x && ([x] + xs)[1..] == xs;
  }
}

=== FILE: pojo_types.dfy ===
/** PojoTypes: POJO property factories keyed by erased class. Erasure and
    what a factory creates are code outside the model and come in as
    functions. */
module PojoTypes {
  import opened Wrappers
  import JdbiConfigMap

  datatype Registry<!C(!new), F> = Registry(factories: JdbiConfigMap.ConfigMap<C, F>)

  /** `new PojoTypes()` */
  function New<C(!new), F>(): Registry<C, F> {
    Registry(JdbiConfigMap.Create())
  }

  /** A new registry binds no key. */
  lemma NewIsEmpty<C(!new), F>(key: C)
    ensures New<C, F>().factories.GetElement(key).None?
  {
  }

  /** `register(key, factory)`: binds the key, replacing an earlier
      binding; a null factory changes nothing. */
  function Register<C(!new), F>(r: Registry<C, F>, key: C, factory: Option<F>): (r': Registry<C, F>)
    ensures factory.None? ==> r' == r
    ensures factory.Some? ==> r'.factories.GetElement(key) == factory
    ensures forall k :: k != key ==> r'.factories.GetElement(k) == r.factories.GetElement(k)
  {
    Registry(r.factories.PutElement(key, factory))
  }

  /** `createCopy()`: shares the map. */
  function CreateCopy<C(!new), F>(r: Registry<C, F>): (c: Registry<C, F>)
    ensures c.factories == r.factories
  {
    Registry(r.factories)
  }

  /** `findFor(type)`: the factory registered for the erased class creates
      the properties; a factory that creates null (`None`) gives an empty
      result, as `Optional.map` does. */
  function FindFor<T, C(!new), F, P>(r: Registry<C, F>, erase: T -> C, create: (F, T) -> Option<P>, t: T): (p: Option<P>)
    ensures p.Some? <==> r.factories.GetElement(erase(t)).Some? && create(r.factories.GetElement(erase(t)).value, t).Some?
    ensures p.Some? ==> p == create(r.factories.GetElement(erase(t)).value, t)
  {
    match r.factories.GetElement(erase(t))
    case Some(f) => create(f, t)
    case None => None
  }

  /** A new registry finds nothing; after `register(k, f)` with a non-null
      `f`, every type erasing to `k` gets what `f` creates for it, empty
      when that is null, and every other type is served as before. */
  lemma FindForAfterRegister<T, C(!new), F, P>(r: Registry<C, F>, key: C, f: F, erase: T -> C, create: (F, T) -> Option<P>, t: T)
    ensures FindFor(New<C, F>(), erase, create, t).None?
    ensures erase(t) == key ==> FindFor(Register(r, key, Some(f)), erase, create, t) == create(f, t)
    ensures erase(t) != key ==> FindFor(Register(r, key, Some(f)), erase, create, t) == FindFor(r, erase, create, t)
  {
  }
}

=== FILE: reflect.dfy ===
/** Java reflection as plain data: classes are records, a method is a
    record of what the extension core reads from it, and the lookups the core
    performs on a class (`getMethods`, `getDeclaredMethods`,
    `isAssignableFrom`) are given by a `ClassWorld`. */
module Reflect {
  import opened Wrappers
  import opened Search

  datatype JClass = JClass(id: nat, name: string, simpleName: string)

  const ObjectClass: JClass := JClass(0, "java.lang.Object", "Object")

  /** A `java.lang.reflect.Method`. Two methods are equal when all of these
      agree, as `Method.equals` compares declaring class, name, parameter
      types and return type. */
  datatype Method = Method(
    declaringClass: JClass,
    name: string,
    params: seq<JClass>,
    returnType: JClass,
    isStatic: bool,
    isSynthetic: bool,
    isBridge: bool)

  /** The reflective view of the classes: public member methods (inherited
      ones included), declared methods, and assignability between classes. */
  datatype ClassWorld = ClassWorld(
    methods: JClass -> seq<Method>,
    declaredMethods: JClass -> seq<Method>,
    isAssignableFrom: (JClass, JClass) -> bool)

  /** A lookup of the public method with the given name and parameter types,
      absent when there is none. */
  function SafeMethodLookup(w: ClassWorld, c: JClass, name: string, params: seq<JClass>): (r: Option<Method>)
    ensures r.Some? <==> exists m :: m in w.methods(c) && m.name == name && m.params == params
    ensures r.Some? ==> r.value in w.methods(c) && r.value.name == name && r.value.params == params
  {
    var r := FindFirst(w.methods(c), (m: Method) => m.name == name && m.params == params);
    if r.None? then
      assert forall m :: m in w.methods(c) ==> !(m.name == name && m.params == params);
      r
    else r
  }
}

=== FILE: reflection_mappers.dfy ===
/** ReflectionMappers: the column name matchers, strict matching and
    attribute accessibility settings used by reflective row mappers. */
module ReflectionMappers {
  import opened Wrappers

  datatype ColumnNameMatcher = CaseInsensitiveColumnNameMatcher | SnakeCaseColumnNameMatcher | UserMatcher(id: nat)

  datatype Config = Config(columnNameMatchers: seq<ColumnNameMatcher>, strictMatching: bool, makeAttributesAccessible: bool)

  /** `new ReflectionMappers()` */
  function New(): (c: Config)
    ensures c.columnNameMatchers == [CaseInsensitiveColumnNameMatcher, SnakeCaseColumnNameMatcher]
    ensures !c.strictMatching && c.makeAttributesAccessible
  {
    Config([CaseInsensitiveColumnNameMatcher, SnakeCaseColumnNameMatcher], false, true)
  }

  /** `getColumnNameMatchers()` */
  function GetColumnNameMatchers(c: Config): (ms: seq<ColumnNameMatcher>)
    ensures ms == c.columnNameMatchers
  {
    c.columnNameMatchers
  }

  /** `setColumnNameMatchers(ms)`: stores a copy of the list; the flags are
      untouched. */
  function SetColumnNameMatchers(c: Config, ms: seq<ColumnNameMatcher>): (c': Config)
    ensures GetColumnNameMatchers(c') == ms
    ensures IsStrictMatching(c') == IsStrictMatching(c) && IsMakeAttributesAccessible(c') == IsMakeAttributesAccessible(c)
  {
    c.(columnNameMatchers := ms)
  }

  /** `isStrictMatching()` */
  function IsStrictMatching(c: Config): bool {
    c.strictMatching
  }

  /** `setStrictMatching(b)` */
  function SetStrictMatching(c: Config, b: bool): (c': Config)
    ensures IsStrictMatching(c') == b
    ensures GetColumnNameMatchers(c') == GetColumnNameMatchers(c) && IsMakeAttributesAccessible(c') == IsMakeAttributesAccessible(c)
  {
    c.(strictMatching := b)
  }

  /** `isMakeAttributesAccessible()` */
  function IsMakeAttributesAccessible(c: Config): bool {
    c.makeAttributesAccessible
  }

  /** `setMakeAttributesAccessible(b)` */
  function SetMakeAttributesAccessible(c: Config, b: bool): (c': Config)
    ensures IsMakeAttributesAccessible(c') == b
    ensures GetColumnNameMatchers(c') == GetColumnNameMatchers(c) && IsStrictMatching(c') == IsStrictMatching(c)
  {
    c.(makeAttributesAccessible := b)
  }

  /** `createCopy()`: both flags and a copy of the matcher list. */
  function CreateCopy(c: Config): (c': Config)
    ensures c'.columnNameMatchers == c.columnNameMatchers
    ensures c'.strictMatching == c.strictMatching && c'.makeAttributesAccessible == c.makeAttributesAccessible
  {
    Config(c.columnNameMatchers, c.strictMatching, c.makeAttributesAccessible)
  }

  /** One setter call. */
  datatype Setting = MatchersTo(ms: seq<ColumnNameMatcher>) | StrictTo(strict: bool) | AccessibleTo(accessible: bool)

  function ApplySetting(c: Config, call: Setting): Config {
    match call
    case MatchersTo(ms) => SetColumnNameMatchers(c, ms)
    case StrictTo(b) => SetStrictMatching(c, b)
    case AccessibleTo(b) => SetMakeAttributesAccessible(c, b)
  }

  /** The setters called in order. */
  function ApplySettings(c: Config, calls: seq<Setting>): Config
    decreases |calls|
  {
    if |calls| == 0 then c else ApplySettings(ApplySetting(c, calls[0]), calls[1..])
  }

  /** What the last call that `pick` answers for set, or `dflt` when no
      call does. */
  function LastOf<X>(calls: seq<Setting>, pick: Setting -> Option<X>, dflt: X): X
    decreases |calls|
  {
    if |calls| == 0 then dflt
    else if pick(calls[|calls| - 1]).Some? then pick(calls[|calls| - 1]).value
    else LastOf(calls[..|calls| - 1], pick, dflt)
  }

  function PickMatchers(call: Setting): Option<seq<ColumnNameMatcher>> {
    if call.MatchersTo? then Some(call.ms) else None
  }

  function PickStrict(call: Setting): Option<bool> {
    if call.StrictTo? then Some(call.strict) else None
  }

  function PickAccessible(call: Setting): Option<bool> {
    if call.AccessibleTo? then Some(call.accessible) else None
  }

  /** The last setting of a run is the last setting of its tail, starting
      from what its first call set. */
  lemma {:induction false} LastOfCons<X>(calls: seq<Setting>, pick: Setting -> Option<X>, dflt: X)
    requires |calls| > 0
    ensures LastOf(calls, pick, dflt) ==
      LastOf(calls[1..], pick, if pick(calls[0]).Some? then pick(calls[0]).value else dflt)
    decreases |calls|
  {
    if |calls| > 1 && pick(calls[|calls| - 1]).None? {
      var init := calls[..|calls| - 1];
      assert init[1..] == calls[1..][..|calls| - 2];
      LastOfCons(init, pick, dflt);
    }
  }

  /** What the getters read after a run of setters: the last value given
      to each setter, or the starting value for a setting never set; a
      copy reads the same. */
  lemma {:induction false} GettersAfterSetters(c: Config, calls: seq<Setting>)
    ensures GetColumnNameMatchers(ApplySettings(c, calls)) == LastOf(calls, PickMatchers, GetColumnNameMatchers(c))
    ensures IsStrictMatching(ApplySettings(c, calls)) == LastOf(calls, PickStrict, IsStrictMatching(c))
    ensures IsMakeAttributesAccessible(ApplySettings(c, calls)) == LastOf(calls, PickAccessible, IsMakeAttributesAccessible(c))
    ensures CreateCopy(ApplySettings(c, calls)) == ApplySettings(c, calls)
    decreases |calls|
  {
    if |calls| > 0 {
      GettersAfterSetters(ApplySetting(c, calls[0]), calls[1..]);
      LastOfCons(calls, PickMatchers, GetColumnNameMatchers(c));
      LastOfCons(calls, PickStrict, IsStrictMatching(c));
      LastOfCons(calls, PickAccessible, IsMakeAttributesAccessible(c));
    }
  }
}

=== FILE: row_mappers.dfy ===
/** RowMappers: row mapper factories in priority order and a memo of lookups
    per type. `register` prepends and empties the memo; `findFor` answers
    from the memo, or asks the factories in order, stops at the first that
    builds a mapper, initialises that one mapper and remembers the answer,
    an empty one included. What a factory builds is code outside the model
    and comes in as `build`. */
module RowMappers {
  import opened Wrappers
  import opened Search
  import JdbiConfigList

  datatype Factory = MapEntryMapperFactory | PojoMapperFactory | UserFactory(id: nat)

  /** `factory.build(type, registry)` */
  type Build<!T, M> = (Factory, T) -> Option<M>

  /** The memo is a plain mutable map in the source; a copy gets its own
      map seeded with the current entries. */
  datatype Registry<!T(!new), M> = Registry(factories: JdbiConfigList.ConfigList<Factory>, cache: map<T, Option<M>>)

  /** The unmemoized answer: the first factory's present result. */
  function Lookup<T, M>(factories: seq<Factory>, build: Build<T, M>, t: T): Option<M> {
    FirstSome(factories, f => build(f, t))
  }

  /** Every memoized answer is the one the current factories give. */
  ghost predicate Coherent<T(!new), M>(r: Registry<T, M>, build: Build<T, M>) {
    forall t :: t in r.cache ==> r.cache[t] == Lookup(r.factories.items, build, t)
  }

  /** `register(factory)` */
  function Register<T(!new), M>(r: Registry<T, M>, f: Factory): (r': Registry<T, M>)
    ensures r'.factories.items == [f] + r.factories.items
    ensures r'.cache == map[]
  {
    Registry(r.factories.AddFirst([f]), map[])
  }

  /** `new RowMappers()`: the POJO factory ends up ahead of the map-entry
      one. */
  function New<T(!new), M>(): Registry<T, M> {
    var empty := Registry(JdbiConfigList.Create(), map[]);
    Register(Register(empty, MapEntryMapperFactory), PojoMapperFactory)
  }

  lemma NewRegistersDefaults<T(!new), M>()
    ensures New<T, M>().factories.items == [PojoMapperFactory, MapEntryMapperFactory]
    ensures New<T, M>().cache == map[]
  {
    var empty: Registry<T, M> := Registry(JdbiConfigList.Create(), map[]);
    assert empty.factories.items == [];
  }

  /** `createCopy()`: the same factories and a memo with the same entries. */
  function CreateCopy<T(!new), M>(r: Registry<T, M>): (c: Registry<T, M>)
    ensures c.factories == r.factories
    ensures forall t :: t in c.cache <==> t in r.cache
    ensures forall t :: t in c.cache ==> c.cache[t] == r.cache[t]
  {
    Registry(r.factories, map t | t in r.cache :: r.cache[t])
  }

  /** `findFor(type)`: the loop over the factories, returning the registry
      afterwards, the mapper, the mappers initialised and how many factories
      were asked. */
  method FindFor<T(!new), M>(r: Registry<T, M>, build: Build<T, M>, t: T)
    returns (r': Registry<T, M>, mapper: Option<M>, initialized: seq<M>, consulted: nat)
    ensures r'.factories == r.factories && t in r'.cache && r'.cache[t] == mapper
    ensures forall u :: u != t ==> (u in r'.cache <==> u in r.cache)
    ensures forall u :: u != t && u in r.cache ==> r'.cache[u] == r.cache[u]
    ensures t in r.cache ==> r' == r && mapper == r.cache[t] && initialized == [] && consulted == 0
    ensures t !in r.cache ==> mapper == Lookup(r.factories.items, build, t)
    ensures t !in r.cache ==> initialized == if mapper.Some? then [mapper.value] else []
    ensures t !in r.cache ==> consulted <= |r.factories.items|
    ensures t !in r.cache && mapper.Some? ==> consulted > 0 && build(r.factories.items[consulted - 1], t) == mapper
    ensures t !in r.cache && mapper.None? ==> consulted == |r.factories.items|
    ensures t !in r.cache ==> forall j :: 0 <= j < consulted - 1 ==> build(r.factories.items[j], t).None?
    ensures Coherent(r, build) ==> Coherent(r', build) && mapper == Lookup(r.factories.items, build, t)
  {
    if t in r.cache {
      return r, r.cache[t], [], 0;
    }
    var fs := r.factories.items;
    mapper := None;
    initialized := [];
    consulted := 0;
    while consulted < |fs|
      invariant consulted <= |fs|
      invariant mapper.None? && initialized == []
      invariant forall j :: 0 <= j < consulted ==> build(fs[j], t).None?
    {
      mapper := build(fs[consulted], t);
      consulted := consulted + 1;
      if mapper.Some? {
        initialized := [mapper.value];
        FirstSomeIsEarliest(fs, f => build(f, t), consulted - 1);
        break;
      }
    }
    r' := r.(cache := r.cache[t := mapper]);
  }

  /** The constructor's order gives the POJO factory the first word: the
      map-entry factory only answers for types the POJO factory builds
      nothing for. */
  lemma PojoMapperFactoryFirst<T(!new), M>(build: Build<T, M>, t: T)
    ensures Lookup(New<T, M>().factories.items, build, t) ==
      if build(PojoMapperFactory, t).Some? then build(PojoMapperFactory, t) else build(MapEntryMapperFactory, t)
  {
    var fs := New<T, M>().factories.items;
    FirstSomeAppend([PojoMapperFactory], [MapEntryMapperFactory], f => build(f, t));
    FirstSomeAppend([MapEntryMapperFactory], [], f => build(f, t));
    assert fs == [PojoMapperFactory] + [MapEntryMapperFactory];
    assert [MapEntryMapperFactory] + [] == [MapEntryMapperFactory];
  }

  /** The newest registration wins over every older factory. */
  lemma RegisterTakesPriority<T(!new), M>(r: Registry<T, M>, build: Build<T, M>, f: Factory, t: T)
    ensures build(f, t).Some? ==> Lookup(Register(r, f).factories.items, build, t) == build(f, t)
    ensures build(f, t).None? ==> Lookup(Register(r, f).factories.items, build, t) == Lookup(r.factories.items, build, t)
  {
    FirstSomeAppend([f], r.factories.items, g => build(g, t));
  }

  /** A copy's memo is its own: emptying it by a registration on the copy
      leaves the original's memo and factories as they were. */
  lemma CopyHasOwnMemo<T(!new), M>(r: Registry<T, M>, f: Factory)
    ensures CreateCopy(r).cache == r.cache
    ensures Register(CreateCopy(r), f).cache == map[]
    ensures Register(CreateCopy(r), f).factories.items[1..] == r.factories.items
  {
    assert Register(CreateCopy(r), f).factories.items == [f] + r.factories.items;
  }
}

=== FILE: search.dfy ===
/** First-match searches and left folds over sequences: the shapes of Java's
    `for (...) { if (...) { result = ...; break; } }`, of
    `stream().filter(p).findFirst()`, of
    `stream().flatMap(optional).findFirst()` and of a loop that rewrites an
    accumulator once per element. */
module Search {
  import opened Wrappers

  /** Index of the first element of `s` satisfying `p`. */
  function FirstIndex<T>(s: seq<T>, p: T -> bool): (r: Option<nat>)
    ensures r.Some? ==> r.value < |s| && p(s[r.value])
    ensures r.Some? ==> forall j :: 0 <= j < r.value ==> !p(s[j])
    ensures r.None? <==> forall j :: 0 <= j < |s| ==> !p(s[j])
  {
    if |s| == 0 then None
    else if p(s[0]) then Some(0)
    else
      match FirstIndex(s[1..], p)
      case None => None
      case Some(i) => Some(i + 1)
  }

  /** `stream().filter(p).findFirst()`: the first element satisfying `p`. */
  function FindFirst<T>(s: seq<T>, p: T -> bool): (r: Option<T>)
    ensures r.None? <==> forall j :: 0 <= j < |s| ==> !p(s[j])
    ensures r.Some? ==> r.value in s && p(r.value)
    ensures r.Some? ==> exists i :: 0 <= i < |s| && s[i] == r.value && forall j :: 0 <= j < i ==> !p(s[j])
  {
    match FirstIndex(s, p)
    case None => None
    case Some(i) => Some(s[i])
  }

  /** `stream().flatMap(x -> optional(f(x))).findFirst()`: the first present
      result of `f`, which is evaluated only up to that element. */
  function FirstSome<T, U>(s: seq<T>, f: T -> Option<U>): (r: Option<U>)
    ensures r.None? <==> forall j :: 0 <= j < |s| ==> f(s[j]).None?
    ensures r.Some? ==> exists i :: 0 <= i < |s| && f(s[i]) == r && forall j :: 0 <= j < i ==> f(s[j]).None?
  {
    match FirstIndex(s, x => f(x).Some?)
    case None => None
    case Some(i) =>
      assert forall j :: 0 <= j < i ==> f(s[j]).None? by {
        forall j | 0 <= j < i ensures f(s[j]).None? {
          assert !(x => f(x).Some?)(s[j]);
        }
      }
      f(s[i])
  }

  /** `FirstSome` returns the result of the earliest element with a present
      result, and every element before it has none. */
  lemma FirstSomeIsEarliest<T, U>(s: seq<T>, f: T -> Option<U>, i: nat)
    requires i < |s| && f(s[i]).Some?
    requires forall j :: 0 <= j < i ==> f(s[j]).None?
    ensures FirstSome(s, f) == f(s[i])
  {
    var k := FirstIndex(s, x => f(x).Some?);
    assert (x => f(x).Some?)(s[i]);
    assert k.Some? && k.value == i;
  }

  /** The same for `FindFirst`. */
  lemma FindFirstIsEarliest<T>(s: seq<T>, p: T -> bool, i: nat)
    requires i < |s| && p(s[i])
    requires forall j :: 0 <= j < i ==> !p(s[j])
    ensures FindFirst(s, p) == Some(s[i])
  {
    var k := FirstIndex(s, p);
    assert k.Some? && k.value == i;
  }

  /** Searching a concatenation searches the front block first and only
      falls through to the back block when the front has no match: this is
      what makes a prepended registration take priority. */
  lemma {:induction false} FirstSomeAppend<T, U>(a: seq<T>, b: seq<T>, f: T -> Option<U>)
    ensures FirstSome(a + b, f) == if FirstSome(a, f).Some? then FirstSome(a, f) else FirstSome(b, f)
  {
    if |a| == 0 {
      assert a + b == b;
    } else if f(a[0]).Some? {
      FirstSomeIsEarliest(a + b, f, 0);
      FirstSomeIsEarliest(a, f, 0);
    } else {
      assert (a + b)[1..] == a[1..] + b;
      FirstSomeAppend(a[1..], b, f);
      FirstSomeCons(a[0], a[1..], f);
      FirstSomeCons(a[0], a[1..] + b, f);
      assert [a[0]] + a[1..] == a;
      assert [a[0]] + (a[1..] + b) == a + b;
    }
  }

  /** An element without a result is skipped. */
  lemma FirstSomeCons<T, U>(x: T, s: seq<T>, f: T -> Option<U>)
    requires f(x).None?
    ensures FirstSome([x] + s, f) == FirstSome(s, f)
  {
    var xs := [x] + s;
    assert xs[1..] == s;
    var r := FirstSome(s, f);
    if r.None? {
      assert forall j :: 0 <= j < |xs| ==> f(xs[j]).None? by {
        forall j | 0 <= j < |xs| ensures f(xs[j]).None? {
          if j > 0 { assert xs[j] == s[j - 1]; }
        }
      }
    } else {
      var k := FirstIndex(s, y => f(y).Some?);
      assert k.Some?;
      assert forall j :: 0 <= j < k.value + 1 ==> f(xs[j]).None? by {
        forall j | 0 <= j < k.value + 1 ensures f(xs[j]).None? {
          if j > 0 { assert xs[j] == s[j - 1]; assert !(y => f(y).Some?)(s[j - 1]); }
        }
      }
      FirstSomeIsEarliest(xs, f, k.value + 1);
    }
  }

  /** The same decomposition for `FindFirst`. */
  lemma FindFirstAppend<T>(a: seq<T>, b: seq<T>, p: T -> bool)
    ensures FindFirst(a + b, p) == if FindFirst(a, p).Some? then FindFirst(a, p) else FindFirst(b, p)
  {
    var ab := a + b;
    var ka := FirstIndex(a, p);
    if ka.Some? {
      assert forall j :: 0 <= j < ka.value ==> !p(ab[j]) by {
        forall j | 0 <= j < ka.value ensures !p(ab[j]) { assert ab[j] == a[j]; }
      }
      assert ab[ka.value] == a[ka.value];
      FindFirstIsEarliest(ab, p, ka.value);
    } else {
      var kb := FirstIndex(b, p);
      if kb.Some? {
        assert forall j :: 0 <= j < |a| + kb.value ==> !p(ab[j]) by {
          forall j | 0 <= j < |a| + kb.value ensures !p(ab[j]) {
            if j < |a| { assert ab[j] == a[j]; } else { assert ab[j] == b[j - |a|]; }
          }
        }
        assert ab[|a| + kb.value] == b[kb.value];
        FindFirstIsEarliest(ab, p, |a| + kb.value);
      } else {
        assert forall j :: 0 <= j < |ab| ==> !p(ab[j]) by {
          forall j | 0 <= j < |ab| ensures !p(ab[j]) {
            if j < |a| { assert ab[j] == a[j]; } else { assert ab[j] == b[j - |a|]; }
          }
        }
      }
    }
  }

  /** A loop `acc = f(acc, x)` over `s`, left to right. */
  function FoldLeft<A, T>(f: (A, T) -> A, init: A, s: seq<T>): A
    decreases |s|
  {
    if |s| == 0 then init else FoldLeft(f, f(init, s[0]), s[1..])
  }

  /** Folding a concatenation folds the front block first, then the back
      block starting from the front block's result. */
  lemma {:induction false} FoldLeftAppend<A, T>(f: (A, T) -> A, init: A, a: seq<T>, b: seq<T>)
    ensures FoldLeft(f, init, a + b) == FoldLeft(f, FoldLeft(f, init, a), b)
    decreases |a|
  {
    if |a| == 0 {
      assert a + b == b;
    } else {
      assert (a + b)[0] == a[0];
      assert (a + b)[1..] == a[1..] + b;
      FoldLeftAppend(f, f(init, a[0]), a[1..], b);
    }
  }
}

=== FILE: wrappers.dfy ===
/** Option and Result, the shapes in which the model returns Java's nullable
    references, Optional values and thrown exceptions. */
module Wrappers {

  /** Java's Optional, or a reference that may be null (None). */
  datatype Option<+T> = None | Some(value: T) {

    /** Optional.orElse / orElseGet */
    function GetOr(default: T): T {
      match this
      case Some(v) => v
      case None => default
    }
  }

  /** The outcome of a Java call that either returns a value or throws. */
  datatype Result<+R, +E> = Success(value: R) | Failure(error: E) {

    predicate IsFailure() {
      Failure?
    }

    function PropagateFailure<U>(): Result<U, E>
      requires Failure?
    {
      Failure(error)
    }

    function Extract(): R
      requires Success?
    {
      value
    }
  }
}
